=== FILE: README.md ===
# Logo extraction pipeline, modelled in Dafny

The repository cuts the individual company logos out of one large picture of
a logo wall and publishes them on a web site. Several detector scripts do
this in different ways. Each thresholds the picture against its white
background, finds ink blobs or grid cells, groups them into logos, pads
each logo into a crop box and puts the boxes in reading order. Some of them
score each box with heuristics before saving it. Around the detectors sit
small pixel transforms (background to transparency, black and white
recolouring) and two text-rewriting steps on the site's `index.html` (file
renames and a layout splice).

This project models the logic between the library calls:

- integer geometry: padding, clipping, combined boxes and centroids;
- sequence manipulation: filters, partitions, stable sorts, groupings and string replacement;
- the decision rules: area and aspect filters, the hue wrap-around rule, border strips and scores.

The OpenCV, scikit-learn and PIL results the scripts consume are inputs of
the model. Contours come as records of area, bounding box and moments.
Images come as `seq<seq<...>>` grids. KMeans colour centres come as a
palette.

Floating-point comparisons are restated exactly:

- a mean below 240 becomes a sum below 240 times the count;
- ratio bounds become cross-multiplied integer tests;
- distances become squared distances;
- `int(distance / 5)` becomes the integer square root of the squared distance, divided by 5;
- Python's `int()` of a quotient truncates toward zero (`Base.TruncDiv`).

Modules follow the scripts:

| module | script |
|---|---|
| `Clustered` | `clustered_logo_detector.py` |
| `Enhanced` | `enhanced_logo_detector_v2.py` |
| `BlobCenter` | `blob_center_detector.py` |
| `Extractor` | `logo_extractor.py` |
| `Refined` | `refined_logo_extractor.py` |
| `Validator` | `advanced_logo_extractor.py` and `spaced_logo_extractor.py` (the two share their validator functions) |
| `Background` | `background_remover.py` |
| `ColorConvert` | `logo_color_converter.py` |
| `WebsiteUpdate` and `Mapping` | `update_website_logos.py` |
| `Layout` | `implement_layout_choice.py` |

Shared pieces live in the following modules:

| module | contents |
|---|---|
| `Base` | options, integer helpers |
| `Geometry` | boxes, padding, centroids |
| `Grid` | images, crops, strip means, content extents |
| `Seqs` | sequence lemmas |
| `Sorting` | Python's stable sort, with its stability proved |
| `Components` | DBSCAN with `min_samples=1`, as connected components of the neighbourhood graph |
| `Text` | `find`, `replace`, split and join, `:02d` formatting, ASCII lower-casing |

DBSCAN with `min_samples=1` makes every point a core point. Its clusters are
therefore the connected components of the graph "distance at most eps". The
model numbers clusters in order of their lowest member, which is the order
in which scikit-learn hands out labels when it scans the points.

The merge loop of `cluster_logo_centers` is modelled as a fixed-point
iteration with the following properties:

- each pass refines the clusters (every old cluster lies whole inside a new one);
- a pass that merges shrinks the list;
- the loop ends with no two clusters linked.

## Model

| member | source | states |
|---|---|---|
| Base.TruncDiv | clustered_logo_detector.py:86-88 | Python's int() of an exact quotient: the magnitude is the floor of the magnitudes' quotient and the sign is the quotient's |
| Base.TruncReal | clustered_logo_detector.py:41-42 | int() of a real truncates toward zero |
| Base.ISqrt | clustered_logo_detector.py:72-78 | the integer square root r satisfies r² ≤ n < (r+1)², so int(sqrt(d²) / 5) is ISqrt(d²) / 5 |
| Base.ISqrtUnique | clustered_logo_detector.py:72 | that root is unique |
| Base.TruncDivExact | clustered_logo_detector.py:86-88 | truncating an exact multiple gives the multiplier back, so the interpolation hits both centres |
| Geometry.Centroid | clustered_logo_detector.py:39-46 | with m00 zero, the box centre by floor division; with m00 positive, each coordinate is the truncated moment quotient |
| Geometry.PadLeftTop | clustered_logo_detector.py:210-214 | the corner is max(0, x - pad), max(0, y - pad) and the size is w + 2·pad by h + 2·pad regardless of clipping; the box covers the original |
| Geometry.PadClip | logo_extractor.py:111-114 | along one axis, the start moves out by the padding stopping at 0, the length grows by twice the padding stopping at the image edge; the result stays in the image |
| Geometry.PadClipBox | logo_extractor.py:62-65 | the padded box lies inside the image, is non-empty for a corner inside the image, and covers a box that lies inside the image |
| Extractor.Boundaries | logo_extractor.py:120-139 | the boundaries start at 0, end at the projection's length and strictly increase; a position strictly inside is a boundary exactly when the projection is at least min_gap there and below it just before |
| Extractor.FindBoundaries | logo_extractor.py:124-139 | the one-pass scan with the remembered in-gap flag returns exactly those boundaries |
| Extractor.Tiling | logo_extractor.py:92-94 | consecutive boundaries tile the range: every position lies in exactly one interval between neighbouring boundaries |
| Extractor.Mask | logo_extractor.py:79 | the mask has the image's shape and is set exactly where the grey level is below 250 |
| Extractor.RowProjection | logo_extractor.py:82 | one entry per image row, entry i the number of set pixels in row i |
| Extractor.ColProjection | logo_extractor.py:83 | one entry per column, entry j the number of rows whose pixel in column j is set, at most the height |
| Extractor.RowProjectionTotal | logo_extractor.py:79-82 | the row projection adds up to the number of set pixels of the mask |
| Extractor.ColProjectionTotal | logo_extractor.py:79-83 | the column projection adds up to the same number, so both projections count every set pixel exactly once |
| Extractor.BandCells | logo_extractor.py:97-105 | the cells of a row band span the band's rows, lie in the image, are non-empty, chain left to right from column 0 to the width |
| Extractor.GridCells | logo_extractor.py:86-105 | every cell of every band lies in the image and holds at least one pixel |
| Extractor.GridCellsCover | logo_extractor.py:86-105 | every pixel of the image lies in some grid cell |
| Extractor.CellBox | logo_extractor.py:111-114 | a cell padded by 20 and clipped lies in the image, has positive size and holds the cell |
| Extractor.DenseCellBoxes | logo_extractor.py:107-116 | one box per dense cell at most; each lies in the image with positive size; every cell holding more than 1000 set pixels contributes its box |
| Extractor.DenseCellBoxAt | logo_extractor.py:107-116 | every box kept comes from a cell holding more than 1000 set pixels |
| Extractor.DetectLogosGrid | logo_extractor.py:70-118 | every grid box lies in the image with positive size, and every dense grid cell's padded box is reported |
| Extractor.DenseCellBoxesInOrder | logo_extractor.py:107-116 | the dense boxes are exactly the boxes of the cells holding more than 1000 set pixels, in cell order: an increasing list of the dense cells' positions matches the boxes one to one |
| Extractor.DetectLogosGridInOrder | logo_extractor.py:92-116 | the grid detector's boxes are the dense grid cells' boxes in the order the bands and cells are scanned, one per dense cell, so the names given by position follow that order |
| Extractor.DetectLogosGridSound | logo_extractor.py:92-116 | every reported grid box is the padded box of a grid cell with more than 1000 non-white pixels |
| Extractor.DetectLogosContours | logo_extractor.py:56-68 | at most one box per contour, each inside the image; every contour of logo size contributes its padded, clipped box |
| Extractor.DetectLogosContoursSound | logo_extractor.py:57-66 | every reported box is the padded, clipped box of a contour with 5000 < area < 0.3·width·height, and covers that contour's box when the latter lies in the image |
| Extractor.DetectLogosContoursInOrder | logo_extractor.py:56-68 | the contour detector's boxes are the padded, clipped boxes of the logo-sized contours in contour order, one per such contour: an increasing list of their positions matches the boxes one to one |
| Extractor.SelectBoxes | logo_extractor.py:197-208 | "manual", "contours" and "grid" each pick their source; any other method gives the grid boxes, then the contour boxes only when the grid found fewer than 10 |
| Extractor.SavedIndices | logo_extractor.py:214-234 | the surviving positions: in increasing order, each below the number of boxes and not failed, and every such position listed |
| Extractor.SavedIndicesAll | logo_extractor.py:214-234 | with no failed save, position k is the k-th survivor, all n of them |
| Extractor.SaveLogosComplete | logo_extractor.py:214-231 | every box whose save did not fail has an entry holding it under its own number |
| Extractor.SaveLogosAllSaved | logo_extractor.py:214-231 | with no failed save, entry i is box i under logo_{i+1:02d}.png, one entry per box |
| Extractor.Candidates | logo_extractor.py:197-208 | "manual" gives the 22 measured boxes, "contours" the contour boxes, "grid" the grid boxes; any other method the grid boxes, followed by the contour boxes exactly when the grid found fewer than 10; all but the manual boxes lie in the image |
| Extractor.SaveLogos | logo_extractor.py:213-234 | one entry per box whose save did not fail, in box order: the k-th entry holds the box at the k-th surviving position p under logo_{p+1:02d}.png, so a failure leaves its number unused; no two names equal |
| Extractor.ExtractLogos | logo_extractor.py:188-246 | the entries are exactly those the save loop keeps from the candidate boxes of the chosen method (Extractor.Candidates), named by position; except for the hand-measured boxes every saved box lies in the image; no two names equal |
| Extractor.SelectInside | logo_extractor.py:197-208 | when the grid and contour boxes lie in the image, so does every selection but "manual" |
| Extractor.ManualSuffices | logo_extractor.py:278-283 | the 22 hand-measured boxes, saved without failure, give 22 entries and pass the fewer-than-10 test, so the automatic fallback of main never runs |
| Refined.Search | refined_logo_extractor.py:20-26 | the search window is the box grown by the padding, its near ends clipped at 0 and its far ends at the image size; a far end that is still negative counts back from the image's edge, as numpy slicing does |
| Refined.WrappedSearchRefines | refined_logo_extractor.py:20-26 | a box lying left of the image, whose padded far end is negative, still searches from column 0 to that many columns before the right edge, and content there moves the box into the image |
| Refined.AnalyzeLogoBoundaries | refined_logo_extractor.py:11-65 | with no non-white pixel in the window the input box comes back unchanged; otherwise the result lies in the image with positive size and holds every non-white pixel of the window (its four edges are pinned by Refined.ColumnsFromContent and Refined.RowsFromContent) |
| Refined.ColumnsFromContent | refined_logo_extractor.py:47-65 | when the window holds content, the result's x is max(0, left - 15) and its right edge min(W, x + right - left + 30), for left and right the first and last window columns holding a non-white pixel |
| Refined.RowsFromContent | refined_logo_extractor.py:47-65 | likewise the result's y is max(0, top - 15) and its bottom edge min(H, y + bottom - top + 30), for top and bottom the first and last window rows holding a non-white pixel |
| Refined.ExtentIsContent | refined_logo_extractor.py:39-50 | the window has no extent exactly when it holds no non-white pixel; otherwise the extent bounds every such pixel and its top row and left column hold one |
| Refined.WhiteChannels | refined_logo_extractor.py:30-33 | a pixel is white exactly when every channel is at least 245 |
| Refined.GrayWhite | refined_logo_extractor.py:32-33 | a grey level is white exactly when it is at least 245 |
| Refined.RgbWhite | refined_logo_extractor.py:30-31 | an RGB pixel is white exactly when all three channels are at least 245 |
| Clustered.BlobsFrom | clustered_logo_detector.py:34-58 | the blobs come from contours passing the area filter, each carrying its contour's index as id, ids increasing |
| Clustered.BlobsFromComplete | clustered_logo_detector.py:35-37 | no contour passing the filter is dropped |
| Clustered.DetectBlobs | clustered_logo_detector.py:33-61 | exactly the contours with 500 < area < 100000, in contour order, each with its contour index, its moment centroid truncated (box centre when m00 is 0) and its box |
| Clustered.FarNotConnected | clustered_logo_detector.py:74-75 | centres more than 200 pixels apart are never connected |
| Clustered.CloseConnected | clustered_logo_detector.py:78-80 | fewer than two samples exactly when the centres are under 10 pixels apart, and such blobs always connect |
| Clustered.SampledConnected | clustered_logo_detector.py:82-97 | otherwise there are at least two samples and the answer is whether more than 30% of them are coloured pixels inside the image |
| Clustered.SamplesEnds | clustered_logo_detector.py:85-88 | the first sample is the first centre and the last is the second |
| Clustered.SamplesReverse | clustered_logo_detector.py:85-88 | sampling from b to a visits the same points as from a to b, backwards |
| Clustered.ConnectedSymmetric | clustered_logo_detector.py:63-97 | connectivity does not depend on which blob comes first |
| Clustered.NearSymmetric | clustered_logo_detector.py:114 | the DBSCAN neighbourhood (distance at most 0.8·min_distance) is symmetric |
| Clustered.DistanceClusters | clustered_logo_detector.py:114-119 | cluster k holds, in input order, the blobs of the k-th connected group of the neighbourhood graph, under label k |
| Clustered.DistanceClustersPartition | clustered_logo_detector.py:116-119 | every blob lands in exactly one distance cluster |
| Clustered.FirstLinked | clustered_logo_detector.py:132-152 | the first later cluster linked to cluster p, and none before it; none exactly when no later cluster is linked |
| Clustered.MergeBlobs | clustered_logo_detector.py:146-150 | merging keeps the multiset of all blobs |
| Clustered.MergeRefines | clustered_logo_detector.py:146-150 | every old cluster lies whole inside some new cluster and every new cluster carries the label of an old one it contains |
| Clustered.MergeAscending | clustered_logo_detector.py:146-150 | labels stay in increasing order |
| Clustered.RefinesRefl | clustered_logo_detector.py:121-152 | a cluster list refines itself |
| Clustered.RefinesTrans | clustered_logo_detector.py:121-152 | refinement composes across merge passes |
| Clustered.Sweep | clustered_logo_detector.py:126-152 | one pass: the result refines the input and keeps labels ascending; a pass that merges shrinks the list and the input had a linked pair; a pass that does not returns its input, which links no two clusters; if the input was merged from an earlier list only along chains of links, so is the result |
| Clustered.MergeConnected | clustered_logo_detector.py:122-152 | the merge loop ends with no two clusters linked, refining the DBSCAN clusters, never more clusters, and unchanged when nothing was linked; every result cluster is a chain of input clusters, each reachable from the first through linked clusters, so clusters are merged only when linked |
| Clustered.LinkGraphSymmetric | clustered_logo_detector.py:138-145 | the test for merging two clusters (some blob of one connected to some blob of the other) does not depend on which cluster comes first |
| Clustered.GatherAppend | clustered_logo_detector.py:149 | `extend` appends the absorbed cluster's blobs after the absorbing cluster's: the blobs of two chains of clusters, one after the other, are the blobs of the joined chain |
| Clustered.LinkedGathered | clustered_logo_detector.py:138-145 | when two merged clusters are linked, some original cluster in the first is linked to some original cluster in the second |
| Clustered.OriginsInit | clustered_logo_detector.py:116-119 | before any merging each DBSCAN cluster is its own origin, under its own label |
| Clustered.ChainedJoin | clustered_logo_detector.py:138-150 | two chains of linked clusters with a link between them form one chain |
| Clustered.OriginsMerge | clustered_logo_detector.py:147-150 | merging two linked clusters keeps every cluster a chain of linked originals, holding their blobs in order under the first one's label, with every original used once |
| Clustered.SweepMerge | clustered_logo_detector.py:147-151 | one merge inside a pass keeps the refinement, the ascending labels and the chain-of-links origins |
| Clustered.EdgesListed | clustered_logo_detector.py:164-167 | both edges of every blob box are listed |
| Clustered.EdgesFromBlobs | clustered_logo_detector.py:164-167 | only blob edges are listed |
| Clustered.Combine | clustered_logo_detector.py:158-189 | the combined box runs from the least to the greatest listed edge, both of them listed; its centre is the floor of its midpoint; label, area, count and blobs are carried |
| Clustered.CombineCovers | clustered_logo_detector.py:170-174 | the combined box holds every blob box |
| Clustered.CombineTight | clustered_logo_detector.py:170-174 | each edge of the combined box is an edge of some blob |
| Clustered.ReadingOrderPreorder | clustered_logo_detector.py:196 | the key (cy // 150, cx) orders logos totally |
| Clustered.SortLogos | clustered_logo_detector.py:196 | the sorted logos are a permutation of the input in reading order, logos with equal keys keeping their relative order |
| Clustered.CombineAll | clustered_logo_detector.py:157-189 | one combined logo per cluster, in cluster order |
| Clustered.CombineAllBlobs | clustered_logo_detector.py:157-189 | the combined logos carry exactly the clusters' blob lists |
| Clustered.UnlinkedApart | clustered_logo_detector.py:122-152 | when no two clusters are linked, no two combined logos have connected blobs |
| Clustered.MergedFacts | clustered_logo_detector.py:121-196 | after merging, combining and sorting, no two logos have connected blobs and every cluster the merge started from (the DBSCAN groups) lies whole inside one logo |
| Clustered.BlobCountTotalIsLength | clustered_logo_detector.py:185 | the blob counts add up to the number of blobs carried |
| Clustered.ClusterLogoCenters | clustered_logo_detector.py:99-198 | every blob lands in exactly one logo, counts add up, each logo is the combination of its blobs, logos come in reading order; without an image the logos are the DBSCAN groups; with one no two logos connect, no DBSCAN group is split, each logo's blobs are those of a chain of DBSCAN groups joined by links, and when no two DBSCAN groups are linked the logos are the DBSCAN groups |
| Clustered.JoinedAfterSort | clustered_logo_detector.py:154-198 | sorting the combined logos into reading order keeps each logo's blobs a chain of linked DBSCAN groups |
| Clustered.BoxName | clustered_logo_detector.py:218 | the name is "clustered-logo-" followed by the position in decimal, which parses back to the position |
| Clustered.BoxNamesDistinct | clustered_logo_detector.py:218 | different positions get different names |
| Clustered.ExtractionBoxOf | clustered_logo_detector.py:206-229 | the entry copies the logo's label, centre, area and blob count, is named by its position, and its box is exactly (max(0, x - 25), max(0, y - 25), w + 50, h + 50), covering the logo's box when its corner is non-negative |
| Clustered.CreateExtractionBoxes | clustered_logo_detector.py:200-234 | one entry per logo in order, entry i's box exactly (max(0, x - 25), max(0, y - 25), w + 50, h + 50) of logo i, covering it, names pairwise different |
| BlobCenter.AspectRatio | blob_center_detector.py:74 | w / h when h is positive, 1 otherwise |
| BlobCenter.Describe | blob_center_detector.py:57-85 | one entry per kept contour, numbered by its position among the kept contours |
| BlobCenter.RowOrderPreorder | blob_center_detector.py:90 | the key (cy // 100, cx) orders the entries totally |
| BlobCenter.DetectLogoCenters | blob_center_detector.py:42-90 | the result is a permutation of the kept contours' entries (area strictly between 1000 and 50000), in reading order, entries with equal keys in kept order; each id names the entry's kept contour |
| BlobCenter.TwoRowsKept | blob_center_detector.py:46-50 | both contours of the two-row example pass the area filter |
| BlobCenter.TwoRowsSorted | blob_center_detector.py:90 | the stable sort puts the upper contour first |
| BlobCenter.IdsNeedNotBePositions | blob_center_detector.py:57-90 | an id is the place among the kept contours, numbered before sorting, so the entry numbered 1 can come first in the result |
| BlobCenter.CreateSmartBoxes | blob_center_detector.py:120-153 | entry i keeps position i as id, a name detected-logo-NN that no other entry has, the centre, area and aspect ratio; its box is exactly (max(0, x - pad), max(0, y - pad), w + 2·pad, h + 2·pad) for the padding given (15 at the detector's only call), never clipped at the far edges, covering the logo's box |
| Enhanced.AspectCrossMultiplied | enhanced_logo_detector_v2.py:80-81 | the ratio test 0.3 < w / h < 8 is the integer test 3h < 10w and w < 8h |
| Enhanced.DetectContentRegions | enhanced_logo_detector_v2.py:69-84 | the kept contours come from the input, each with 2000 < area < 50000 and 0.3 < w / h < 8, and every such contour is kept |
| Enhanced.FilterKept | enhanced_logo_detector_v2.py:74-82 | the integer filter keeps exactly the contours the source's two tests keep |
| Enhanced.RefineOne | enhanced_logo_detector_v2.py:92-119 | no refined box exactly when the box holds no pixel below 240; otherwise the box around that ink, padded by 10 and clipped, lies in the image with positive size, holds every ink pixel and carries area w·h |
| Enhanced.RefineEach | enhanced_logo_detector_v2.py:92-119 | one refinement per input box, in order |
| Enhanced.RefineBoundingBoxes | enhanced_logo_detector_v2.py:86-121 | the refined boxes of the contours holding ink, no others, each inside the image with positive size |
| Enhanced.SameRowSymmetric | enhanced_logo_detector_v2.py:131-134 | the DBSCAN neighbourhood on centre heights (at most 50 apart) is symmetric |
| Enhanced.RowGroups | enhanced_logo_detector_v2.py:134-139 | the row clusters hold exactly the input boxes; cluster k is the boxes of the k-th connected component of the same-row graph (centres at most 50 apart), in input order |
| Enhanced.SumYPermutation | enhanced_logo_detector_v2.py:144 | the summed tops of a row do not depend on its order |
| Enhanced.MeanYPermutation | enhanced_logo_detector_v2.py:144-147 | so the row's mean top is the same before and after sorting it by x |
| Enhanced.SortByX | enhanced_logo_detector_v2.py:146 | a row sorted by x is a permutation of the row, in ascending x |
| Enhanced.SortByXStable | enhanced_logo_detector_v2.py:146 | the sort by x is stable: boxes with the same x keep their order in the row |
| Enhanced.ClusterLogosByRows | enhanced_logo_detector_v2.py:123-150 | no rows for no boxes; the rows hold exactly the input boxes, as the DBSCAN clusters did; each row in ascending x; rows in ascending mean top |
| Enhanced.RowsFacts | enhanced_logo_detector_v2.py:142-150 | the keyed, sorted rows keep the boxes and the clusters, each row sorted by x, rows by mean top |
| Enhanced.RowIsSortedGroup | enhanced_logo_detector_v2.py:137-147 | every row is one DBSCAN row cluster sorted by x, and boxes of a row with equal x keep that cluster's order, which is input order |
| Enhanced.RowsStable | enhanced_logo_detector_v2.py:142-150 | the rows with a given mean top come out in the order the DBSCAN clusters had, each sorted by x: the sort by mean top is stable |
| Enhanced.CompanyRepeated | enhanced_logo_detector_v2.py:26-49 | the company list has 22 entries and repeats the laboratory at positions 2 and 20, whose file names still differ |
| Enhanced.ShortNameClean | enhanced_logo_detector_v2.py:165 | a short name contains no space, ampersand, dot, comma or upper-case ASCII letter |
| Enhanced.AssignCompanyNames | enhanced_logo_detector_v2.py:152-178 | as many entries as boxes, at most 22; entry i is the i-th box of the rows read in order, with company i, its short name, logo_{i+1:02d}.png and "company Logo" |
| Enhanced.AssignRow | enhanced_logo_detector_v2.py:159-176 | the inner loop continues the numbering of the boxes before the row |
| Enhanced.AssignedFilenamesDistinct | enhanced_logo_detector_v2.py:166 | the assigned file names are pairwise different |
| Enhanced.Check | enhanced_logo_detector_v2.py:195-200 | content and density are ink shares above 5% and 10%; size strictly between 1000 and 40000; aspect strictly between 0.5 and 6; edge content when a 5-pixel strip has mean below 240; density implies content |
| Enhanced.InkShare | enhanced_logo_detector_v2.py:196-199 | the share tests are 20n > size and 10n > size |
| Enhanced.AspectBetween | enhanced_logo_detector_v2.py:198 | 0.5 < w / h < 6 is h < 2w and w < 6h |
| Enhanced.Score | enhanced_logo_detector_v2.py:203-209 | a multiple of 5 in 0..100, 100 exactly when every criterion passes and the edges are clean; at least 70 exactly when content with good size and aspect, or content with one of them plus density and clean edges, or no content with size, aspect, density and clean edges |
| Enhanced.ScoreWeights | enhanced_logo_detector_v2.py:203-209 | content adds 30, size 25, aspect 25, density 10 and clean edges 10; a logo failing every criterion scores 0 |
| Enhanced.ValidateLogo | enhanced_logo_detector_v2.py:186-213 | the score is that of the checks; valid exactly when the logo has content and either a good size and aspect, or one of them with density and clean edges; a logo without content is never valid |
| Enhanced.ValidateExtractions | enhanced_logo_detector_v2.py:180-217 | every logo scored, in order |
| Enhanced.ExtractValidLogos | enhanced_logo_detector_v2.py:402-424 | the saved logos are exactly the valid ones, as many as are valid |
| Enhanced.RunDetection | enhanced_logo_detector_v2.py:426-459 | as many validated logos as refined boxes, at most 22; entry k is the k-th refined box in row-by-row reading order, assigned company k and logo_{k+1:02d}.png, lies inside the image with positive size, and carries that box's validation and score |
| Validator.ContentPixels | advanced_logo_extractor.py:31-35 | the kept pixels are exactly the region's pixels with channel sum below 720, as many as there are such pixels |
| Validator.ClusterCount | advanced_logo_extractor.py:37-45 | no clustering (empty scheme) exactly when fewer than two content pixels or colours are asked for; otherwise min(n_colors, content pixels) clusters, at least 2 |
| Validator.SchemeEmpty | advanced_logo_extractor.py:68 | with the 8 colours the detector asks for, the scheme is empty exactly when the region has fewer than two content pixels |
| Validator.MaxHue | advanced_logo_extractor.py:93 | the maximum is one of the hue centres and bounds them all from above |
| Validator.MinHue | advanced_logo_extractor.py:93 | the minimum is one of the hue centres and bounds them all from below |
| Validator.Spread | advanced_logo_extractor.py:93 | the spread is the difference of two centres, non-negative, and at most 180 on OpenCV's hue scale |
| Validator.HueWrapFlag | advanced_logo_extractor.py:95-99 | on the hue scale, the wrap-around rule flags a spread exactly when it lies strictly between 60 and 120 |
| Validator.NearRedNotFlagged | advanced_logo_extractor.py:94-96 | hue centres 0 and 170, close around the circle, are not flagged |
| Validator.ColorInconsistent | advanced_logo_extractor.py:63-101 | never flagged with fewer than two content pixels or colours; on the hue scale, flagged exactly when there are at least two colours and two hue centres whose spread lies strictly between 60 and 120 |
| Validator.BorderContentCount | advanced_logo_extractor.py:121-130 | the number of the four 10-pixel border strips whose mean grey level is below 240 (an empty strip, whose numpy mean is NaN, never counts); at most 4 |
| Validator.LumaCrop | advanced_logo_extractor.py:108-114 | the grey crop is a width by height rectangle |
| Validator.ValidateLogoBoundaries | advanced_logo_extractor.py:103-142 | name and coordinates echoed; border count at most 4; needs adjustment exactly when the colours are inconsistent or at least three borders are dark |
| Validator.BrightBorders | advanced_logo_extractor.py:125-130 | a crop whose grey levels are all at least 240 has no dark border |
| Validator.PlainRegionPasses | advanced_logo_extractor.py:103-142 | a crop with at most one content pixel and no grey level below 240 does not need adjustment |
| Validator.ValidateAll | advanced_logo_extractor.py:300-305 | one report per table entry, in order, each the validation of that entry's box and name |
| Validator.SaveValid | advanced_logo_extractor.py:319-344 | the advanced extractor saves exactly the entries that do not need adjustment, and saved plus needing adjustment is the total |
| Validator.SaveValidAppend | advanced_logo_extractor.py:319-344 | saving two tables one after the other saves the concatenation: the saved list keeps table order |
| Validator.SaveAll | spaced_logo_extractor.py:285-303 | the spaced extractor saves every entry under logo-<name>.png, and its valid count plus those needing adjustment is the number extracted |
| Validator.PassOrNeeds | spaced_logo_extractor.py:301-303 | passing and needing adjustment split the reports |
| Validator.AdvancedWithinSpaced | spaced_logo_extractor.py:285-303 | every file the advanced extractor saves the spaced one saves too, and their valid counts agree |
| Background.ClearPixel | background_remover.py:30-41 | RGB is kept; alpha becomes 0 exactly when the channel sum reaches three times the threshold (the all-channels test is subsumed by the mean test), else it is kept |
| Background.RemoveBackground | background_remover.py:11-49 | same shape, RGB kept everywhere, and pixelwise alpha 0 for bright pixels and the old alpha otherwise |
| Background.RemoveIdempotent | background_remover.py:11-49 | removing the background of an already processed image changes nothing (files are overwritten in place, so a re-run is harmless) |
| Background.LowerThresholdClearsMore | background_remover.py:30-41 | a pixel made transparent at one threshold is made transparent at every lower threshold |
| Background.ProcessLogosForTransparency | background_remover.py:51-75 | the count returned is the number of entries whose lower-cased name ends in ".png", whose name does not end in "-black.png" or "-white.png", that are not directories and whose conversion succeeds |
| ColorConvert.BlackPixel | logo_color_converter.py:24-29 | alpha kept; a visible pixel becomes black; a transparent one is untouched |
| ColorConvert.WhitePixel | logo_color_converter.py:49-54 | alpha kept; a visible pixel becomes white; a transparent one is untouched |
| ColorConvert.ConvertToBlack | logo_color_converter.py:11-34 | same shape; pixelwise, alpha kept, visible pixels black, transparent pixels untouched |
| ColorConvert.ConvertToWhite | logo_color_converter.py:36-59 | same shape; pixelwise, alpha kept, visible pixels white, transparent pixels untouched |
| ColorConvert.BlackIdempotent | logo_color_converter.py:24-29 | converting to black twice is converting once |
| ColorConvert.WhiteIdempotent | logo_color_converter.py:49-54 | converting to white twice is converting once |
| ColorConvert.WhiteAfterBlack | logo_color_converter.py:11-59 | the white variant of the black variant is the white variant: only the alpha channel survives either conversion |
| ColorConvert.AllVariants | logo_color_converter.py:71-85 | the plan of a run: one variant pair per file whose lower-cased name ends in ".png", each named by replacing every ".png" in the file name, and every such file has its pair |
| ColorConvert.AllVariantsAppend | logo_color_converter.py:71-85 | the plan for two directory listings one after the other is the plan of their concatenation: variants keep listing order |
| ColorConvert.ConvertedPrefix | logo_color_converter.py:71-85 | the reference for a run: the longest prefix of the plan whose files all convert; the next file of the plan, if any, does not |
| ColorConvert.RunPlan | logo_color_converter.py:73-85 | walking the plan, writing black then white versions, converts exactly the reference prefix; it fails exactly when that prefix is not the whole plan, at the next file, whose conversion raised, with its black version written exactly when only the white conversion raised |
| ColorConvert.WholePlanConverts | logo_color_converter.py:71-85 | the whole plan converts exactly when no file whose lower-cased name ends in ".png" has a conversion that raises |
| ColorConvert.ProcessLogos | logo_color_converter.py:61-85 | a run converts the longest prefix of the plan whose files all convert; it fails exactly when some PNG file's conversion raises, and then at the next file of the plan, noting whether its black version was written; without a failure it converts the whole plan |
| ColorConvert.ProcessLogosComplete | logo_color_converter.py:71-85 | when no conversion raises, a run writes the whole plan and ends without a failure |
| ColorConvert.PngSuffixReplaced | logo_color_converter.py:76-82 | a name ending in ".png" ends in the replacement after every ".png" in it is replaced |
| ColorConvert.VariantsNotReprocessed | background_remover.py:58 | the variant names of a file named in lower-case ".png" are never selected by the background remover |
| ColorConvert.UpperCaseNameKept | logo_color_converter.py:72-82 | a file selected for its ".PNG" extension but with no lower-case ".png" in its name keeps its name in both variants |
| WebsiteUpdate.TableStemsOk | update_website_logos.py:30-53 | the renaming table has 22 rows and no old stem contains an underscore |
| WebsiteUpdate.OldPathShape | update_website_logos.py:60 | an old path "logos/logo-<stem>.png" has no underscore |
| WebsiteUpdate.NewPathShape | update_website_logos.py:61 | a new path "logos/logo_NN.png" has no hyphen, and its 'l's sit at the two known positions |
| WebsiteUpdate.OldNewCompatible | update_website_logos.py:59-65 | writing a new path never creates an old path, whether inside it or across either of its ends |
| WebsiteUpdate.ReplaceKeepsClean | update_website_logos.py:63-64 | replacing row k's old path keeps the text free of the old paths of the earlier rows and frees it of row k's |
| WebsiteUpdate.ApplyRenames | update_website_logos.py:55-77 | for a table whose stems have no underscore: the page is the table's replacements applied in row order; the count is the number of rows whose old path occurs in the page at their turn, at most the number of rows whose old path occurs in the original page; written exactly when some row applied; none applies exactly when no old path occurs, and then the page is unchanged; afterwards no old path of the table occurs |
| WebsiteUpdate.OnlyOriginalPaths | update_website_logos.py:55-65 | renaming never brings in an old path the original page lacked |
| WebsiteUpdate.RenamedClean | update_website_logos.py:59-65 | after the first k rows none of their old paths is left in the page |
| WebsiteUpdate.AppliedNone | update_website_logos.py:59-65 | at most k of the first k rows apply, none exactly when none of their old paths occurs in the original page, and then the page is unchanged |
| WebsiteUpdate.AppliedAtMostPresent | update_website_logos.py:59-65 | only rows whose old path occurs in the original page can apply |
| WebsiteUpdate.FoldFacts | update_website_logos.py:55-77 | the same facts for the whole table |
| WebsiteUpdate.UpdateIndexHtml | update_website_logos.py:16-77 | with the fixed 22-row table: the page is the 22 replacements applied in order, the count that of rows applying at their turn, at most 22 and at most the number of old paths in the original page; written exactly when one applied; no old path left in the page |
| WebsiteUpdate.FirstAppearance | update_website_logos.py:92-97 | the distinct sectors, each once, exactly those that occur |
| WebsiteUpdate.GroupExisting | update_website_logos.py:95-97 | appending a logo of a sector already seen extends that sector's group only |
| WebsiteUpdate.GroupFresh | update_website_logos.py:95-97 | appending a logo of a new sector opens a new group at the end |
| WebsiteUpdate.GroupBySector | update_website_logos.py:91-97 | one group per sector in order of first appearance, each holding exactly that sector's logos in input order, a missing sector read as "unknown" |
| Mapping.SectorOr | update_website_logos.py:94 | a missing sector reads as the default, a present one as itself |
| Layout.TickerItems | implement_layout_choice.py:29-45 | the ticker lists every logo, in mapping order, then the same list again: twice the length, each logo shown exactly twice as often as listed |
| Layout.Members | implement_layout_choice.py:150-153 | a sector's logos are exactly the mapping's logos of that sector, a missing sector read as "private" |
| Layout.UsedSectors | implement_layout_choice.py:157-158 | the sectors kept are exactly those of the order that some logo uses |
| Layout.CardsFor | implement_layout_choice.py:157-171 | one card per used sector in the order given, each showing the first 8 of that sector's logos |
| Layout.SectorCards | implement_layout_choice.py:142-171 | cards for federal, private, government and academic in that order, skipping empty sectors: at most 4 cards, each showing 1 to 8 logos, all of the card's sector |
| Layout.CardsShown | implement_layout_choice.py:157-163 | every card of the used sectors shows between 1 and 8 logos of its own sector |
| Layout.SpotlightGroups | implement_layout_choice.py:280-296 | the premium group is exactly the mapping's premium logos; the regular group is the first 12 of the others, in mapping order |
| Layout.SpotlightPartition | implement_layout_choice.py:282-283 | premium and other logos partition the mapping, order kept: interleaving them back by the premium test gives the mapping |
| Layout.SectionFor | implement_layout_choice.py:434-445 | only "ticker", "sectors" and "spotlight" name a layout |
| Layout.Splice | implement_layout_choice.py:459 | the head before the start marker is kept, the new section follows it, then six characters of blank line, then the text from the end marker on |
| Layout.SpliceOrder | implement_layout_choice.py:451-459 | when the end marker comes first, the text between the markers is kept twice and the page grows by it; otherwise it is dropped |
| Layout.ReplaceCss | implement_layout_choice.py:461-467 | with no CSS start marker, or no footer marker after it, the page is kept; otherwise the text from the start marker to the footer marker is replaced by the new CSS and a blank line |
| Layout.UpdateWebsite | implement_layout_choice.py:422-475 | no update for an unknown choice or a missing section marker, an update otherwise: the section spliced between the markers' first occurrences, then the CSS swapped |
| Text.EndsWith | background_remover.py:58 | `str.endswith`: true exactly when the suffix occurs at the position that makes it end the string |
| Text.Find | implement_layout_choice.py:451-452 | `str.find`: -1 exactly when the marker occurs nowhere from the start position on; otherwise the index of its first occurrence |
| Text.SplitJoin | update_website_logos.py:63-64 | joining the pieces of a split with the separator gives back the original string |
| Text.ReplaceIsSplitJoin | update_website_logos.py:63-64 | `str.replace` replaces every non-overlapping occurrence, left to right: it equals splitting on the pattern and joining with the replacement |
| Text.ReplaceAbsent | update_website_logos.py:62-64 | replacing a pattern that does not occur leaves the string unchanged |
| Text.ReplaceAvoids | update_website_logos.py:63-64 | after a replace, the pattern no longer occurs, and neither does any string that is absent beforehand and cannot be created by the replacement text or at its seams |
| Text.ReplaceRemovesChar | enhanced_logo_detector_v2.py:165 | replacing a character by text that does not contain it removes every occurrence of that character |
| Text.Pad2RoundTrip | logo_extractor.py:220 | the `:02d` form of a number reads back as the same number |
| Text.NumberedNamesDistinct | logo_extractor.py:220 | two different numbers give two different numbered file names, so no saved crop overwrites another |
| Text.LowerIdempotent | enhanced_logo_detector_v2.py:165 | lower-casing twice is lower-casing once, and a lower-cased string holds no upper-case ASCII letter |
| Sorting.Sort | clustered_logo_detector.py:196 | `list.sort(key=...)` returns a permutation of its input (same multiset, same length) |
| Sorting.SortSorted | clustered_logo_detector.py:196 | under a total preorder the result is sorted |
| Sorting.SortStable | clustered_logo_detector.py:196 | elements with equal keys keep their input order |
| Sorting.SortSwapsPair | clustered_logo_detector.py:196 | two elements in the wrong order come out swapped |
| Sorting.LexKeyPreorder | clustered_logo_detector.py:196 | comparing by a (row band, x) tuple key is a total preorder, so the sort lemmas apply to it |
| Components.ComponentIsReachable | clustered_logo_detector.py:114 | the component grown from a point is exactly the set of points reachable from it through eps-neighbours |
| Components.GroupsPartition | clustered_logo_detector.py:114-119 | DBSCAN with min_samples = 1 puts every point in exactly one cluster |
| Components.GroupsAreComponents | clustered_logo_detector.py:114-119 | two points share a cluster exactly when a chain of eps-neighbours joins them |
| Components.GroupsOrdered | clustered_logo_detector.py:117-119 | clusters come out ordered by their lowest point, and each lists its points in index order |
| Grid.Crop | advanced_logo_extractor.py:108 | `image.crop` gives a w by h image whose pixel (i, j) is the source pixel at (y+i, x+j), or the fill value outside the source |
| Grid.BrightNotBelow | advanced_logo_extractor.py:125-128 | a border strip whose every grey level is at least t does not have a mean below t |
| Grid.ContentExtent | refined_logo_extractor.py:38-50 | no extent exactly when no pixel satisfies the test; otherwise the first and last rows and columns holding one, so the extent holds every such pixel |
| Grid.ExtentInWindow | refined_logo_extractor.py:20-54 | the extent of matching pixels inside the clipped window, in image coordinates: none exactly when the window has no match; otherwise it holds every match and each of its four edges (top, bottom, left, right) is reached by one |
| Grid.PadExtent | refined_logo_extractor.py:58-63 | the content extent grown by the margin: corner (max(0, left - m), max(0, top - m)), far edges min(W, x + right - left + 2m) and min(H, y + bottom - top + 2m); it lies inside the image, has positive size and contains the extent |

## Left out

- OpenCV calls are inputs, not models: `threshold`, `adaptiveThreshold`, `GaussianBlur`, `morphologyEx`, `findContours`, `contourArea`, `boundingRect`, `moments` and `Canny`. Contours arrive as records of area, box and moments.
- KMeans colour clustering and the RGB-to-HSV conversion are randomised float library code. The cluster centres and their hues arrive as a palette, and only the rule applied to them is modelled.
- PIL's `convert('L')` is not modelled. The grey-level image is an input alongside the colour image.
- Floating-point rounding is not modelled. Areas, moments and hue centres are exact reals. Means, ratios and distances are compared exactly, by sums, cross-multiplication and squared distances.
- Image decoding, PNG saving, JSON dumps, `print`, `input()`, directory creation, backups and directory listing are I/O. A conversion that fails in the background remover is the `converts` flag of a directory entry. A conversion that raises in the colour converter is a name in the `blackFails` or `whiteFails` set given to ColorConvert.ProcessLogos. A crop or save that raises in `extract_logos` is a position in the `failed` set given to Extractor.SaveLogos and Extractor.ExtractLogos. Directory contents are sequences of names.
- The HTML preview and debug visualisation functions, and the HTML and CSS template text, produce presentation only. The layout model takes each section's markup as an input.
- Validator.ValidateLogoBoundaries: the report's `contour_count` (Canny edges plus `findContours`) is left out, because it is a library result that no decision reads.
- Validator.ColorInconsistent: the unused `threshold` parameter of `detect_color_inconsistencies` is not modelled.
- The column boundaries that `detect_logos_grid` computes over the whole image but never uses are not modelled. Only the per-band column boundaries are.
- `refined_background_remover.py` is not part of this model. It consists of Gaussian filters, Sobel gradients, a distance transform and float alpha blending.
- `improved_logo_extractor.py` is not part of this model. Neither are the hand-measured coordinate tables or the crop-and-save loops built on them in `refined_logo_extractor.py`, `advanced_logo_extractor.py` and `spaced_logo_extractor.py`. They are static data; only the 22 boxes of `logo_extractor.py` enter, through Extractor.ManualSuffices.
- The `main` functions are not modelled, apart from the fallback test in `logo_extractor.py` (Extractor.ManualSuffices).
- `backup_current_layout` and `load_logo_mapping` in `implement_layout_choice.py` are file I/O. The mapping arrives as a sequence of entries.
- Lower-casing covers ASCII letters only; Python's full Unicode case mapping is not modelled.
- Validator.SaveValid returns the saved file names (`logo-<name>.png`), whereas the list the source keeps holds the company names. The two correspond one to one.
- Enhanced.DetectContentRegions requires kept contours to have a positive box height. The source divides by it, and a contour's bounding box always has height at least 1.
- Enhanced.RefineBoundingBoxes and Enhanced.RunDetection require box corners to be non-negative, which is always true of OpenCV bounding boxes.
- Extractor.DetectLogosGrid, Extractor.Candidates and Extractor.ExtractLogos require an image at least one pixel wide and high. `find_boundaries` is stated for non-empty projections, and a decoded image is never empty.
- Crops require non-negative box sizes, and Enhanced.ValidateLogo requires positive ones, as the refinement step produces.
- Clustered.SampledConnected: the line samples `x1 + t·(x2 - x1)` with `t = i / (num_samples - 1)` are computed as exact rationals truncated toward zero, not as floats.
- ApplyRenames: the count is pinned to the rows whose old path occurs at their turn, and bounded, not equated, by the rows whose old path occurs in the original page. An earlier replacement can remove a later row's old path when one old path contains another (stems "a" and "a.png" on the page `logos/logo-a.png.png`), and the source's count then drops too.

=== FILE: background.dfy ===
/**
 * The background remover: light pixels of an RGBA logo become fully
 * transparent, everything else is kept, and a directory pass converts the
 * PNG files that are not black or white variants.
 */
module Background {
  import opened Grid
  import opened Text
  import opened Seqs

  /** The threshold the directory pass uses. */
  const DefaultThreshold: int := 240

  /** Every RGB channel is at least t. */
  predicate AllChannelsAtLeast(p: Rgba, t: int)
  {
    p.r >= t && p.g >= t && p.b >= t
  }

  /** The RGB mean is at least t, cross-multiplied by 3. */
  predicate MeanAtLeast(p: Rgba, t: int)
  {
    p.r + p.g + p.b >= 3 * t
  }

  /** The background mask: all channels at least t, or the mean at least t. */
  predicate IsBackground(p: Rgba, t: int)
  {
    AllChannelsAtLeast(p, t) || MeanAtLeast(p, t)
  }

  /**
   * One pixel of `remove_background`: RGB kept, alpha 0 when the channel sum
   * reaches 3t (the all-channels test adds nothing to the mean test), the
   * old alpha otherwise.
   */
  function ClearPixel(p: Rgba, t: int): (q: Rgba)
    ensures q.r == p.r && q.g == p.g && q.b == p.b
    ensures q.a == (if p.r + p.g + p.b >= 3 * t then 0 else p.a)
  {
    if IsBackground(p, t) then p.(a := 0) else p
  }

  /** `remove_background` on the decoded RGBA image. */
  function RemoveBackground(img: Image<Rgba>, t: int): (r: Image<Rgba>)
    ensures SameShape(img, r)
    ensures forall i, j :: 0 <= i < |img| && 0 <= j < |img[i]| ==>
              r[i][j].r == img[i][j].r && r[i][j].g == img[i][j].g && r[i][j].b == img[i][j].b
    ensures forall i, j :: 0 <= i < |img| && 0 <= j < |img[i]| ==>
              r[i][j].a == (if img[i][j].r + img[i][j].g + img[i][j].b >= 3 * t then 0 else img[i][j].a)
  {
    MapImage(img, p => ClearPixel(p, t))
  }

  /** Removing the background twice is removing it once. */
  lemma RemoveIdempotent(img: Image<Rgba>, t: int)
    ensures RemoveBackground(RemoveBackground(img, t), t) == RemoveBackground(img, t)
  {
    var once := RemoveBackground(img, t);
    var twice := RemoveBackground(once, t);
    assert |twice| == |once|;
    forall i | 0 <= i < |once|
      ensures twice[i] == once[i]
    {
      assert |twice[i]| == |once[i]|;
      forall j | 0 <= j < |once[i]|
        ensures twice[i][j] == once[i][j]
      {
      }
    }
  }

  /** A pixel transparent at threshold t2 is transparent at every lower threshold too. */
  lemma LowerThresholdClearsMore(img: Image<Rgba>, t1: int, t2: int)
    requires t1 <= t2
    ensures forall i, j :: 0 <= i < |img| && 0 <= j < |img[i]| && RemoveBackground(img, t2)[i][j].a == 0 ==>
              RemoveBackground(img, t1)[i][j].a == 0
  {
  }

  /**
   * The directory filter: the lower-cased name ends in ".png" and the name
   * as written does not end in "-black.png" or "-white.png".
   */
  predicate SelectedForTransparency(name: string)
  {
    EndsWith(Lower(name), ".png") && !EndsWith(name, "-black.png") && !EndsWith(name, "-white.png")
  }

  /**
   * One directory entry: its name, whether it is a directory, and whether
   * reading, converting and saving it succeeds (I/O the model takes as given).
   */
  datatype Entry = Entry(name: string, isDir: bool, converts: bool)

  predicate Processed(e: Entry)
  {
    SelectedForTransparency(e.name) && !e.isDir && e.converts
  }

  /**
   * `process_logos_for_transparency`: the returned count is the number of
   * selected, non-directory entries whose conversion succeeds.
   */
  method ProcessLogosForTransparency(entries: seq<Entry>) returns (count: nat)
    ensures count == CountWhere(entries, Processed)
    ensures count == |Filter(entries, Processed)|
    ensures count <= |entries|
  {
    count := 0;
    var i := 0;
    while i < |entries|
      invariant 0 <= i <= |entries|
      invariant count == CountWhere(entries[..i], Processed)
    {
      var e := entries[i];
      assert entries[..i + 1] == entries[..i] + [e];
      CountWhereAppend(entries[..i], [e], Processed);
      if SelectedForTransparency(e.name) {
        if !e.isDir {
          if e.converts {
            count := count + 1;
          }
        }
      }
      i := i + 1;
    }
    assert entries[..i] == entries;
    CountIsFilterLength(entries, Processed);
  }
}

=== FILE: base.dfy ===
/**
 * Small shared vocabulary: an Option type, integer helpers, and the exact
 * integer stand-ins for the floating-point operations the scripts use
 * (Python's int() of a quotient, and the square root of a squared distance).
 */
module Base {

  datatype Option<T> = None | Some(value: T)

  function Max(a: int, b: int): int { if a >= b then a else b }

  function Min(a: int, b: int): int { if a <= b then a else b }

  function Abs(a: int): nat { if a >= 0 then a else -a }

  /** Python's `int(a / b)`: the exact quotient truncated toward zero. */
  function TruncDiv(a: int, b: int): (q: int)
    requires b != 0
    ensures Abs(q) * Abs(b) <= Abs(a) < (Abs(q) + 1) * Abs(b)
    ensures q > 0 ==> (a > 0) == (b > 0)
    ensures q < 0 ==> (a > 0) != (b > 0)
  {
    var n, d := Abs(a), Abs(b);
    DivBounds(n, d);
    var m := n / d;
    if (a >= 0) == (b > 0) then m else -m
  }

  /** Dafny's quotient of a natural by a positive divisor is its floor. */
  lemma DivBounds(n: nat, d: int)
    requires d > 0
    ensures n / d >= 0
    ensures (n / d) * d <= n < (n / d + 1) * d
    ensures n / d > 0 ==> n > 0
  {
    var m := n / d;
    assert n == m * d + n % d;
    assert (m + 1) * d == m * d + d;
    if m > 0 {
      assert m * d == (m - 1) * d + d;
    }
  }

  /** Python's `int(x)` of a float: the value truncated toward zero. */
  function TruncReal(x: real): (q: int)
    ensures x >= 0.0 ==> q >= 0 && q as real <= x < q as real + 1.0
    ensures x < 0.0 ==> q <= 0 && q as real - 1.0 < x <= q as real
  {
    if x >= 0.0 then x.Floor else -((-x).Floor)
  }

  /** On non-negative numerators with positive divisors truncation is Dafny's division. */
  lemma TruncDivNonNeg(a: int, b: int)
    requires a >= 0 && b > 0
    ensures TruncDiv(a, b) == a / b
  {
  }

  /** Integer square root: the floor of the real square root. */
  function ISqrt(n: nat): (r: nat)
    ensures r * r <= n < (r + 1) * (r + 1)
  {
    if n < 4 then (if n == 0 then 0 else 1)
    else
      var t := ISqrt(n / 4);
      HalfRoot(n, t);
      var s := 2 * t;
      if (s + 1) * (s + 1) <= n then s + 1 else s
  }

  /** Doubling the root of n / 4 brackets the root of n within one step. */
  lemma HalfRoot(n: nat, t: nat)
    requires t * t <= n / 4 < (t + 1) * (t + 1)
    ensures (2 * t) * (2 * t) <= n < (2 * t + 2) * (2 * t + 2)
  {
    var q := n / 4;
    assert n == 4 * q + n % 4;
    assert (2 * t) * (2 * t) == 4 * (t * t);
    assert (2 * t + 2) * (2 * t + 2) == 4 * ((t + 1) * (t + 1));
  }

  /** ISqrt is the unique root: any r with r*r <= n < (r+1)*(r+1) equals it. */
  lemma ISqrtUnique(n: nat, r: nat)
    requires r * r <= n < (r + 1) * (r + 1)
    ensures ISqrt(n) == r
  {
    var s := ISqrt(n);
    MulMono(s + 1, r);
    MulMono(r + 1, s);
  }

  lemma MulStrict(a: int, b: int, m: int)
    requires m > 0
    ensures a < b ==> a * m < b * m
  {
    assert b * m - a * m == (b - a) * m;
  }

  /** Multiplying by a positive m preserves and reflects order. */
  lemma MulCancelLe(x: int, y: int, m: int)
    requires m > 0
    ensures x * m <= y * m ==> x <= y
  {
    if x > y {
      MulStrict(y, x, m);
    }
  }

  /** x*m <= y*m < (x+1)*m pins y to x. */
  lemma Sandwich(x: int, y: int, m: int)
    requires m > 0 && x * m <= y * m < (x + 1) * m
    ensures x == y
  {
    MulStrict(y, x, m);
    MulStrict(x + 1, y, m);
  }

  /** Multiplying by a positive m keeps the sign and scales the magnitude. */
  lemma AbsMul(a: int, m: int)
    requires m > 0
    ensures Abs(a * m) == Abs(a) * m
    ensures (a * m > 0) == (a > 0) && (a * m < 0) == (a < 0)
  {
    if a < 0 {
      MulStrict(a, 0, m);
      assert Abs(a) * m == -(a * m);
    } else if a > 0 {
      MulStrict(0, a, m);
    }
  }

  /** Truncating an exact multiple gives the multiplier back. */
  lemma TruncDivExact(a: int, m: int)
    requires m > 0
    ensures TruncDiv(a * m, m) == a
  {
    AbsMul(a, m);
    Sandwich(Abs(TruncDiv(a * m, m)), Abs(a), m);
  }

  /** Squaring is monotone on naturals. */
  lemma MulMono(a: nat, b: nat)
    ensures a <= b ==> a * a <= b * b
  {
    if a <= b {
      assert a * a <= a * b <= b * b;
    }
  }
}

=== FILE: blob_center.dfy ===
/**
 * The blob-centre detector: contours with 1000 < area < 50000 become logo
 * centres (numbered in contour order), sorted into reading order by
 * (cy // 100, cx), then padded into named extraction boxes.
 */
module BlobCenter {
  import opened Base
  import opened Geometry
  import opened Seqs
  import opened Sorting
  import opened Text

  /** One detected logo: its number among the kept contours, centre, box, area and aspect ratio. */
  datatype LogoCenter = LogoCenter(id: nat, center: Point, bbox: Box, area: real, aspect: real)

  /** The area filter: strictly between 1000 and 50000. */
  predicate KeptCenter(c: Contour)
  {
    1000.0 < c.area < 50000.0
  }

  /** `w / h if h > 0 else 1`. */
  function AspectRatio(b: Box): (r: real)
    ensures b.h > 0 ==> r * b.h as real == b.w as real
    ensures b.h <= 0 ==> r == 1.0
  {
    if b.h > 0 then b.w as real / b.h as real else 1.0
  }

  function CenterOf(c: Contour, id: nat): LogoCenter
  {
    LogoCenter(id, Centroid(c), c.bbox, c.area, AspectRatio(c.bbox))
  }

  /** The kept contours, numbered by their position among the kept ones. */
  function Describe(valid: seq<Contour>): (r: seq<LogoCenter>)
    ensures |r| == |valid|
    ensures forall i :: 0 <= i < |valid| ==> r[i] == CenterOf(valid[i], i)
  {
    seq(|valid|, i requires 0 <= i < |valid| => CenterOf(valid[i], i))
  }

  /** The sort key `(cy // 100, cx)`. */
  function RowKey(l: LogoCenter): (int, int)
  {
    (l.center.y / 100, l.center.x)
  }

  predicate RowOrder(a: LogoCenter, b: LogoCenter)
  {
    LexLe(RowKey(a), RowKey(b))
  }

  lemma RowOrderPreorder()
    ensures TotalPreorder(RowOrder)
  {
  }

  function IdOf(l: LogoCenter): nat
  {
    l.id
  }

  /**
   * `detect_logo_centers` after contour extraction: one entry per contour
   * passing the area filter, numbered in contour order before the stable
   * sort into reading order, so an entry's id is its place among the kept
   * contours and not its place in the result.
   */
  function DetectLogoCenters(contours: seq<Contour>): (r: seq<LogoCenter>)
    ensures var valid := Filter(contours, KeptCenter);
      |r| == |valid| &&
      multiset(r) == multiset(Describe(valid)) &&
      (forall k :: 0 <= k < |r| ==> r[k].id < |valid| && r[k] == CenterOf(valid[r[k].id], r[k].id)) &&
      multiset(Map(r, IdOf)) == multiset(Range(|valid|))
    ensures forall k :: 0 <= k < |r| ==> 1000.0 < r[k].area < 50000.0
    ensures Sorted(r, RowOrder)
    ensures forall y :: Ties(r, y, RowOrder) == Ties(Describe(Filter(contours, KeptCenter)), y, RowOrder)
  {
    var valid := Filter(contours, KeptCenter);
    var described := Describe(valid);
    RowOrderPreorder();
    SortSorted(described, RowOrder);
    forall y
      ensures Ties(Sort(described, RowOrder), y, RowOrder) == Ties(described, y, RowOrder)
    {
      SortStable(described, y, RowOrder);
    }
    var r := Sort(described, RowOrder);
    forall k | 0 <= k < |r|
      ensures r[k].id < |valid| && r[k] == CenterOf(valid[r[k].id], r[k].id)
      ensures 1000.0 < r[k].area < 50000.0
    {
      assert r[k] in multiset(described);
      var i :| 0 <= i < |described| && described[i] == r[k];
      assert valid[i] in valid;
    }
    MapPermutation(r, described, IdOf);
    assert Map(described, IdOf) == Range(|valid|);
    r
  }

  /** Two kept contours, the first one lower down the page. */
  const TwoRows: seq<Contour> := [Contour(2000.0, Box(0, 240, 20, 20), 0.0, 0.0, 0.0), Contour(2000.0, Box(0, 40, 20, 20), 0.0, 0.0, 0.0)]

  lemma TwoRowsKept()
    ensures Filter(TwoRows, KeptCenter) == TwoRows
  {
    assert TwoRows[1..][1..] == [];
  }

  lemma TwoRowsSorted()
    ensures Sort(Describe(TwoRows), RowOrder) == [CenterOf(TwoRows[1], 1), CenterOf(TwoRows[0], 0)]
  {
    var d := Describe(TwoRows);
    assert d == [d[0], d[1]];
    assert d[0].center == Point(10, 250) && d[1].center == Point(10, 50);
    SortSwapsPair(d[0], d[1], RowOrder);
  }

  /** Ids are not positions: the entry numbered 1 can come first. */
  lemma IdsNeedNotBePositions()
    ensures var r := DetectLogoCenters(TwoRows);
            |r| == 2 && r[0].id == 1 && r[1].id == 0
  {
    TwoRowsKept();
    TwoRowsSorted();
  }

  /** One entry of the smart extraction list. */
  datatype SmartBox = SmartBox(id: nat, name: string, center: Point, box: Box, area: real, aspect: real)

  const SmartPrefix: string := "detected-logo-"

  /** `f'detected-logo-{i:02d}'`. */
  function SmartName(i: nat): string
  {
    SmartPrefix + Pad2(i) + ""
  }

  /**
   * `create_smart_extraction_boxes(logo_centers, padding)`: entry i keeps its
   * position as id, gets a distinct name, its box padded (corner clamped at
   * 0, size grown by 2·pad, nothing clipped at the far edges) and its area
   * and aspect ratio copied. The default padding is 20; the detector's main
   * routine passes 15.
   */
  function CreateSmartBoxes(logos: seq<LogoCenter>, pad: nat): (r: seq<SmartBox>)
    ensures |r| == |logos|
    ensures forall i :: 0 <= i < |r| ==>
              r[i].id == i && r[i].name == SmartName(i) && r[i].center == logos[i].center &&
              r[i].area == logos[i].area && r[i].aspect == logos[i].aspect
    ensures forall i :: 0 <= i < |r| ==>
              r[i].box.x >= 0 && r[i].box.y >= 0 &&
              r[i].box.x + r[i].box.w >= logos[i].bbox.x + logos[i].bbox.w + pad &&
              r[i].box.y + r[i].box.h >= logos[i].bbox.y + logos[i].bbox.h + pad
    ensures forall i :: 0 <= i < |r| && logos[i].bbox.x >= 0 && logos[i].bbox.y >= 0 ==> Covers(r[i].box, logos[i].bbox)
    ensures forall i :: 0 <= i < |r| ==>
              r[i].box == Box(Max(0, logos[i].bbox.x - pad), Max(0, logos[i].bbox.y - pad), logos[i].bbox.w + 2 * pad, logos[i].bbox.h + 2 * pad)
    ensures forall i, j :: 0 <= i < |r| && 0 <= j < |r| && i != j ==> r[i].name != r[j].name
  {
    var r := seq(|logos|, i requires 0 <= i < |logos| =>
      var l := logos[i];
      SmartBox(i, SmartName(i), l.center, PadLeftTop(l.bbox, pad), l.area, l.aspect));
    assert forall i, j :: 0 <= i < |r| && 0 <= j < |r| && i != j ==> r[i].name != r[j].name by {
      forall i, j | 0 <= i < |r| && 0 <= j < |r| && i != j
        ensures r[i].name != r[j].name
      {
        NumberedNamesDistinct(SmartPrefix, "", i, j);
      }
    }
    r
  }
}

=== FILE: clustered.dfy ===
/**
 * The clustered detector: contours become blobs, blobs within 0.8 of the
 * minimum logo distance are grouped (DBSCAN with one sample), groups joined
 * by a line of coloured pixels are merged until nothing changes, and each
 * group becomes one logo with a combined box, sorted into reading order and
 * padded into an extraction box.
 */
module Clustered {
  import opened Base
  import opened Geometry
  import opened Grid
  import opened Seqs
  import opened Sorting
  import opened Components
  import opened Text

  /** One detected blob: its index among all contours, its centre, its box and its area. */
  datatype Blob = Blob(id: nat, center: Point, bbox: Box, area: real)

  /** The area filter: strictly between 500 and 100000. */
  predicate KeptBlob(c: Contour)
  {
    500.0 < c.area < 100000.0
  }

  function BlobOf(c: Contour, id: nat): Blob
  {
    Blob(id, Centroid(c), c.bbox, c.area)
  }

  /**
   * The blobs of contours i .. end: one per contour passing the area filter,
   * in contour order, each carrying the contour's index as its id.
   */
  function BlobsFrom(contours: seq<Contour>, i: nat): (bs: seq<Blob>)
    requires i <= |contours|
    ensures forall k :: 0 <= k < |bs| ==>
              i <= bs[k].id < |contours| && KeptBlob(contours[bs[k].id]) && bs[k] == BlobOf(contours[bs[k].id], bs[k].id)
    ensures forall k, l :: 0 <= k < l < |bs| ==> bs[k].id < bs[l].id
    decreases |contours| - i
  {
    if i == |contours| then []
    else if KeptBlob(contours[i]) then [BlobOf(contours[i], i)] + BlobsFrom(contours, i + 1)
    else BlobsFrom(contours, i + 1)
  }

  /** No contour passing the filter is dropped. */
  lemma {:induction false} BlobsFromComplete(contours: seq<Contour>, i: nat, j: nat)
    requires i <= j < |contours| && KeptBlob(contours[j])
    ensures exists k :: 0 <= k < |BlobsFrom(contours, i)| && BlobsFrom(contours, i)[k].id == j
    decreases |contours| - i
  {
    var bs := BlobsFrom(contours, i);
    if i == j {
      assert bs[0].id == j;
    } else {
      BlobsFromComplete(contours, i + 1, j);
      var rest := BlobsFrom(contours, i + 1);
      var k :| 0 <= k < |rest| && rest[k].id == j;
      if KeptBlob(contours[i]) {
        assert bs[k + 1].id == j;
      } else {
        assert bs[k].id == j;
      }
    }
  }

  /**
   * `detect_logo_blobs` after contour extraction: exactly the contours with
   * 500 < area < 100000, in order, each with its contour index as id and its
   * moment centroid (or box centre when m00 is zero).
   */
  function DetectBlobs(contours: seq<Contour>): (bs: seq<Blob>)
    ensures forall k :: 0 <= k < |bs| ==>
              bs[k].id < |contours| && KeptBlob(contours[bs[k].id]) && bs[k] == BlobOf(contours[bs[k].id], bs[k].id)
    ensures forall k :: 0 <= k < |bs| ==> 500.0 < bs[k].area < 100000.0
    ensures forall k, l :: 0 <= k < l < |bs| ==> bs[k].id < bs[l].id
    ensures forall j :: 0 <= j < |contours| && KeptBlob(contours[j]) ==> exists k :: 0 <= k < |bs| && bs[k].id == j
  {
    var bs := BlobsFrom(contours, 0);
    assert forall j :: 0 <= j < |contours| && KeptBlob(contours[j]) ==> exists k :: 0 <= k < |bs| && bs[k].id == j by {
      forall j | 0 <= j < |contours| && KeptBlob(contours[j])
        ensures exists k :: 0 <= k < |bs| && bs[k].id == j
      {
        BlobsFromComplete(contours, 0, j);
      }
    }
    bs
  }

  // ---------------------------------------------------------------------
  // The connectivity oracle
  // ---------------------------------------------------------------------

  /** A sample point counts as coloured when it lies in the image and its grey level is below 240. */
  predicate Colored(gray: Image<int>, p: Point)
  {
    0 <= p.y < |gray| && 0 <= p.x < |gray[p.y]| && gray[p.y][p.x] < 240
  }

  /**
   * The n sample points from a to b: sample i is a + (i / (n-1)) (b - a),
   * computed exactly and truncated toward zero by int().
   */
  function Samples(a: Point, b: Point, n: nat): (s: seq<Point>)
    requires n >= 2
    ensures |s| == n
  {
    seq(n, i requires 0 <= i < n =>
      Point(TruncDiv(a.x * (n - 1) + i * (b.x - a.x), n - 1), TruncDiv(a.y * (n - 1) + i * (b.y - a.y), n - 1)))
  }

  /** `int(distance / 5)`: the floor of the true distance over 5. */
  function NumSamples(a: Point, b: Point): nat
  {
    ISqrt(Dist2(a, b)) / 5
  }

  /** `check_connectivity_between_blobs` on the blobs' centres. */
  function Connected(gray: Image<int>, a: Point, b: Point): bool
  {
    if Dist2(a, b) > 40000 then false
    else
      var n := NumSamples(a, b);
      if n < 2 then true
      else 10 * CountWhere(Samples(a, b, n), p => Colored(gray, p)) > 3 * n
  }

  /** Centres more than 200 pixels apart are never connected. */
  lemma FarNotConnected(gray: Image<int>, a: Point, b: Point)
    requires Dist2(a, b) > 200 * 200
    ensures !Connected(gray, a, b)
  {
  }

  /** Fewer than two samples exactly when the centres are less than 10 pixels apart; such blobs always connect. */
  lemma CloseConnected(gray: Image<int>, a: Point, b: Point)
    ensures NumSamples(a, b) < 2 <==> Dist2(a, b) < 100
    ensures Dist2(a, b) < 100 ==> Connected(gray, a, b)
  {
    var r := ISqrt(Dist2(a, b));
    if r >= 10 {
      MulMono(10, r);
    } else {
      MulMono(r + 1, 10);
    }
  }

  /**
   * Otherwise the answer is whether more than 30% of the samples are
   * coloured, and the samples run from a's centre to b's.
   */
  lemma SampledConnected(gray: Image<int>, a: Point, b: Point)
    requires 100 <= Dist2(a, b) <= 40000
    ensures NumSamples(a, b) >= 2
    ensures var n := NumSamples(a, b);
      var s := Samples(a, b, n);
      s[0] == a && s[n - 1] == b &&
      (Connected(gray, a, b) <==> 10 * CountWhere(s, p => Colored(gray, p)) > 3 * n)
  {
    CloseConnected(gray, a, b);
    SamplesEnds(a, b, NumSamples(a, b));
  }

  /** The first sample is a and the last is b. */
  lemma SamplesEnds(a: Point, b: Point, n: nat)
    requires n >= 2
    ensures Samples(a, b, n)[0] == a && Samples(a, b, n)[n - 1] == b
  {
    var m := n - 1;
    Interp(a.x, b.x, m, 0);
    Interp(a.y, b.y, m, 0);
    Interp(a.x, b.x, m, m);
    Interp(a.y, b.y, m, m);
    TruncDivExact(a.x, m);
    TruncDivExact(a.y, m);
    TruncDivExact(b.x, m);
    TruncDivExact(b.y, m);
  }

  /** The interpolation numerator at the two ends and from the other side. */
  lemma Interp(a: int, b: int, m: int, i: int)
    ensures i == 0 ==> a * m + i * (b - a) == a * m
    ensures i == m ==> a * m + i * (b - a) == b * m
    ensures a * m + (m - i) * (b - a) == b * m + i * (a - b)
  {
    assert (m - i) * (b - a) == m * b - m * a - i * b + i * a;
    assert i * (a - b) == i * a - i * b;
  }

  lemma Dist2Symmetric(a: Point, b: Point)
    ensures Dist2(a, b) == Dist2(b, a)
  {
    assert (b.x - a.x) * (b.x - a.x) == (a.x - b.x) * (a.x - b.x);
    assert (b.y - a.y) * (b.y - a.y) == (a.y - b.y) * (a.y - b.y);
  }

  /** Sampling from b to a visits the same points as from a to b, backwards. */
  lemma SamplesReverse(a: Point, b: Point, n: nat)
    requires n >= 2
    ensures Samples(b, a, n) == Reverse(Samples(a, b, n))
  {
    var s := Samples(a, b, n);
    var t := Samples(b, a, n);
    forall i | 0 <= i < n
      ensures t[i] == s[n - 1 - i]
    {
      Interp(a.x, b.x, n - 1, i);
      Interp(a.y, b.y, n - 1, i);
    }
  }

  /** The oracle does not depend on which blob comes first. */
  lemma ConnectedSymmetric(gray: Image<int>, a: Point, b: Point)
    ensures Connected(gray, a, b) == Connected(gray, b, a)
  {
    Dist2Symmetric(a, b);
    var n := NumSamples(a, b);
    if Dist2(a, b) <= 40000 && n >= 2 {
      SamplesReverse(a, b, n);
      CountWhereReverse(Samples(a, b, n), p => Colored(gray, p));
    }
  }

  // ---------------------------------------------------------------------
  // Distance clustering
  // ---------------------------------------------------------------------

  /**
   * DBSCAN's neighbourhood for eps = 0.8 * minDistance: two blobs are
   * neighbours when their centres are at most eps apart, compared on squares
   * scaled by 25 so that the test stays in integers.
   */
  function Near(blobs: seq<Blob>, minDistance: nat): (nat, nat) -> bool
  {
    (i: nat, j: nat) => i < |blobs| && j < |blobs| &&
      25 * Dist2(blobs[i].center, blobs[j].center) <= 16 * minDistance * minDistance
  }

  lemma NearSymmetric(blobs: seq<Blob>, minDistance: nat)
    ensures Symmetric(Near(blobs, minDistance))
  {
    forall i: nat, j: nat | i < |blobs| && j < |blobs|
      ensures Near(blobs, minDistance)(i, j) == Near(blobs, minDistance)(j, i)
    {
      Dist2Symmetric(blobs[i].center, blobs[j].center);
    }
  }

  /** A group of blobs under the label DBSCAN gave it. */
  datatype Cluster = Cluster(id: nat, blobs: seq<Blob>)

  function BlobLists(cs: seq<Cluster>): (r: seq<seq<Blob>>)
    ensures |r| == |cs|
    ensures forall k :: 0 <= k < |cs| ==> r[k] == cs[k].blobs
  {
    seq(|cs|, k requires 0 <= k < |cs| => cs[k].blobs)
  }

  /**
   * The `defaultdict` built from DBSCAN's labels: cluster k holds the blobs of
   * the k-th DBSCAN group, in input order, under label k.
   */
  function DistanceClusters(blobs: seq<Blob>, minDistance: nat): (cs: seq<Cluster>)
    ensures |cs| == |Groups(Near(blobs, minDistance), |blobs|)|
    ensures forall k :: 0 <= k < |cs| ==> cs[k].id == k && |cs[k].blobs| > 0
    ensures AllIndicesIn(Groups(Near(blobs, minDistance), |blobs|), |blobs|)
    ensures BlobLists(cs) == PickEach(blobs, Groups(Near(blobs, minDistance), |blobs|))
  {
    var near := Near(blobs, minDistance);
    NearSymmetric(blobs, minDistance);
    GroupsBelow(near, |blobs|);
    GroupsOrdered(near, |blobs|);
    var gs := Groups(near, |blobs|);
    seq(|gs|, k requires 0 <= k < |gs| => Cluster(k, Pick(blobs, gs[k])))
  }

  /** Every blob lands in exactly one distance cluster. */
  lemma DistanceClustersPartition(blobs: seq<Blob>, minDistance: nat)
    ensures multiset(Flatten(BlobLists(DistanceClusters(blobs, minDistance)))) == multiset(blobs)
  {
    var near := Near(blobs, minDistance);
    var gs := Groups(near, |blobs|);
    NearSymmetric(blobs, minDistance);
    GroupsBelow(near, |blobs|);
    PickFlatten(blobs, gs);
    PickPermutation(blobs, Flatten(gs), Range(|blobs|));
    PickRange(blobs);
  }

  // ---------------------------------------------------------------------
  // Merging clusters joined by coloured pixels
  // ---------------------------------------------------------------------

  /** Some blob of xs is connected to some blob of ys. */
  predicate Linked(gray: Image<int>, xs: seq<Blob>, ys: seq<Blob>)
  {
    exists i, j :: 0 <= i < |xs| && 0 <= j < |ys| && Connected(gray, xs[i].center, ys[j].center)
  }

  lemma LinkedSymmetric(gray: Image<int>, xs: seq<Blob>, ys: seq<Blob>)
    ensures Linked(gray, xs, ys) == Linked(gray, ys, xs)
  {
    forall i, j | 0 <= i < |xs| && 0 <= j < |ys|
      ensures Connected(gray, xs[i].center, ys[j].center) == Connected(gray, ys[j].center, xs[i].center)
    {
      ConnectedSymmetric(gray, xs[i].center, ys[j].center);
    }
  }

  /** No two clusters of the list are linked. */
  predicate Unlinked(gray: Image<int>, cs: seq<Cluster>)
  {
    forall a, b :: 0 <= a < b < |cs| ==> !Linked(gray, cs[a].blobs, cs[b].blobs)
  }

  /** The first cluster from position q on that is linked to cluster p. */
  function FirstLinked(gray: Image<int>, cs: seq<Cluster>, p: nat, q: nat): (r: Option<nat>)
    requires p < |cs|
    ensures r.None? ==> forall b :: q <= b < |cs| ==> !Linked(gray, cs[p].blobs, cs[b].blobs)
    ensures r.Some? ==> q <= r.value < |cs| && Linked(gray, cs[p].blobs, cs[r.value].blobs)
    ensures r.Some? ==> forall b :: q <= b < r.value ==> !Linked(gray, cs[p].blobs, cs[b].blobs)
    decreases |cs| - q
  {
    if q >= |cs| then None
    else if Linked(gray, cs[p].blobs, cs[q].blobs) then Some(q)
    else FirstLinked(gray, cs, p, q + 1)
  }

  /** Every blob of xs, with multiplicity, is among ys. */
  predicate Holds(xs: seq<Blob>, ys: seq<Blob>)
  {
    multiset(xs) <= multiset(ys)
  }

  /** Cluster j of cs0 lies whole inside some cluster of cs. */
  ghost predicate KeptWhole(cs0: seq<Cluster>, j: nat, cs: seq<Cluster>)
    requires j < |cs0|
  {
    exists k :: 0 <= k < |cs| && Holds(cs0[j].blobs, cs[k].blobs)
  }

  /** Cluster k of cs carries the label of a cluster of cs0 that it contains. */
  ghost predicate LabelFrom(cs0: seq<Cluster>, cs: seq<Cluster>, k: nat)
    requires k < |cs|
  {
    exists j :: 0 <= j < |cs0| && cs0[j].id == cs[k].id && Holds(cs0[j].blobs, cs[k].blobs)
  }

  /**
   * cs is what merging did to cs0: the same blobs overall, every cluster of
   * cs0 kept whole inside some cluster of cs, and every cluster of cs
   * carrying the label of a cluster of cs0 it contains.
   */
  ghost predicate Refines(cs0: seq<Cluster>, cs: seq<Cluster>)
  {
    multiset(Flatten(BlobLists(cs))) == multiset(Flatten(BlobLists(cs0))) &&
    (forall j :: 0 <= j < |cs0| ==> KeptWhole(cs0, j, cs)) &&
    (forall k :: 0 <= k < |cs| ==> LabelFrom(cs0, cs, k))
  }

  lemma RefinesRefl(cs: seq<Cluster>)
    ensures Refines(cs, cs)
  {
    forall j | 0 <= j < |cs|
      ensures KeptWhole(cs, j, cs) && LabelFrom(cs, cs, j)
    {
      assert Holds(cs[j].blobs, cs[j].blobs);
    }
  }

  lemma RefinesTrans(cs0: seq<Cluster>, cs1: seq<Cluster>, cs2: seq<Cluster>)
    requires Refines(cs0, cs1) && Refines(cs1, cs2)
    ensures Refines(cs0, cs2)
  {
    forall j | 0 <= j < |cs0|
      ensures KeptWhole(cs0, j, cs2)
    {
      assert KeptWhole(cs0, j, cs1);
      var m :| 0 <= m < |cs1| && Holds(cs0[j].blobs, cs1[m].blobs);
      assert KeptWhole(cs1, m, cs2);
      var k :| 0 <= k < |cs2| && Holds(cs1[m].blobs, cs2[k].blobs);
      assert Holds(cs0[j].blobs, cs2[k].blobs);
    }
    forall k | 0 <= k < |cs2|
      ensures LabelFrom(cs0, cs2, k)
    {
      assert LabelFrom(cs1, cs2, k);
      var m :| 0 <= m < |cs1| && cs1[m].id == cs2[k].id && Holds(cs1[m].blobs, cs2[k].blobs);
      assert LabelFrom(cs0, cs1, m);
      var j :| 0 <= j < |cs0| && cs0[j].id == cs1[m].id && Holds(cs0[j].blobs, cs1[m].blobs);
      assert Holds(cs0[j].blobs, cs2[k].blobs);
    }
  }

  /** Cluster q's blobs appended to cluster p's, cluster q deleted; p keeps its label. */
  function Merge(cs: seq<Cluster>, p: nat, q: nat): (r: seq<Cluster>)
    requires p < q < |cs|
    ensures |r| == |cs| - 1
  {
    MergeAt(cs, p, q, Cluster(cs[p].id, cs[p].blobs + cs[q].blobs))
  }

  lemma MergeBlobs(cs: seq<Cluster>, p: nat, q: nat)
    requires p < q < |cs|
    ensures multiset(Flatten(BlobLists(Merge(cs, p, q)))) == multiset(Flatten(BlobLists(cs)))
  {
    var r := Merge(cs, p, q);
    var m := MergeAt(BlobLists(cs), p, q, cs[p].blobs + cs[q].blobs);
    assert |BlobLists(r)| == |m|;
    forall k | 0 <= k < |m|
      ensures BlobLists(r)[k] == m[k]
    {
    }
    assert BlobLists(r) == m;
    FlattenMerge(BlobLists(cs), p, q);
  }

  lemma MergeRefines(cs: seq<Cluster>, p: nat, q: nat)
    requires p < q < |cs|
    ensures Refines(cs, Merge(cs, p, q))
  {
    var r := Merge(cs, p, q);
    MergeBlobs(cs, p, q);
    forall j | 0 <= j < |cs|
      ensures KeptWhole(cs, j, r)
    {
      if j == p || j == q {
        assert Holds(cs[j].blobs, r[p].blobs);
      } else if j < q {
        assert r[j] == cs[j];
        assert Holds(cs[j].blobs, r[j].blobs);
      } else {
        assert r[j - 1] == cs[j];
        assert Holds(cs[j].blobs, r[j - 1].blobs);
      }
    }
    forall k | 0 <= k < |r|
      ensures LabelFrom(cs, r, k)
    {
      if k == p {
        assert Holds(cs[p].blobs, r[p].blobs);
      } else if k < q {
        assert r[k] == cs[k];
        assert Holds(cs[k].blobs, r[k].blobs);
      } else {
        assert r[k] == cs[k + 1];
        assert Holds(cs[k + 1].blobs, r[k].blobs);
      }
    }
  }

  /** Labels in increasing order. */
  predicate IdsAscending(cs: seq<Cluster>)
  {
    forall a, b :: 0 <= a < b < |cs| ==> cs[a].id < cs[b].id
  }

  lemma MergeAscending(cs: seq<Cluster>, p: nat, q: nat)
    requires p < q < |cs| && IdsAscending(cs)
    ensures IdsAscending(Merge(cs, p, q))
  {
    var r := Merge(cs, p, q);
    forall a, b | 0 <= a < b < |r|
      ensures r[a].id < r[b].id
    {
      var a0 := if a < q then a else a + 1;
      var b0 := if b < q then b else b + 1;
      assert r[a].id == cs[a0].id && r[b].id == cs[b0].id;
    }
  }

  /** Clusters i and j of base hold a connected pair of blobs. */
  function LinkGraph(gray: Image<int>, base: seq<Cluster>): (nat, nat) -> bool
  {
    (i: nat, j: nat) => i < |base| && j < |base| && Linked(gray, base[i].blobs, base[j].blobs)
  }

  lemma LinkGraphSymmetric(gray: Image<int>, base: seq<Cluster>)
    ensures Symmetric(LinkGraph(gray, base))
  {
    forall i: nat, j: nat
      ensures LinkGraph(gray, base)(i, j) == LinkGraph(gray, base)(j, i)
    {
      if i < |base| && j < |base| {
        LinkedSymmetric(gray, base[i].blobs, base[j].blobs);
      }
    }
  }

  /** The blobs of the clusters of base at positions idx, cluster after cluster. */
  function Gather(base: seq<Cluster>, idx: seq<nat>): seq<Blob>
    requires IndicesIn(idx, |base|)
  {
    Flatten(Pick(BlobLists(base), idx))
  }

  lemma GatherAppend(base: seq<Cluster>, a: seq<nat>, b: seq<nat>)
    requires IndicesIn(a, |base|) && IndicesIn(b, |base|)
    ensures IndicesIn(a + b, |base|)
    ensures Gather(base, a + b) == Gather(base, a) + Gather(base, b)
  {
    PickAppend(BlobLists(base), a, b);
    FlattenAppend(Pick(BlobLists(base), a), Pick(BlobLists(base), b));
  }

  /** Behind a connected pair of gathered blobs stands a linked pair of clusters. */
  lemma LinkedGathered(gray: Image<int>, base: seq<Cluster>, a: seq<nat>, b: seq<nat>) returns (s: nat, t: nat)
    requires IndicesIn(a, |base|) && IndicesIn(b, |base|)
    requires Linked(gray, Gather(base, a), Gather(base, b))
    ensures s < |a| && t < |b| && LinkGraph(gray, base)(a[s], b[t])
  {
    var xs, ys := Gather(base, a), Gather(base, b);
    var i, j :| 0 <= i < |xs| && 0 <= j < |ys| && Connected(gray, xs[i].center, ys[j].center);
    var m, n;
    s, m := FlattenLocate(Pick(BlobLists(base), a), i);
    t, n := FlattenLocate(Pick(BlobLists(base), b), j);
    assert base[a[s]].blobs[m] == xs[i] && base[b[t]].blobs[n] == ys[j];
    assert Linked(gray, base[a[s]].blobs, base[b[t]].blobs);
  }

  /** idx names clusters of base, the first joined to every other by a chain of linked clusters. */
  ghost predicate Chained(gray: Image<int>, base: seq<Cluster>, idx: seq<nat>)
  {
    |idx| > 0 && IndicesIn(idx, |base|) &&
    forall t :: 0 <= t < |idx| ==> Reachable(LinkGraph(gray, base), |base|, idx[0], idx[t])
  }

  /** xs is the blobs of a chain of linked clusters of base, cluster after cluster. */
  ghost predicate Joined(gray: Image<int>, base: seq<Cluster>, xs: seq<Blob>)
  {
    exists idx :: Chained(gray, base, idx) && xs == Gather(base, idx)
  }

  /**
   * orig[k] lists the clusters of base that went into cluster k of cs:
   * between them the lists name every cluster of base once, and cluster k is
   * a chain of linked clusters holding their blobs in that order under the
   * first one's label.
   */
  ghost predicate Origins(gray: Image<int>, base: seq<Cluster>, cs: seq<Cluster>, orig: seq<seq<nat>>)
  {
    |orig| == |cs| &&
    multiset(Flatten(orig)) == multiset(Range(|base|)) &&
    forall k :: 0 <= k < |cs| ==>
      Chained(gray, base, orig[k]) && cs[k].blobs == Gather(base, orig[k]) && cs[k].id == base[orig[k][0]].id
  }

  /** cs came from base by merging only clusters joined by a chain of links. */
  ghost predicate MergedFrom(gray: Image<int>, base: seq<Cluster>, cs: seq<Cluster>)
  {
    exists orig :: Origins(gray, base, cs, orig)
  }

  /** Before any merging each cluster is its own origin. */
  lemma OriginsInit(gray: Image<int>, cs: seq<Cluster>)
    ensures Origins(gray, cs, cs, Singletons(|cs|))
  {
    FlattenSingletons(|cs|);
    forall k | 0 <= k < |cs|
      ensures Chained(gray, cs, [k]) && cs[k].blobs == Gather(cs, [k])
    {
      ReachRefl(LinkGraph(gray, cs), |cs|, k);
      assert Pick(BlobLists(cs), [k]) == [cs[k].blobs];
      assert Flatten([cs[k].blobs]) == cs[k].blobs + Flatten([]);
    }
  }

  /** Two chains with a link between them make one chain. */
  lemma ChainedJoin(gray: Image<int>, base: seq<Cluster>, a: seq<nat>, b: seq<nat>)
    requires Chained(gray, base, a) && Chained(gray, base, b)
    requires Linked(gray, Gather(base, a), Gather(base, b))
    ensures Chained(gray, base, a + b)
  {
    var near, n := LinkGraph(gray, base), |base|;
    LinkGraphSymmetric(gray, base);
    var s, t := LinkedGathered(gray, base, a, b);
    ReachExtend(near, n, a[0], a[s], b[t]);
    ReachSym(near, n, b[0], b[t]);
    ReachTrans(near, n, a[0], b[t], b[0]);
    forall u | 0 <= u < |a + b|
      ensures Reachable(near, n, (a + b)[0], (a + b)[u])
    {
      if u >= |a| {
        ReachTrans(near, n, a[0], b[0], b[u - |a|]);
      }
    }
  }

  /** Merging two linked clusters keeps the origins: the merged one takes both lists. */
  lemma OriginsMerge(gray: Image<int>, base: seq<Cluster>, cs: seq<Cluster>, orig: seq<seq<nat>>, p: nat, q: nat)
    requires Origins(gray, base, cs, orig)
    requires p < q < |cs| && Linked(gray, cs[p].blobs, cs[q].blobs)
    ensures Origins(gray, base, Merge(cs, p, q), MergeAt(orig, p, q, orig[p] + orig[q]))
  {
    var r, o := Merge(cs, p, q), MergeAt(orig, p, q, orig[p] + orig[q]);
    FlattenMerge(orig, p, q);
    GatherAppend(base, orig[p], orig[q]);
    ChainedJoin(gray, base, orig[p], orig[q]);
    forall k | 0 <= k < |r|
      ensures Chained(gray, base, o[k]) && r[k].blobs == Gather(base, o[k]) && r[k].id == base[o[k][0]].id
    {
      if k >= q {
        assert r[k] == cs[k + 1] && o[k] == orig[k + 1];
      } else if k != p {
        assert r[k] == cs[k] && o[k] == orig[k];
      }
    }
  }

  /** What one merge inside a sweep keeps: the refinement, the label order and the origins. */
  lemma SweepMerge(gray: Image<int>, cs0: seq<Cluster>, base: seq<Cluster>, tracked: bool, cs: seq<Cluster>, orig: seq<seq<nat>>, p: nat, q: nat)
      returns (orig': seq<seq<nat>>)
    requires p < q < |cs| && Linked(gray, cs[p].blobs, cs[q].blobs)
    requires Refines(cs0, cs)
    requires IdsAscending(cs0) ==> IdsAscending(cs)
    requires tracked ==> Origins(gray, base, cs, orig)
    ensures Refines(cs0, Merge(cs, p, q))
    ensures IdsAscending(cs0) ==> IdsAscending(Merge(cs, p, q))
    ensures tracked ==> Origins(gray, base, Merge(cs, p, q), orig')
  {
    MergeRefines(cs, p, q);
    RefinesTrans(cs0, cs, Merge(cs, p, q));
    if IdsAscending(cs0) {
      MergeAscending(cs, p, q);
    }
    orig' := orig;
    if tracked {
      OriginsMerge(gray, base, cs, orig, p, q);
      orig' := MergeAt(orig, p, q, orig[p] + orig[q]);
    }
  }

  /**
   * One pass of the outer `for` loop: each surviving cluster p, in order,
   * absorbs the first later cluster linked to it, if any. Whatever earlier
   * list base the input was merged from by links, so is the output.
   */
  method Sweep(gray: Image<int>, cs0: seq<Cluster>, ghost base: seq<Cluster>) returns (cs: seq<Cluster>, merged: bool)
    ensures Refines(cs0, cs)
    ensures MergedFrom(gray, base, cs0) ==> MergedFrom(gray, base, cs)
    ensures IdsAscending(cs0) ==> IdsAscending(cs)
    ensures merged ==> |cs| < |cs0| && !Unlinked(gray, cs0)
    ensures !merged ==> cs == cs0 && Unlinked(gray, cs)
  {
    cs := cs0;
    merged := false;
    RefinesRefl(cs0);
    ghost var tracked := MergedFrom(gray, base, cs0);
    ghost var orig: seq<seq<nat>> := [];
    if tracked {
      orig :| Origins(gray, base, cs0, orig);
    }
    var p := 0;
    while p < |cs|
      invariant p <= |cs| <= |cs0|
      invariant Refines(cs0, cs)
      invariant tracked ==> Origins(gray, base, cs, orig)
      invariant IdsAscending(cs0) ==> IdsAscending(cs)
      invariant merged ==> |cs| < |cs0| && !Unlinked(gray, cs0)
      invariant !merged ==> cs == cs0
      invariant !merged ==> forall a, b :: 0 <= a < p && a < b < |cs| ==> !Linked(gray, cs[a].blobs, cs[b].blobs)
    {
      var found := FirstLinked(gray, cs, p, p + 1);
      if found.Some? {
        var q := found.value;
        orig := SweepMerge(gray, cs0, base, tracked, cs, orig, p, q);
        cs := Merge(cs, p, q);
        merged := true;
      }
      p := p + 1;
    }
    if tracked {
      assert Origins(gray, base, cs, orig);
    }
  }

  /**
   * The `while merged_any` loop: sweep until a pass merges nothing. The
   * result links no two clusters, and when nothing was linked to begin with
   * the clusters come back unchanged; every result cluster is a chain of
   * input clusters joined by links.
   */
  method MergeConnected(gray: Image<int>, cs0: seq<Cluster>) returns (cs: seq<Cluster>)
    ensures Refines(cs0, cs)
    ensures MergedFrom(gray, cs0, cs)
    ensures |cs| <= |cs0|
    ensures IdsAscending(cs0) ==> IdsAscending(cs)
    ensures Unlinked(gray, cs)
    ensures Unlinked(gray, cs0) ==> cs == cs0
  {
    cs := cs0;
    RefinesRefl(cs0);
    OriginsInit(gray, cs0);
    var merged := true;
    while merged
      invariant |cs| <= |cs0|
      invariant Refines(cs0, cs)
      invariant MergedFrom(gray, cs0, cs)
      invariant IdsAscending(cs0) ==> IdsAscending(cs)
      invariant !merged ==> Unlinked(gray, cs)
      invariant Unlinked(gray, cs0) ==> cs == cs0
      decreases |cs| + (if merged then 1 else 0)
    {
      var next;
      next, merged := Sweep(gray, cs, cs0);
      RefinesTrans(cs0, cs, next);
      cs := next;
    }
  }

  // ---------------------------------------------------------------------
  // One logo per cluster, in reading order
  // ---------------------------------------------------------------------

  /** One clustered logo: its label, combined centre and box, summed area and its blobs. */
  datatype ClusterLogo = ClusterLogo(clusterId: nat, center: Point, bbox: Box, totalArea: real, blobCount: nat, blobs: seq<Blob>)

  /** `all_x`: both horizontal edges of every blob box, blob by blob. */
  function XEdges(bs: seq<Blob>): seq<int>
  {
    if |bs| == 0 then [] else [bs[0].bbox.x, bs[0].bbox.x + bs[0].bbox.w] + XEdges(bs[1..])
  }

  /** `all_y`: both vertical edges of every blob box, blob by blob. */
  function YEdges(bs: seq<Blob>): seq<int>
  {
    if |bs| == 0 then [] else [bs[0].bbox.y, bs[0].bbox.y + bs[0].bbox.h] + YEdges(bs[1..])
  }

  /** Both edges of every blob are listed. */
  lemma {:induction false} EdgesListed(bs: seq<Blob>, k: nat)
    requires k < |bs|
    ensures bs[k].bbox.x in XEdges(bs) && bs[k].bbox.x + bs[k].bbox.w in XEdges(bs)
    ensures bs[k].bbox.y in YEdges(bs) && bs[k].bbox.y + bs[k].bbox.h in YEdges(bs)
  {
    var b := bs[0].bbox;
    var xt, yt := XEdges(bs[1..]), YEdges(bs[1..]);
    assert XEdges(bs) == [b.x, b.x + b.w] + xt;
    assert YEdges(bs) == [b.y, b.y + b.h] + yt;
    if k > 0 {
      EdgesListed(bs[1..], k - 1);
      assert bs[1..][k - 1] == bs[k];
    }
  }

  /** Nothing but blob edges is listed. */
  lemma {:induction false} EdgesFromBlobs(bs: seq<Blob>, v: int)
    ensures v in XEdges(bs) ==> exists k :: 0 <= k < |bs| && (v == bs[k].bbox.x || v == bs[k].bbox.x + bs[k].bbox.w)
    ensures v in YEdges(bs) ==> exists k :: 0 <= k < |bs| && (v == bs[k].bbox.y || v == bs[k].bbox.y + bs[k].bbox.h)
  {
    if |bs| > 0 {
      EdgesFromBlobs(bs[1..], v);
      if v in XEdges(bs[1..]) {
        var k :| 0 <= k < |bs| - 1 && (v == bs[1..][k].bbox.x || v == bs[1..][k].bbox.x + bs[1..][k].bbox.w);
        assert bs[k + 1] == bs[1..][k];
      }
      if v in YEdges(bs[1..]) {
        var k :| 0 <= k < |bs| - 1 && (v == bs[1..][k].bbox.y || v == bs[1..][k].bbox.y + bs[1..][k].bbox.h);
        assert bs[k + 1] == bs[1..][k];
      }
    }
  }

  /** The summed contour areas of the blobs. */
  function TotalArea(bs: seq<Blob>): (a: real)
    ensures (forall k :: 0 <= k < |bs| ==> bs[k].area > 0.0) && |bs| > 0 ==> a > 0.0
  {
    if |bs| == 0 then 0.0 else bs[0].area + TotalArea(bs[1..])
  }

  /**
   * The combined logo of one cluster: the box from the least to the greatest
   * listed edge, its centre (floor of the midpoint), the summed area and the
   * number of blobs.
   */
  function Combine(id: nat, bs: seq<Blob>): (l: ClusterLogo)
    requires |bs| > 0
    ensures l.clusterId == id && l.blobs == bs && l.blobCount == |bs| && l.totalArea == TotalArea(bs)
    ensures l.bbox.w >= 0 && l.bbox.h >= 0
    ensures l.bbox.x in XEdges(bs) && l.bbox.x + l.bbox.w in XEdges(bs)
    ensures l.bbox.y in YEdges(bs) && l.bbox.y + l.bbox.h in YEdges(bs)
    ensures forall v :: v in XEdges(bs) ==> l.bbox.x <= v <= l.bbox.x + l.bbox.w
    ensures forall v :: v in YEdges(bs) ==> l.bbox.y <= v <= l.bbox.y + l.bbox.h
    ensures l.bbox.x <= l.center.x && 2 * (l.center.x - l.bbox.x) <= l.bbox.w < 2 * (l.center.x - l.bbox.x) + 2
    ensures l.bbox.y <= l.center.y && 2 * (l.center.y - l.bbox.y) <= l.bbox.h < 2 * (l.center.y - l.bbox.y) + 2
  {
    var xs, ys := XEdges(bs), YEdges(bs);
    EdgesListed(bs, 0);
    var minX, maxX := MinOf(xs), MaxOf(xs);
    var minY, maxY := MinOf(ys), MaxOf(ys);
    var w, h := maxX - minX, maxY - minY;
    ClusterLogo(id, Point(minX + w / 2, minY + h / 2), Box(minX, minY, w, h), TotalArea(bs), |bs|, bs)
  }

  /** The combined box holds every blob box... */
  lemma CombineCovers(id: nat, bs: seq<Blob>, k: nat)
    requires k < |bs|
    ensures var b := Combine(id, bs).bbox;
      b.x <= bs[k].bbox.x <= b.x + b.w && b.x <= bs[k].bbox.x + bs[k].bbox.w <= b.x + b.w &&
      b.y <= bs[k].bbox.y <= b.y + b.h && b.y <= bs[k].bbox.y + bs[k].bbox.h <= b.y + b.h
    ensures bs[k].bbox.w >= 0 && bs[k].bbox.h >= 0 ==> Covers(Combine(id, bs).bbox, bs[k].bbox)
  {
    EdgesListed(bs, k);
  }

  /** ...and is the tightest such box: each of its edges is an edge of some blob. */
  lemma CombineTight(id: nat, bs: seq<Blob>)
    requires |bs| > 0
    ensures var b := Combine(id, bs).bbox;
      (exists k :: 0 <= k < |bs| && (b.x == bs[k].bbox.x || b.x == bs[k].bbox.x + bs[k].bbox.w)) &&
      (exists k :: 0 <= k < |bs| && (b.x + b.w == bs[k].bbox.x || b.x + b.w == bs[k].bbox.x + bs[k].bbox.w)) &&
      (exists k :: 0 <= k < |bs| && (b.y == bs[k].bbox.y || b.y == bs[k].bbox.y + bs[k].bbox.h)) &&
      (exists k :: 0 <= k < |bs| && (b.y + b.h == bs[k].bbox.y || b.y + b.h == bs[k].bbox.y + bs[k].bbox.h))
  {
    var b := Combine(id, bs).bbox;
    EdgesFromBlobs(bs, b.x);
    EdgesFromBlobs(bs, b.x + b.w);
    EdgesFromBlobs(bs, b.y);
    EdgesFromBlobs(bs, b.y + b.h);
  }

  /** The sort key `(cy // 150, cx)`: bands of 150 pixels top to bottom, then left to right. */
  function ReadingKey(l: ClusterLogo): (int, int)
  {
    (l.center.y / 150, l.center.x)
  }

  predicate ReadingOrder(a: ClusterLogo, b: ClusterLogo)
  {
    LexLe(ReadingKey(a), ReadingKey(b))
  }

  lemma ReadingOrderPreorder()
    ensures TotalPreorder(ReadingOrder)
  {
  }

  /**
   * `clustered_logos.sort(key=...)`: Python's stable sort, so the result is
   * in reading order, a permutation of the input, and logos with equal keys
   * keep their cluster order.
   */
  function SortLogos(logos: seq<ClusterLogo>): (r: seq<ClusterLogo>)
    ensures multiset(r) == multiset(logos)
    ensures Sorted(r, ReadingOrder)
    ensures forall y :: Ties(r, y, ReadingOrder) == Ties(logos, y, ReadingOrder)
  {
    ReadingOrderPreorder();
    SortSorted(logos, ReadingOrder);
    forall y
      ensures Ties(Sort(logos, ReadingOrder), y, ReadingOrder) == Ties(logos, y, ReadingOrder)
    {
      SortStable(logos, y, ReadingOrder);
    }
    Sort(logos, ReadingOrder)
  }

  function CombineAll(cs: seq<Cluster>): (r: seq<ClusterLogo>)
    requires forall k :: 0 <= k < |cs| ==> |cs[k].blobs| > 0
    ensures |r| == |cs|
    ensures forall k :: 0 <= k < |cs| ==> r[k] == Combine(cs[k].id, cs[k].blobs)
  {
    seq(|cs|, k requires 0 <= k < |cs| => Combine(cs[k].id, cs[k].blobs))
  }

  function BlobsOf(l: ClusterLogo): seq<Blob>
  {
    l.blobs
  }

  /** The combined logos carry exactly the clusters' blob lists. */
  lemma CombineAllBlobs(cs: seq<Cluster>)
    requires forall k :: 0 <= k < |cs| ==> |cs[k].blobs| > 0
    ensures Map(CombineAll(cs), BlobsOf) == BlobLists(cs)
  {
  }

  /** Every cluster of a refinement of non-empty clusters is non-empty. */
  lemma RefinesNonEmpty(cs0: seq<Cluster>, cs: seq<Cluster>)
    requires Refines(cs0, cs)
    requires forall j :: 0 <= j < |cs0| ==> |cs0[j].blobs| > 0
    ensures forall k :: 0 <= k < |cs| ==> |cs[k].blobs| > 0
  {
    forall k | 0 <= k < |cs|
      ensures |cs[k].blobs| > 0
    {
      assert LabelFrom(cs0, cs, k);
      var j :| 0 <= j < |cs0| && cs0[j].id == cs[k].id && Holds(cs0[j].blobs, cs[k].blobs);
      assert cs0[j].blobs[0] in multiset(cs0[j].blobs);
    }
  }

  /** The DBSCAN groups as blob lists. */
  function DistanceGroups(blobs: seq<Blob>, minDistance: nat): seq<seq<Blob>>
  {
    BlobLists(DistanceClusters(blobs, minDistance))
  }

  /** Two logos none of whose blobs connect. */
  function Apart(gray: Image<int>): (ClusterLogo, ClusterLogo) -> bool
  {
    (a: ClusterLogo, b: ClusterLogo) => !Linked(gray, a.blobs, b.blobs)
  }

  lemma UnlinkedApart(gray: Image<int>, cs: seq<Cluster>)
    requires Unlinked(gray, cs)
    requires forall k :: 0 <= k < |cs| ==> |cs[k].blobs| > 0
    ensures Pairwise(CombineAll(cs), Apart(gray))
  {
    var ls := CombineAll(cs);
    forall i, j | 0 <= i < |ls| && 0 <= j < |ls| && i != j
      ensures Apart(gray)(ls[i], ls[j])
    {
      if j < i {
        LinkedSymmetric(gray, cs[j].blobs, cs[i].blobs);
      }
    }
  }

  /** Each cluster's blob list reappears as the blob list of some sorted logo. */
  lemma KeptAfterSort(cs0: seq<Cluster>, cs: seq<Cluster>, logos: seq<ClusterLogo>)
    requires Refines(cs0, cs)
    requires forall k :: 0 <= k < |cs| ==> |cs[k].blobs| > 0
    requires multiset(logos) == multiset(CombineAll(cs))
    ensures forall j :: 0 <= j < |cs0| ==> exists k :: 0 <= k < |logos| && Holds(cs0[j].blobs, logos[k].blobs)
  {
    var ls := CombineAll(cs);
    forall j | 0 <= j < |cs0|
      ensures exists k :: 0 <= k < |logos| && Holds(cs0[j].blobs, logos[k].blobs)
    {
      assert KeptWhole(cs0, j, cs);
      var m :| 0 <= m < |cs| && Holds(cs0[j].blobs, cs[m].blobs);
      assert ls[m] in multiset(logos);
      var k :| 0 <= k < |logos| && logos[k] == ls[m];
      assert Holds(cs0[j].blobs, logos[k].blobs);
    }
  }

  /** Every sorted logo is the combination of its own blobs. */
  lemma CombinedAfterSort(cs: seq<Cluster>, logos: seq<ClusterLogo>)
    requires forall k :: 0 <= k < |cs| ==> |cs[k].blobs| > 0
    requires multiset(logos) == multiset(CombineAll(cs))
    ensures forall k :: 0 <= k < |logos| ==>
              |logos[k].blobs| > 0 && logos[k] == Combine(logos[k].clusterId, logos[k].blobs)
  {
    var ls := CombineAll(cs);
    forall k | 0 <= k < |logos|
      ensures |logos[k].blobs| > 0 && logos[k] == Combine(logos[k].clusterId, logos[k].blobs)
    {
      assert logos[k] in multiset(ls);
      var m :| 0 <= m < |ls| && ls[m] == logos[k];
    }
  }

  /** The blobs of the sorted logos are the blobs of the clusters. */
  /** Sorting the combined logos keeps each one a chain of linked clusters of base. */
  lemma JoinedAfterSort(gray: Image<int>, base: seq<Cluster>, cs: seq<Cluster>, logos: seq<ClusterLogo>)
    requires MergedFrom(gray, base, cs)
    requires forall k :: 0 <= k < |cs| ==> |cs[k].blobs| > 0
    requires multiset(logos) == multiset(CombineAll(cs))
    ensures forall k :: 0 <= k < |logos| ==> Joined(gray, base, logos[k].blobs)
  {
    var orig :| Origins(gray, base, cs, orig);
    var ls := CombineAll(cs);
    forall k | 0 <= k < |logos|
      ensures Joined(gray, base, logos[k].blobs)
    {
      assert logos[k] in multiset(ls);
      var m :| 0 <= m < |ls| && ls[m] == logos[k];
      assert Chained(gray, base, orig[m]) && logos[k].blobs == Gather(base, orig[m]);
    }
  }

  lemma BlobsAfterSort(cs: seq<Cluster>, logos: seq<ClusterLogo>)
    requires forall k :: 0 <= k < |cs| ==> |cs[k].blobs| > 0
    requires multiset(logos) == multiset(CombineAll(cs))
    ensures multiset(Map(logos, BlobsOf)) == multiset(BlobLists(cs))
    ensures multiset(Flatten(Map(logos, BlobsOf))) == multiset(Flatten(BlobLists(cs)))
  {
    MapPermutation(logos, CombineAll(cs), BlobsOf);
    CombineAllBlobs(cs);
    FlattenPermutation(Map(logos, BlobsOf), BlobLists(cs));
  }

  /**
   * What merging guarantees, carried through combining and sorting: no two
   * logos are linked, and every cluster the merge started from lies whole
   * inside one logo.
   */
  lemma MergedFacts(gray: Image<int>, cs0: seq<Cluster>, cs: seq<Cluster>)
    requires Refines(cs0, cs) && Unlinked(gray, cs)
    requires forall k :: 0 <= k < |cs| ==> |cs[k].blobs| > 0
    ensures Pairwise(SortLogos(CombineAll(cs)), Apart(gray))
    ensures forall g :: g in BlobLists(cs0) ==>
              exists k :: 0 <= k < |SortLogos(CombineAll(cs))| && Holds(g, SortLogos(CombineAll(cs))[k].blobs)
  {
    UnlinkedApart(gray, cs);
    SortPairwise(CombineAll(cs), ReadingOrder, Apart(gray));
    MergedKept(cs0, cs, SortLogos(CombineAll(cs)));
  }

  /** Every cluster of a refined list lies inside one of the logos, in whatever order they come. */
  lemma MergedKept(cs0: seq<Cluster>, cs: seq<Cluster>, logos: seq<ClusterLogo>)
    requires Refines(cs0, cs)
    requires forall k :: 0 <= k < |cs| ==> |cs[k].blobs| > 0
    requires multiset(logos) == multiset(CombineAll(cs))
    ensures forall g :: g in BlobLists(cs0) ==> exists k :: 0 <= k < |logos| && Holds(g, logos[k].blobs)
  {
    KeptAfterSort(cs0, cs, logos);
    forall g | g in BlobLists(cs0)
      ensures exists k :: 0 <= k < |logos| && Holds(g, logos[k].blobs)
    {
      var j :| 0 <= j < |cs0| && BlobLists(cs0)[j] == g;
      assert g == cs0[j].blobs;
      var k :| 0 <= k < |logos| && Holds(cs0[j].blobs, logos[k].blobs);
    }
  }

  /** The blob_count values added up. */
  function BlobCountTotal(logos: seq<ClusterLogo>): nat
  {
    if |logos| == 0 then 0 else logos[0].blobCount + BlobCountTotal(logos[1..])
  }

  /** When every count is its list's length, the counts add up to the flattened length. */
  lemma {:induction false} BlobCountTotalIsLength(logos: seq<ClusterLogo>)
    requires forall k :: 0 <= k < |logos| ==> logos[k].blobCount == |logos[k].blobs|
    ensures BlobCountTotal(logos) == |Flatten(Map(logos, BlobsOf))|
  {
    if |logos| > 0 {
      BlobCountTotalIsLength(logos[1..]);
      assert Map(logos, BlobsOf) == [logos[0].blobs] + Map(logos[1..], BlobsOf);
      FlattenCons(logos[0].blobs, Map(logos[1..], BlobsOf));
    }
  }

  /**
   * `cluster_logo_centers`: DBSCAN groups the blobs; with an image, linked
   * groups are merged until none are; each group becomes a combined logo;
   * the logos come out in reading order. Every blob lands in exactly one
   * logo. Without an image the logos are exactly the DBSCAN groups; with one,
   * no two logos are linked and no DBSCAN group is split.
   */
  method ClusterLogoCenters(blobs: seq<Blob>, minDistance: nat, image: Option<Image<int>>) returns (logos: seq<ClusterLogo>)
    requires minDistance > 0
    ensures |blobs| == 0 ==> logos == []
    ensures multiset(Flatten(Map(logos, BlobsOf))) == multiset(blobs)
    ensures BlobCountTotal(logos) == |blobs|
    ensures forall k :: 0 <= k < |logos| ==>
              |logos[k].blobs| > 0 && logos[k] == Combine(logos[k].clusterId, logos[k].blobs)
    ensures Sorted(logos, ReadingOrder)
    ensures image.None? ==> multiset(Map(logos, BlobsOf)) == multiset(DistanceGroups(blobs, minDistance))
    ensures image.Some? ==> Pairwise(logos, Apart(image.value))
    ensures image.Some? ==> forall g :: g in DistanceGroups(blobs, minDistance) ==>
              exists k :: 0 <= k < |logos| && Holds(g, logos[k].blobs)
    ensures image.Some? ==> forall k :: 0 <= k < |logos| ==>
              Joined(image.value, DistanceClusters(blobs, minDistance), logos[k].blobs)
    ensures image.Some? && Unlinked(image.value, DistanceClusters(blobs, minDistance)) ==>
              multiset(Map(logos, BlobsOf)) == multiset(DistanceGroups(blobs, minDistance))
  {
    if |blobs| == 0 {
      return [];
    }
    var cs0 := DistanceClusters(blobs, minDistance);
    DistanceClustersPartition(blobs, minDistance);
    var cs := cs0;
    RefinesRefl(cs0);
    if image.Some? {
      cs := MergeConnected(image.value, cs0);
    }
    RefinesNonEmpty(cs0, cs);
    var combined := CombineAll(cs);
    logos := SortLogos(combined);
    BlobsAfterSort(cs, logos);
    CombinedAfterSort(cs, logos);
    BlobCountTotalIsLength(logos);
    assert |multiset(Flatten(Map(logos, BlobsOf)))| == |multiset(blobs)|;
    if image.Some? {
      MergedFacts(image.value, cs0, cs);
      JoinedAfterSort(image.value, cs0, cs, logos);
    }
  }

  // ---------------------------------------------------------------------
  // Extraction boxes
  // ---------------------------------------------------------------------

  /** One entry of the extraction list. */
  datatype ExtractionBox = ExtractionBox(id: nat, name: string, center: Point, box: Box, totalArea: real, blobCount: nat, clusterId: nat)

  const NamePrefix: string := "clustered-logo-"

  /** `f'clustered-logo-{i:02d}'`. */
  function BoxName(i: nat): (name: string)
    ensures |name| >= |NamePrefix| && name[..|NamePrefix|] == NamePrefix
    ensures ParseDecimal(name[|NamePrefix|..]) == i
  {
    Pad2RoundTrip(i);
    var name := NamePrefix + Pad2(i);
    assert name[|NamePrefix|..] == Pad2(i);
    name
  }

  /** Different positions get different names. */
  lemma BoxNamesDistinct(i: nat, j: nat)
    requires i != j
    ensures BoxName(i) != BoxName(j)
  {
    NumberedNamesDistinct(NamePrefix, "", i, j);
    assert BoxName(i) == NamePrefix + Pad2(i) + "";
    assert BoxName(j) == NamePrefix + Pad2(j) + "";
  }

  /** Box i of `create_extraction_boxes`: the logo's fields, named by its position, padded by 25. */
  function ExtractionBoxOf(l: ClusterLogo, i: nat): (e: ExtractionBox)
    ensures e.id == i && e.name == BoxName(i) && e.center == l.center
    ensures e.totalArea == l.totalArea && e.blobCount == l.blobCount && e.clusterId == l.clusterId
    ensures e.box.x >= 0 && e.box.y >= 0
    ensures l.bbox.x >= 0 && l.bbox.y >= 0 ==> Covers(e.box, l.bbox)
    ensures e.box == Box(Max(0, l.bbox.x - 25), Max(0, l.bbox.y - 25), l.bbox.w + 50, l.bbox.h + 50)
  {
    ExtractionBox(i, BoxName(i), l.center, PadLeftTop(l.bbox, 25), l.totalArea, l.blobCount, l.clusterId)
  }

  /**
   * `create_extraction_boxes` with padding 25: logo i becomes box i, named
   * by its position, its box padded out by 25 (corner clamped at 0), the
   * other fields copied.
   */
  function CreateExtractionBoxes(logos: seq<ClusterLogo>): (r: seq<ExtractionBox>)
    ensures |r| == |logos|
    ensures forall i :: 0 <= i < |r| ==>
              r[i].id == i && r[i].name == BoxName(i) && r[i].center == logos[i].center &&
              r[i].totalArea == logos[i].totalArea && r[i].blobCount == logos[i].blobCount &&
              r[i].clusterId == logos[i].clusterId
    ensures forall i :: 0 <= i < |r| ==> r[i].box.x >= 0 && r[i].box.y >= 0
    ensures forall i :: 0 <= i < |r| && logos[i].bbox.x >= 0 && logos[i].bbox.y >= 0 ==> Covers(r[i].box, logos[i].bbox)
    ensures forall i :: 0 <= i < |r| ==>
              r[i].box == Box(Max(0, logos[i].bbox.x - 25), Max(0, logos[i].bbox.y - 25), logos[i].bbox.w + 50, logos[i].bbox.h + 50)
    ensures forall i, j :: 0 <= i < |r| && 0 <= j < |r| && i != j ==> r[i].name != r[j].name
  {
    var r := seq(|logos|, i requires 0 <= i < |logos| => ExtractionBoxOf(logos[i], i));
    forall i, j | 0 <= i < |r| && 0 <= j < |r| && i != j
      ensures r[i].name != r[j].name
    {
      BoxNamesDistinct(i, j);
    }
    r
  }
}

=== FILE: color_convert.dfy ===
/**
 * The colour converter: every visible pixel of an RGBA logo becomes black
 * (or white), transparency kept; a directory pass writes a black and a
 * white variant of every PNG, named by replacing ".png" in the file name,
 * until the first conversion that raises.
 */
module ColorConvert {
  import opened Base
  import opened Grid
  import opened Text
  import opened Seqs
  import opened Background

  /** A pixel is visible when its alpha is positive. */
  predicate Visible(p: Rgba) { p.a > 0 }

  /** One pixel of `convert_to_black`. */
  function BlackPixel(p: Rgba): (q: Rgba)
    ensures q.a == p.a
    ensures Visible(p) ==> q.r == 0 && q.g == 0 && q.b == 0
    ensures !Visible(p) ==> q == p
  {
    if p.a > 0 then Rgba(0, 0, 0, p.a) else p
  }

  /** One pixel of `convert_to_white`. */
  function WhitePixel(p: Rgba): (q: Rgba)
    ensures q.a == p.a
    ensures Visible(p) ==> q.r == 255 && q.g == 255 && q.b == 255
    ensures !Visible(p) ==> q == p
  {
    if p.a > 0 then Rgba(255, 255, 255, p.a) else p
  }

  /**
   * `convert_to_black`: same shape, alpha kept everywhere, visible pixels
   * black, transparent pixels untouched.
   */
  function ConvertToBlack(img: Image<Rgba>): (r: Image<Rgba>)
    ensures SameShape(img, r)
    ensures forall i, j :: 0 <= i < |img| && 0 <= j < |img[i]| ==>
              r[i][j].a == img[i][j].a &&
              (img[i][j].a > 0 ==> r[i][j] == Rgba(0, 0, 0, img[i][j].a)) &&
              (img[i][j].a <= 0 ==> r[i][j] == img[i][j])
  {
    MapImage(img, BlackPixel)
  }

  /**
   * `convert_to_white`: same shape, alpha kept everywhere, visible pixels
   * white, transparent pixels untouched.
   */
  function ConvertToWhite(img: Image<Rgba>): (r: Image<Rgba>)
    ensures SameShape(img, r)
    ensures forall i, j :: 0 <= i < |img| && 0 <= j < |img[i]| ==>
              r[i][j].a == img[i][j].a &&
              (img[i][j].a > 0 ==> r[i][j] == Rgba(255, 255, 255, img[i][j].a)) &&
              (img[i][j].a <= 0 ==> r[i][j] == img[i][j])
  {
    MapImage(img, WhitePixel)
  }

  /** Two images with the same shape and the same pixels are equal. */
  lemma SamePixels(a: Image<Rgba>, b: Image<Rgba>)
    requires SameShape(a, b)
    requires forall i, j :: 0 <= i < |a| && 0 <= j < |a[i]| ==> a[i][j] == b[i][j]
    ensures a == b
  {
    forall i | 0 <= i < |a|
      ensures a[i] == b[i]
    {
    }
  }

  /** Converting to black twice is converting once. */
  lemma BlackIdempotent(img: Image<Rgba>)
    ensures ConvertToBlack(ConvertToBlack(img)) == ConvertToBlack(img)
  {
    SamePixels(ConvertToBlack(ConvertToBlack(img)), ConvertToBlack(img));
  }

  /** Converting to white twice is converting once. */
  lemma WhiteIdempotent(img: Image<Rgba>)
    ensures ConvertToWhite(ConvertToWhite(img)) == ConvertToWhite(img)
  {
    SamePixels(ConvertToWhite(ConvertToWhite(img)), ConvertToWhite(img));
  }

  /** The white variant of the black variant is the white variant: only alpha survives either. */
  lemma WhiteAfterBlack(img: Image<Rgba>)
    ensures ConvertToWhite(ConvertToBlack(img)) == ConvertToWhite(img)
  {
    SamePixels(ConvertToWhite(ConvertToBlack(img)), ConvertToWhite(img));
  }

  /** `filename.replace('.png', '-black.png')`: every occurrence, case-sensitively. */
  function BlackName(name: string): string
  {
    ReplaceAll(name, ".png", "-black.png")
  }

  /** `filename.replace('.png', '-white.png')`. */
  function WhiteName(name: string): string
  {
    ReplaceAll(name, ".png", "-white.png")
  }

  /** The names `process_logos` writes for one input file. */
  datatype Variants = Variants(source: string, black: string, white: string)

  /** The listing filter, case-insensitive on the extension. */
  predicate IsPngName(name: string)
  {
    EndsWith(Lower(name), ".png")
  }

  /** The variant names of one file. */
  function VariantsOf(name: string): Variants
  {
    Variants(name, BlackName(name), WhiteName(name))
  }

  /**
   * The variant names of every file whose lower-cased name ends in ".png",
   * in listing order: what `process_logos` writes when no conversion fails.
   */
  function AllVariants(names: seq<string>): (vs: seq<Variants>)
    ensures |vs| == CountWhere(names, IsPngName)
    ensures forall v :: v in vs ==> v.source in names && IsPngName(v.source)
    ensures forall v :: v in vs ==> v.black == BlackName(v.source) && v.white == WhiteName(v.source)
    ensures forall n :: n in names && IsPngName(n) ==> VariantsOf(n) in vs
  {
    var sel := Filter(names, IsPngName);
    CountIsFilterLength(names, IsPngName);
    Map(sel, VariantsOf)
  }

  /** Listing order is kept: the variants of a + b are those of a followed by those of b. */
  lemma AllVariantsAppend(a: seq<string>, b: seq<string>)
    ensures AllVariants(a + b) == AllVariants(a) + AllVariants(b)
  {
    FilterAppend(a, b, IsPngName);
    MapAppend(Filter(a, IsPngName), Filter(b, IsPngName), VariantsOf);
  }

  /** The file whose conversion raised, and whether its black version was written before. */
  datatype Failure = Failure(source: string, blackWritten: bool)

  /** How far a run got: the files converted in full, in order, and the failure that ended it, if any. */
  datatype Progress = Progress(converted: seq<Variants>, failure: Option<Failure>)

  /** Both conversions of v's file succeed. */
  predicate Converts(v: Variants, blackFails: set<string>, whiteFails: set<string>)
  {
    v.source !in blackFails && v.source !in whiteFails
  }

  /** The longest prefix of plan whose files all convert. */
  function ConvertedPrefix(plan: seq<Variants>, blackFails: set<string>, whiteFails: set<string>): (r: seq<Variants>)
    ensures r <= plan
    ensures forall v :: v in r ==> Converts(v, blackFails, whiteFails)
    ensures |r| < |plan| ==> !Converts(plan[|r|], blackFails, whiteFails)
  {
    if |plan| == 0 || !Converts(plan[0], blackFails, whiteFails) then []
    else [plan[0]] + ConvertedPrefix(plan[1..], blackFails, whiteFails)
  }

  /**
   * The loop body over the files of the plan: write the black version, then
   * the white one; the first conversion that raises (a name in blackFails or
   * whiteFails) ends the run, after a black version when only the white
   * conversion raised.
   */
  function RunPlan(plan: seq<Variants>, blackFails: set<string>, whiteFails: set<string>): (p: Progress)
    ensures p.converted == ConvertedPrefix(plan, blackFails, whiteFails)
    ensures p.failure.None? <==> p.converted == plan
    ensures p.failure.Some? ==>
              |p.converted| < |plan| && plan[|p.converted|].source == p.failure.value.source &&
              (p.failure.value.source in blackFails || p.failure.value.source in whiteFails) &&
              (p.failure.value.blackWritten <==> p.failure.value.source !in blackFails)
  {
    if |plan| == 0 then Progress([], None)
    else
      var v := plan[0];
      if v.source in blackFails then Progress([], Some(Failure(v.source, false)))
      else if v.source in whiteFails then Progress([], Some(Failure(v.source, true)))
      else
        var rest := RunPlan(plan[1..], blackFails, whiteFails);
        assert plan == [v] + plan[1..];
        Progress([v] + rest.converted, rest.failure)
  }

  /** The whole plan converts exactly when no PNG file's conversion raises. */
  lemma WholePlanConverts(names: seq<string>, blackFails: set<string>, whiteFails: set<string>)
    ensures ConvertedPrefix(AllVariants(names), blackFails, whiteFails) == AllVariants(names) <==>
              forall n :: n in names && IsPngName(n) ==> n !in blackFails && n !in whiteFails
  {
    var plan := AllVariants(names);
    var done := ConvertedPrefix(plan, blackFails, whiteFails);
    if done == plan {
      forall n | n in names && IsPngName(n)
        ensures n !in blackFails && n !in whiteFails
      {
        assert VariantsOf(n) in done;
      }
    } else {
      assert |done| < |plan|;
      assert plan[|done|] in plan;
    }
  }

  /**
   * `process_logos`: the files of the listing whose lower-cased name ends in
   * ".png" are converted in listing order, and nothing catches an exception.
   * The run converts the longest prefix of the plan whose files all convert,
   * fails exactly when some PNG file's conversion raises, and then fails at
   * the next file of the plan.
   */
  function ProcessLogos(names: seq<string>, blackFails: set<string>, whiteFails: set<string>): (p: Progress)
    ensures p.converted == ConvertedPrefix(AllVariants(names), blackFails, whiteFails)
    ensures p.failure.None? <==> forall n :: n in names && IsPngName(n) ==> n !in blackFails && n !in whiteFails
    ensures p.failure.None? ==> p.converted == AllVariants(names)
    ensures p.failure.Some? ==>
              |p.converted| < |AllVariants(names)| && AllVariants(names)[|p.converted|].source == p.failure.value.source &&
              (p.failure.value.source in blackFails || p.failure.value.source in whiteFails) &&
              (p.failure.value.blackWritten <==> p.failure.value.source !in blackFails)
  {
    WholePlanConverts(names, blackFails, whiteFails);
    RunPlan(AllVariants(names), blackFails, whiteFails)
  }

  /** Without failures every PNG file gets its pair, in listing order. */
  lemma ProcessLogosComplete(names: seq<string>)
    ensures ProcessLogos(names, {}, {}) == Progress(AllVariants(names), None)
  {
  }

  /** A name ending in ".png" keeps ending in the replacement after every ".png" is replaced. */
  lemma {:induction false} PngSuffixReplaced(s: string, rep: string)
    requires EndsWith(s, ".png")
    ensures EndsWith(ReplaceAll(s, ".png", rep), rep)
    decreases |s|
  {
    var pat := ".png";
    if s[..4] == pat {
      var t := s[4..];
      if |t| == 0 {
        assert ReplaceAll(s, pat, rep) == rep + ReplaceAll(t, pat, rep);
      } else {
        assert s[|s| - 4] == '.';
        assert s[1] == 'p' && s[2] == 'n' && s[3] == 'g';
        assert |t| >= 4;
        assert t[|t| - 4..] == s[|s| - 4..];
        PngSuffixReplaced(t, rep);
        var rt := ReplaceAll(t, pat, rep);
        assert ReplaceAll(s, pat, rep) == rep + rt;
        EndsWithPrepend(rep, rt, rep);
      }
    } else {
      assert s[|s| - 4..] == pat;
      assert |s| > 4;
      assert s[1..][|s| - 5..] == s[|s| - 4..];
      PngSuffixReplaced(s[1..], rep);
      var rt := ReplaceAll(s[1..], pat, rep);
      assert ReplaceAll(s, pat, rep) == [s[0]] + rt;
      EndsWithPrepend([s[0]], rt, rep);
    }
  }

  /**
   * The background remover never picks up the converter's output for a
   * file named in lower-case ".png": the variant names end in "-black.png"
   * and "-white.png".
   */
  lemma VariantsNotReprocessed(name: string)
    requires EndsWith(name, ".png")
    ensures !SelectedForTransparency(BlackName(name))
    ensures !SelectedForTransparency(WhiteName(name))
  {
    PngSuffixReplaced(name, "-black.png");
    PngSuffixReplaced(name, "-white.png");
  }

  /** A name without ".png" in it (".PNG", say) is selected but its variants keep the input's name. */
  lemma UpperCaseNameKept(name: string)
    requires !Contains(name, ".png")
    ensures BlackName(name) == name && WhiteName(name) == name
  {
    ReplaceAbsent(name, ".png", "-black.png");
    ReplaceAbsent(name, ".png", "-white.png");
  }
}

=== FILE: components.dfy ===
/**
 * DBSCAN with min_samples = 1 over the points 0 .. n-1. With one sample
 * enough, every point is a core point, so a cluster is a connected component
 * of the "within eps" graph. Labels are handed out while scanning the points
 * in index order, so the clusters come out ordered by their lowest member,
 * and each cluster lists its members in index order.
 */
module Components {
  import opened Seqs

  /** The neighbourhood test: eps distance is symmetric. */
  ghost predicate Symmetric(near: (nat, nat) -> bool)
  {
    forall i, j :: near(i, j) == near(j, i)
  }

  /** A walk through points below n whose consecutive points are neighbours. */
  ghost predicate IsPath(near: (nat, nat) -> bool, n: nat, p: seq<nat>)
  {
    |p| > 0 &&
    (forall k :: 0 <= k < |p| ==> p[k] < n) &&
    (forall k :: 0 <= k < |p| - 1 ==> near(p[k], p[k + 1]))
  }

  ghost predicate Reachable(near: (nat, nat) -> bool, n: nat, i: nat, j: nat)
  {
    exists p :: IsPath(near, n, p) && p[0] == i && p[|p| - 1] == j
  }

  lemma ReachRefl(near: (nat, nat) -> bool, n: nat, i: nat)
    requires i < n
    ensures Reachable(near, n, i, i)
  {
    assert IsPath(near, n, [i]);
  }

  lemma ReachExtend(near: (nat, nat) -> bool, n: nat, i: nat, j: nat, k: nat)
    requires Reachable(near, n, i, j) && k < n && near(j, k)
    ensures Reachable(near, n, i, k)
  {
    var p :| IsPath(near, n, p) && p[0] == i && p[|p| - 1] == j;
    var q := p + [k];
    assert IsPath(near, n, q);
  }

  lemma ReachTrans(near: (nat, nat) -> bool, n: nat, i: nat, j: nat, k: nat)
    requires Reachable(near, n, i, j) && Reachable(near, n, j, k)
    ensures Reachable(near, n, i, k)
  {
    var p :| IsPath(near, n, p) && p[0] == i && p[|p| - 1] == j;
    var q :| IsPath(near, n, q) && q[0] == j && q[|q| - 1] == k;
    var r := p + q[1..];
    assert IsPath(near, n, r) by {
      forall m | 0 <= m < |r| - 1
        ensures near(r[m], r[m + 1])
      {
        if m == |p| - 1 {
          assert r[m] == q[0] && r[m + 1] == q[1];
        } else if m >= |p| {
          assert r[m] == q[m - |p| + 1] && r[m + 1] == q[m - |p| + 2];
        }
      }
    }
  }

  lemma ReachSym(near: (nat, nat) -> bool, n: nat, i: nat, j: nat)
    requires Symmetric(near)
    requires Reachable(near, n, i, j)
    ensures Reachable(near, n, j, i)
  {
    var p :| IsPath(near, n, p) && p[0] == i && p[|p| - 1] == j;
    var q := seq(|p|, k requires 0 <= k < |p| => p[|p| - 1 - k]);
    assert IsPath(near, n, q) by {
      forall m | 0 <= m < |q| - 1
        ensures near(q[m], q[m + 1])
      {
        assert near(p[|p| - 2 - m], p[|p| - 1 - m]);
      }
    }
  }

  /** The points below n. */
  function Below(n: nat): (r: set<nat>)
    ensures |r| == n
    ensures forall k: nat :: k in r <==> k < n
  {
    if n == 0 then {}
    else
      var b := Below(n - 1);
      assert n - 1 !in b;
      b + {n - 1}
  }

  lemma SubsetBelow(s: set<nat>, n: nat)
    requires forall k :: k in s ==> k < n
    ensures |s| <= n
  {
    var b := Below(n);
    assert b == s + (b - s);
  }

  /** One round of growth: add every point below n that neighbours the set. */
  function Grow(near: (nat, nat) -> bool, n: nat, s: set<nat>): (r: set<nat>)
    ensures s <= r
    ensures forall j :: j in r && j !in s ==> j < n && exists k :: k in s && near(k, j)
    ensures forall j, k :: 0 <= j < n && k in s && near(k, j) ==> j in r
  {
    s + set j, k | 0 <= j < n && k in s && near(k, j) :: j
  }

  /** Grow s until nothing is added. */
  function Closure(near: (nat, nat) -> bool, n: nat, s: set<nat>): (r: set<nat>)
    requires forall k :: k in s ==> k < n
    ensures s <= r
    ensures forall k :: k in r ==> k < n
    ensures Grow(near, n, r) == r
    decreases n - |s|
  {
    var t := Grow(near, n, s);
    if t == s then s
    else
      assert |s| < |t| by {
        assert t == s + (t - s);
      }
      SubsetBelow(t, n);
      Closure(near, n, t)
  }

  /** Every point Closure adds is reachable from i if every starting point is. */
  lemma {:induction false} ClosureReachable(near: (nat, nat) -> bool, n: nat, s: set<nat>, i: nat)
    requires forall k :: k in s ==> k < n
    requires forall k :: k in s ==> Reachable(near, n, i, k)
    ensures forall k :: k in Closure(near, n, s) ==> Reachable(near, n, i, k)
    decreases n - |s|
  {
    var t := Grow(near, n, s);
    if t != s {
      forall j | j in t
        ensures Reachable(near, n, i, j)
      {
        if j !in s {
          var k :| k in s && near(k, j);
          ReachExtend(near, n, i, k, j);
        }
      }
      assert |s| < |t| by {
        assert t == s + (t - s);
      }
      SubsetBelow(t, n);
      ClosureReachable(near, n, t, i);
    }
  }

  /** A set closed under neighbours contains everything reachable from its members. */
  lemma {:induction false} ClosedContainsReachable(near: (nat, nat) -> bool, n: nat, r: set<nat>, i: nat, j: nat)
    requires Grow(near, n, r) == r
    requires i in r && Reachable(near, n, i, j)
    ensures j in r
  {
    var p :| IsPath(near, n, p) && p[0] == i && p[|p| - 1] == j;
    var m := 0;
    while m < |p| - 1
      invariant 0 <= m < |p|
      invariant p[m] in r
    {
      assert near(p[m], p[m + 1]);
      m := m + 1;
    }
  }

  /** The component of i: the points reachable from i. */
  function Component(near: (nat, nat) -> bool, n: nat, i: nat): (c: set<nat>)
    requires i < n
    ensures i in c
    ensures forall k :: k in c ==> k < n
  {
    Closure(near, n, {i})
  }

  /** Membership in the component is exactly reachability. */
  lemma ComponentIsReachable(near: (nat, nat) -> bool, n: nat, i: nat, j: nat)
    requires i < n
    ensures j in Component(near, n, i) <==> Reachable(near, n, i, j)
  {
    ReachRefl(near, n, i);
    ClosureReachable(near, n, {i}, i);
    if Reachable(near, n, i, j) {
      ClosedContainsReachable(near, n, Component(near, n, i), i, j);
    }
  }

  /** The members of c in [k, n), ascending. */
  function AscFrom(c: set<nat>, k: nat, n: nat): (r: seq<nat>)
    requires k <= n
    ensures forall x :: x in r <==> x in c && k <= x < n
    ensures forall a, b :: 0 <= a < b < |r| ==> r[a] < r[b]
    decreases n - k
  {
    if k == n then []
    else if k in c then
      var rest := AscFrom(c, k + 1, n);
      assert forall b :: 0 <= b < |rest| ==> rest[b] in rest;
      [k] + rest
    else AscFrom(c, k + 1, n)
  }

  /** The members of c in [k, n), as a set. */
  function Between(c: set<nat>, k: nat, n: nat): (r: set<nat>)
    requires k <= n
    ensures forall x :: x in r <==> x in c && k <= x < n
    decreases n - k
  {
    if k == n then {}
    else if k in c then {k} + Between(c, k + 1, n)
    else Between(c, k + 1, n)
  }

  lemma {:induction false} AscFromMultiset(c: set<nat>, k: nat, n: nat)
    requires k <= n
    ensures multiset(AscFrom(c, k, n)) == multiset(Between(c, k, n))
    decreases n - k
  {
    if k < n {
      AscFromMultiset(c, k + 1, n);
      var tail, rest := AscFrom(c, k + 1, n), Between(c, k + 1, n);
      if k in c {
        AddFresh(rest, k);
        assert Between(c, k, n) == rest + {k};
        assert AscFrom(c, k, n) == [k] + tail;
        assert multiset(AscFrom(c, k, n)) == multiset{k} + multiset(tail);
      } else {
        assert Between(c, k, n) == rest;
        assert AscFrom(c, k, n) == tail;
      }
    }
  }

  lemma AddFresh(s: set<nat>, k: nat)
    requires k !in s
    ensures multiset(s + {k}) == multiset(s) + multiset{k}
  {
    assert forall x :: multiset(s + {k})[x] == multiset(s)[x] + multiset{k}[x];
  }

  /** A set of points that holds every point reachable from any of its members. */
  ghost predicate ReachClosed(near: (nat, nat) -> bool, n: nat, seen: set<nat>)
  {
    forall a, b :: a in seen && Reachable(near, n, a, b) ==> b in seen
  }

  /** The clusters found scanning points i .. n-1, skipping those already seen. */
  function GroupsFrom(near: (nat, nat) -> bool, n: nat, i: nat, seen: set<nat>): seq<seq<nat>>
    requires i <= n
    decreases n - i
  {
    if i == n then []
    else if i in seen then GroupsFrom(near, n, i + 1, seen)
    else
      var c := Component(near, n, i);
      [AscFrom(c, 0, n)] + GroupsFrom(near, n, i + 1, seen + c)
  }

  /** DBSCAN(eps, min_samples = 1) over points 0 .. n-1 with neighbourhood test near. */
  function Groups(near: (nat, nat) -> bool, n: nat): seq<seq<nat>>
  {
    GroupsFrom(near, n, 0, {})
  }

  /** A component that does not contain a point of a reach-closed set avoids the set. */
  lemma ComponentDisjoint(near: (nat, nat) -> bool, n: nat, i: nat, seen: set<nat>)
    requires Symmetric(near) && i < n && i !in seen && ReachClosed(near, n, seen)
    ensures Component(near, n, i) !! seen
  {
    forall x | x in Component(near, n, i)
      ensures x !in seen
    {
      ComponentIsReachable(near, n, i, x);
      if x in seen {
        ReachSym(near, n, i, x);
      }
    }
  }

  lemma ComponentReachClosed(near: (nat, nat) -> bool, n: nat, i: nat, seen: set<nat>)
    requires Symmetric(near) && i < n && ReachClosed(near, n, seen)
    ensures ReachClosed(near, n, seen + Component(near, n, i))
  {
    var c := Component(near, n, i);
    forall a, b | a in seen + c && Reachable(near, n, a, b)
      ensures b in seen + c
    {
      if a in c {
        ComponentIsReachable(near, n, i, a);
        ReachTrans(near, n, i, a, b);
        ComponentIsReachable(near, n, i, b);
      }
    }
  }

  /** The clusters found from i on hold exactly the unseen points, once each. */
  lemma {:induction false} GroupsFromPartition(near: (nat, nat) -> bool, n: nat, i: nat, seen: set<nat>)
    requires Symmetric(near) && i <= n && ReachClosed(near, n, seen)
    requires forall k :: k in seen ==> k < n
    requires forall k :: 0 <= k < i ==> k in seen
    ensures multiset(Flatten(GroupsFrom(near, n, i, seen))) == multiset(Below(n) - seen)
    decreases n - i
  {
    if i == n {
      assert Below(n) - seen == {};
    } else if i in seen {
      GroupsFromPartition(near, n, i + 1, seen);
    } else {
      var c := Component(near, n, i);
      ComponentDisjoint(near, n, i, seen);
      ComponentReachClosed(near, n, i, seen);
      GroupsFromPartition(near, n, i + 1, seen + c);
      ComponentMultiset(near, n, i);
      var rest := GroupsFrom(near, n, i + 1, seen + c);
      assert Flatten(GroupsFrom(near, n, i, seen)) == AscFrom(c, 0, n) + Flatten(rest);
      SplitUnseen(Below(n), seen, c);
    }
  }

  lemma ComponentMultiset(near: (nat, nat) -> bool, n: nat, i: nat)
    requires i < n
    ensures multiset(AscFrom(Component(near, n, i), 0, n)) == multiset(Component(near, n, i))
  {
    var c := Component(near, n, i);
    AscFromMultiset(c, 0, n);
    assert Between(c, 0, n) == c;
  }

  lemma SplitUnseen(all: set<nat>, seen: set<nat>, c: set<nat>)
    requires c <= all && c !! seen
    ensures multiset(all - seen) == multiset(c) + multiset(all - (seen + c))
  {
    assert all - seen == c + (all - (seen + c));
    assert c !! (all - (seen + c));
  }

  /**
   * Every point below n lies in exactly one cluster: flattening the clusters
   * gives the points 0 .. n-1, each once.
   */
  lemma GroupsPartition(near: (nat, nat) -> bool, n: nat)
    requires Symmetric(near)
    ensures multiset(Flatten(Groups(near, n))) == multiset(Below(n))
    ensures |Flatten(Groups(near, n))| == n
  {
    GroupsFromPartition(near, n, 0, {});
    assert Below(n) - {} == Below(n);
    assert |multiset(Flatten(Groups(near, n)))| == |multiset(Below(n))|;
  }

  /** Each cluster found from i on is the component of each of its members. */
  lemma {:induction false} GroupsFromComponents(near: (nat, nat) -> bool, n: nat, i: nat, seen: set<nat>, g: seq<nat>, a: nat, b: nat)
    requires Symmetric(near) && i <= n
    requires g in GroupsFrom(near, n, i, seen) && a in g && b < n
    ensures b in g <==> Reachable(near, n, a, b)
    decreases n - i
  {
    if i == n {
      assert false;
    } else if i in seen {
      GroupsFromComponents(near, n, i + 1, seen, g, a, b);
    } else {
      var c := Component(near, n, i);
      var g0, rest := AscFrom(c, 0, n), GroupsFrom(near, n, i + 1, seen + c);
      assert GroupsFrom(near, n, i, seen) == [g0] + rest;
      if g == g0 {
        ComponentGroup(near, n, i, a, b);
      } else {
        GroupsFromComponents(near, n, i + 1, seen + c, g, a, b);
      }
    }
  }

  /** The cluster opened at i holds exactly the points reachable from any of its members. */
  lemma ComponentGroup(near: (nat, nat) -> bool, n: nat, i: nat, a: nat, b: nat)
    requires Symmetric(near) && i < n && b < n
    requires a in AscFrom(Component(near, n, i), 0, n)
    ensures b in AscFrom(Component(near, n, i), 0, n) <==> Reachable(near, n, a, b)
  {
    var g0 := AscFrom(Component(near, n, i), 0, n);
    ComponentIsReachable(near, n, i, a);
    ComponentIsReachable(near, n, i, b);
    if Reachable(near, n, a, b) {
      ReachTrans(near, n, i, a, b);
    }
    if b in g0 {
      ReachSym(near, n, i, a);
      ReachTrans(near, n, a, i, b);
    }
  }

  /** Two points share a cluster exactly when one is reachable from the other. */
  lemma GroupsAreComponents(near: (nat, nat) -> bool, n: nat)
    requires Symmetric(near)
    ensures forall g, a, b: nat :: g in Groups(near, n) && a in g && b < n ==>
              (b in g <==> Reachable(near, n, a, b))
  {
    forall g, a, b: nat | g in Groups(near, n) && a in g && b < n
      ensures b in g <==> Reachable(near, n, a, b)
    {
      GroupsFromComponents(near, n, 0, {}, g, a, b);
    }
  }

  /** Cluster members ascend, and each cluster starts with its lowest member. */
  ghost predicate OrderedGroups(gs: seq<seq<nat>>, lo: nat)
  {
    (forall k :: 0 <= k < |gs| ==> |gs[k]| > 0 && gs[k][0] >= lo) &&
    (forall k, a, b :: 0 <= k < |gs| && 0 <= a < b < |gs[k]| ==> gs[k][a] < gs[k][b]) &&
    (forall k, l :: 0 <= k < l < |gs| ==> gs[k][0] < gs[l][0])
  }

  lemma {:induction false} GroupsFromOrdered(near: (nat, nat) -> bool, n: nat, i: nat, seen: set<nat>)
    requires Symmetric(near) && i <= n && ReachClosed(near, n, seen)
    requires forall k :: 0 <= k < i ==> k in seen
    ensures OrderedGroups(GroupsFrom(near, n, i, seen), i)
    decreases n - i
  {
    if i < n {
      if i in seen {
        GroupsFromOrdered(near, n, i + 1, seen);
      } else {
        var c := Component(near, n, i);
        ComponentDisjoint(near, n, i, seen);
        ComponentReachClosed(near, n, i, seen);
        GroupsFromOrdered(near, n, i + 1, seen + c);
        var g0 := AscFrom(c, 0, n);
        assert i in g0;
        assert forall x :: x in g0 ==> x in c && x !in seen;
        assert g0[0] in g0;
      }
    }
  }

  /** Clusters come out ordered by their lowest member, members ascending. */
  lemma GroupsOrdered(near: (nat, nat) -> bool, n: nat)
    requires Symmetric(near)
    ensures OrderedGroups(Groups(near, n), 0)
  {
    GroupsFromOrdered(near, n, 0, {});
  }

  /** The positions 0 .. n-1 as a sequence hold the same points as Below(n). */
  lemma {:induction false} RangeBelow(n: nat)
    ensures multiset(Range(n)) == multiset(Below(n))
  {
    if n > 0 {
      var m: nat := n - 1;
      RangeBelow(m);
      RangeSnoc(m);
      assert Below(n) == Below(m) + {m};
      AddFresh(Below(m), m);
    }
  }

  lemma RangeSnoc(m: nat)
    ensures Range(m + 1) == Range(m) + [m]
  {
  }

  /** Every cluster member is one of the points. */
  lemma GroupsBelow(near: (nat, nat) -> bool, n: nat)
    requires Symmetric(near)
    ensures AllIndicesIn(Groups(near, n), n)
    ensures multiset(Flatten(Groups(near, n))) == multiset(Range(n))
  {
    var gs := Groups(near, n);
    GroupsPartition(near, n);
    RangeBelow(n);
    forall k, j | 0 <= k < |gs| && 0 <= j < |gs[k]|
      ensures gs[k][j] < n
    {
      FlattenMember(gs, k, j);
      assert gs[k][j] in multiset(Below(n));
    }
  }
}

=== FILE: enhanced.dfy ===
/**
 * The second-generation detector for the client-logo collage: keep the
 * contours of plausible size and shape, shrink each bounding box to the
 * non-white pixels it holds and pad it again, group the boxes into rows,
 * hand out the expected company names in reading order, and score every
 * extraction.
 */
module Enhanced {
  import opened Base
  import opened Geometry
  import opened Grid
  import opened Seqs
  import opened Sorting
  import opened Components
  import opened Text

  // ---------------------------------------------------------------------
  // Contour filter
  // ---------------------------------------------------------------------

  /** 2000 < area < 50000 and 0.3 < w / h < 8, the ratio cross-multiplied by h > 0. */
  predicate KeptRegion(c: Contour)
  {
    2000.0 < c.area < 50000.0 && 3 * c.bbox.h < 10 * c.bbox.w && c.bbox.w < 8 * c.bbox.h
  }

  /** The integer comparisons above are the source's ratio test on exact quotients. */
  lemma AspectCrossMultiplied(w: int, h: int)
    requires h > 0
    ensures (0.3 < w as real / h as real < 8.0) <==> (3 * h < 10 * w && w < 8 * h)
  {
    QuotientCompare(w, h, 0.3);
    QuotientCompare(w, h, 8.0);
  }

  /**
   * The contours kept for refinement, in their input order. A contour whose
   * area passes has a bounding box of positive height: the source divides
   * by it.
   */
  function DetectContentRegions(contours: seq<Contour>): (r: seq<Contour>)
    requires forall k :: 0 <= k < |contours| && 2000.0 < contours[k].area < 50000.0 ==> contours[k].bbox.h > 0
    ensures |r| <= |contours|
    ensures forall k :: 0 <= k < |r| ==> r[k] in contours
    ensures forall k :: 0 <= k < |r| ==>
              2000.0 < r[k].area < 50000.0 && 0.3 < r[k].bbox.w as real / r[k].bbox.h as real < 8.0
    ensures forall c :: c in contours && 2000.0 < c.area < 50000.0 && 0.3 < c.bbox.w as real / c.bbox.h as real < 8.0 ==> c in r
  {
    var r := Filter(contours, KeptRegion);
    FilterKept(contours);
    r
  }

  lemma FilterKept(contours: seq<Contour>)
    requires forall k :: 0 <= k < |contours| && 2000.0 < contours[k].area < 50000.0 ==> contours[k].bbox.h > 0
    ensures forall c :: c in Filter(contours, KeptRegion) ==>
              c in contours && 2000.0 < c.area < 50000.0 && 0.3 < c.bbox.w as real / c.bbox.h as real < 8.0
    ensures forall c :: c in contours && 2000.0 < c.area < 50000.0 && 0.3 < c.bbox.w as real / c.bbox.h as real < 8.0 ==>
              c in Filter(contours, KeptRegion)
  {
    forall c | c in contours && 2000.0 < c.area < 50000.0
      ensures KeptRegion(c) <==> 0.3 < c.bbox.w as real / c.bbox.h as real < 8.0
    {
      AspectCrossMultiplied(c.bbox.w, c.bbox.h);
    }
  }

  // ---------------------------------------------------------------------
  // Refinement to the content
  // ---------------------------------------------------------------------

  /** A refined box and its area. */
  datatype Region = Region(box: Box, area: int)

  /** Non-white: grey level below 240. */
  predicate IsInk(g: int) { g < 240 }

  /**
   * Shrink a bounding box to the ink inside it and pad it by 10 pixels,
   * clipped to the image: None when the box holds no ink; otherwise a box
   * inside the image, of positive size, holding every ink pixel of the
   * original box, with its area.
   */
  function RefineOne(gray: Image<int>, width: nat, b: Box): (r: Option<Region>)
    requires IsRect(gray, width, |gray|)
    requires b.x >= 0 && b.y >= 0
    ensures r.None? <==> forall i, j :: InWindow(gray, width, b.y, b.y + b.h, b.x, b.x + b.w, i, j) ==> !IsInk(gray[i][j])
    ensures r.Some? ==> Inside(r.value.box, width, |gray|) && r.value.box.w > 0 && r.value.box.h > 0
    ensures r.Some? ==> r.value.area == r.value.box.w * r.value.box.h
    ensures r.Some? ==> forall i, j :: InWindow(gray, width, b.y, b.y + b.h, b.x, b.x + b.w, i, j) && IsInk(gray[i][j]) ==>
              r.value.box.x <= j < r.value.box.x + r.value.box.w && r.value.box.y <= i < r.value.box.y + r.value.box.h
  {
    match ExtentInWindow(gray, width, b.y, b.y + b.h, b.x, b.x + b.w, IsInk)
    case None => None
    case Some(e) =>
      var box := PadExtent(e, 10, width, |gray|);
      Some(Region(box, box.w * box.h))
  }

  /** RefineOne applied to every box. */
  function RefineEach(gray: Image<int>, width: nat, boxes: seq<Box>): (r: seq<Option<Region>>)
    requires IsRect(gray, width, |gray|)
    requires forall k :: 0 <= k < |boxes| ==> boxes[k].x >= 0 && boxes[k].y >= 0
    ensures |r| == |boxes|
    ensures forall k :: 0 <= k < |boxes| ==> r[k] == RefineOne(gray, width, boxes[k])
  {
    seq(|boxes|, k requires 0 <= k < |boxes| => RefineOne(gray, width, boxes[k]))
  }

  /**
   * `refine_bounding_boxes`: the refined boxes of the contours that hold
   * ink, in order; each lies inside the image with positive size.
   */
  function RefineBoundingBoxes(gray: Image<int>, width: nat, boxes: seq<Box>): (r: seq<Region>)
    requires IsRect(gray, width, |gray|)
    requires forall k :: 0 <= k < |boxes| ==> boxes[k].x >= 0 && boxes[k].y >= 0
    ensures |r| <= |boxes|
    ensures forall k :: 0 <= k < |r| ==> Some(r[k]) in RefineEach(gray, width, boxes)
    ensures forall i :: 0 <= i < |boxes| && RefineOne(gray, width, boxes[i]).Some? ==> RefineOne(gray, width, boxes[i]).value in r
    ensures forall k :: 0 <= k < |r| ==> Inside(r[k].box, width, |gray|) && r[k].box.w > 0 && r[k].box.h > 0
  {
    var each := RefineEach(gray, width, boxes);
    var r := Somes(each);
    forall k | 0 <= k < |r|
      ensures Inside(r[k].box, width, |gray|) && r[k].box.w > 0 && r[k].box.h > 0
    {
      var i :| 0 <= i < |each| && each[i] == Some(r[k]);
    }
    r
  }

  // ---------------------------------------------------------------------
  // Rows
  // ---------------------------------------------------------------------

  /**
   * DBSCAN with eps 50 on the box centres `y + h / 2`: boxes i and j are
   * neighbours when the centres are at most 50 apart, written on doubled
   * centres to stay in integers.
   */
  function SameRow(boxes: seq<Region>): (nat, nat) -> bool
  {
    (i: nat, j: nat) => i < |boxes| && j < |boxes| &&
      Abs((2 * boxes[i].box.y + boxes[i].box.h) - (2 * boxes[j].box.y + boxes[j].box.h)) <= 100
  }

  lemma SameRowSymmetric(boxes: seq<Region>)
    ensures Symmetric(SameRow(boxes))
  {
  }

  /**
   * The clusters of boxes: the boxes of each component of SameRow (see
   * GroupsAreComponents), in order of their first box, each in input order.
   */
  function RowGroups(boxes: seq<Region>): (gs: seq<seq<Region>>)
    ensures multiset(Flatten(gs)) == multiset(boxes)
    ensures AllIndicesIn(Groups(SameRow(boxes), |boxes|), |boxes|)
    ensures gs == PickEach(boxes, Groups(SameRow(boxes), |boxes|))
  {
    var near := SameRow(boxes);
    SameRowSymmetric(boxes);
    GroupsBelow(near, |boxes|);
    PickFlatten(boxes, Groups(near, |boxes|));
    PickPermutation(boxes, Flatten(Groups(near, |boxes|)), Range(|boxes|));
    PickRange(boxes);
    PickEach(boxes, Groups(near, |boxes|))
  }

  function SumY(row: seq<Region>): int
  {
    if |row| == 0 then 0 else row[0].box.y + SumY(row[1..])
  }

  /** The exact mean of the tops of a row (0 for an empty row, which never occurs). */
  function MeanY(row: seq<Region>): real
  {
    if |row| == 0 then 0.0 else SumY(row) as real / |row| as real
  }

  lemma {:induction false} SumYAppend(a: seq<Region>, b: seq<Region>)
    ensures SumY(a + b) == SumY(a) + SumY(b)
  {
    if |a| == 0 {
      assert a + b == b;
    } else {
      SumYAppend(a[1..], b);
      assert (a + b)[0] == a[0];
      assert (a + b)[1..] == a[1..] + b;
    }
  }

  /** The sum of the tops does not depend on the order of the row. */
  lemma {:induction false} SumYPermutation(a: seq<Region>, b: seq<Region>)
    requires multiset(a) == multiset(b)
    ensures SumY(a) == SumY(b)
    decreases |a|
  {
    if |a| == 0 {
      assert |b| == |multiset(b)| == 0;
    } else {
      var x := a[0];
      assert x in multiset(b);
      var k :| 0 <= k < |b| && b[k] == x;
      var rest := b[..k] + b[k + 1..];
      RemoveAt(b, k);
      assert a == [x] + a[1..];
      MultisetCancel(multiset(a[1..]), multiset(rest), x);
      SumYPermutation(a[1..], rest);
      assert b == b[..k] + ([x] + b[k + 1..]);
      SumYAppend(b[..k], [x] + b[k + 1..]);
      SumYAppend(b[..k], b[k + 1..]);
      assert ([x] + b[k + 1..])[1..] == b[k + 1..];
    }
  }

  lemma MeanYPermutation(a: seq<Region>, b: seq<Region>)
    requires multiset(a) == multiset(b)
    ensures MeanY(a) == MeanY(b)
  {
    SumYPermutation(a, b);
    assert |a| == |multiset(a)| == |multiset(b)| == |b|;
  }

  predicate XLe(a: Region, b: Region) { a.box.x <= b.box.x }

  /** `row_boxes.sort(key=lambda b: b['x'])`. */
  function SortByX(row: seq<Region>): (r: seq<Region>)
    ensures multiset(r) == multiset(row)
    ensures Sorted(r, XLe)
  {
    IntKeyPreorder((b: Region) => b.box.x);
    SortSorted(row, XLe);
    Sort(row, XLe)
  }

  /** Python's sort is stable: boxes with the same x keep their order in the row. */
  lemma SortByXStable(row: seq<Region>, y: Region)
    ensures Ties(SortByX(row), y, XLe) == Ties(row, y, XLe)
  {
    IntKeyPreorder((b: Region) => b.box.x);
    SortStable(row, y, XLe);
  }

  predicate KeyLe(a: (real, seq<Region>), b: (real, seq<Region>)) { a.0 <= b.0 }

  function Keyed(g: seq<Region>): (real, seq<Region>)
  {
    (MeanY(g), SortByX(g))
  }

  function Snd(p: (real, seq<Region>)): seq<Region> { p.1 }

  function Bag(row: seq<Region>): multiset<Region> { multiset(row) }

  predicate MeanYLe(a: seq<Region>, b: seq<Region>) { MeanY(a) <= MeanY(b) }

  /**
   * `cluster_logos_by_rows`: the rows hold exactly the input boxes, each row
   * holds one cluster's boxes in ascending x, and the rows come in ascending
   * mean top.
   */
  function ClusterLogosByRows(boxes: seq<Region>): (rows: seq<seq<Region>>)
    ensures |boxes| == 0 ==> rows == []
    ensures multiset(Flatten(rows)) == multiset(boxes)
    ensures |Flatten(rows)| == |boxes|
    ensures multiset(Map(rows, Bag)) == multiset(Map(RowGroups(boxes), Bag))
    ensures forall k :: 0 <= k < |rows| ==> Sorted(rows[k], XLe)
    ensures Sorted(rows, MeanYLe)
  {
    if |boxes| == 0 then []
    else
      var groups := RowGroups(boxes);
      var keyed := Map(groups, Keyed);
      var sorted := Sort(keyed, KeyLe);
      RowsFacts(groups, keyed, sorted);
      assert |Flatten(Map(sorted, Snd))| == |multiset(Flatten(Map(sorted, Snd)))| == |multiset(boxes)|;
      Map(sorted, Snd)
  }

  /**
   * Each row is one cluster sorted by x, so boxes of a row with the same x
   * keep their cluster's order, which is input order.
   */
  lemma RowIsSortedGroup(boxes: seq<Region>, k: nat) returns (j: nat)
    requires k < |ClusterLogosByRows(boxes)|
    ensures j < |RowGroups(boxes)|
    ensures ClusterLogosByRows(boxes)[k] == SortByX(RowGroups(boxes)[j])
    ensures forall y :: Ties(ClusterLogosByRows(boxes)[k], y, XLe) == Ties(RowGroups(boxes)[j], y, XLe)
  {
    j := RowOfGroup(boxes, k);
    var row := ClusterLogosByRows(boxes)[k];
    var group := RowGroups(boxes)[j];
    forall y
      ensures Ties(row, y, XLe) == Ties(group, y, XLe)
    {
      SortByXStable(group, y);
    }
  }

  /** Row k is the x-sorted form of one of the row clusters. */
  lemma RowOfGroup(boxes: seq<Region>, k: nat) returns (j: nat)
    requires k < |ClusterLogosByRows(boxes)|
    ensures j < |RowGroups(boxes)|
    ensures ClusterLogosByRows(boxes)[k] == SortByX(RowGroups(boxes)[j])
  {
    var groups := RowGroups(boxes);
    var keyed := Map(groups, Keyed);
    var sorted := Sort(keyed, KeyLe);
    RowsAreSortedKeys(boxes);
    var p := sorted[k];
    assert ClusterLogosByRows(boxes)[k] == p.1;
    assert p in multiset(keyed) by {
      assert p in multiset(sorted);
    }
    j :| 0 <= j < |keyed| && keyed[j] == p;
    assert p == Keyed(groups[j]);
  }

  /** The row has mean top t. */
  function MeanYIs(t: real): seq<Region> -> bool
  {
    g => MeanY(g) == t
  }

  /** The keyed row has key t. */
  function KeyIs(t: real): ((real, seq<Region>)) -> bool
  {
    (p: (real, seq<Region>)) => p.0 == t
  }

  /**
   * Rows with equal mean top keep the order of their clusters (Python's
   * sort is stable): the rows of mean top t are the clusters of mean top t,
   * in cluster order, each sorted by x.
   */
  lemma RowsStable(boxes: seq<Region>, t: real)
    ensures Filter(ClusterLogosByRows(boxes), MeanYIs(t)) == Map(Filter(RowGroups(boxes), MeanYIs(t)), SortByX)
  {
    if |boxes| == 0 {
      assert RowGroups(boxes) == [];
      return;
    }
    var groups := RowGroups(boxes);
    var keyed := Map(groups, Keyed);
    var sorted := Sort(keyed, KeyLe);
    RowsAreSortedKeys(boxes);
    SortedTies(groups, keyed, sorted, t);
    RowsShaped(groups, keyed, sorted);
    KeyedRowsTies(sorted, t);
    KeyedTies(groups, t);
  }

  lemma RowsAreSortedKeys(boxes: seq<Region>)
    requires |boxes| > 0
    ensures ClusterLogosByRows(boxes) == Map(Sort(Map(RowGroups(boxes), Keyed), KeyLe), Snd)
  {
  }

  /** Sorting by key keeps the keyed rows of key t in order. */
  lemma SortedTies(groups: seq<seq<Region>>, keyed: seq<(real, seq<Region>)>, sorted: seq<(real, seq<Region>)>, t: real)
    requires sorted == Sort(keyed, KeyLe)
    ensures Filter(sorted, KeyIs(t)) == Filter(keyed, KeyIs(t))
  {
    var y: (real, seq<Region>) := (t, []);
    RealKeyPreorder((p: (real, seq<Region>)) => p.0);
    SortStable(keyed, y, KeyLe);
    TiesFilter(sorted, y, KeyLe, KeyIs(t));
    TiesFilter(keyed, y, KeyLe, KeyIs(t));
  }

  /** Filtering keyed rows by key, then dropping the keys, filters the rows by mean top. */
  lemma KeyedRowsTies(xs: seq<(real, seq<Region>)>, t: real)
    requires forall k :: 0 <= k < |xs| ==> xs[k].0 == MeanY(xs[k].1)
    ensures Filter(Map(xs, Snd), MeanYIs(t)) == Map(Filter(xs, KeyIs(t)), Snd)
  {
    FilterMap(xs, Snd, MeanYIs(t), KeyIs(t));
  }

  /** Keying the clusters and filtering by key picks the clusters of that mean top, sorted by x. */
  lemma KeyedTies(groups: seq<seq<Region>>, t: real)
    ensures Map(Filter(Map(groups, Keyed), KeyIs(t)), Snd) == Map(Filter(groups, MeanYIs(t)), SortByX)
  {
    var sel := Filter(groups, MeanYIs(t));
    FilterMap(groups, Keyed, KeyIs(t), MeanYIs(t));
    assert Map(Map(sel, Keyed), Snd) == Map(sel, SortByX);
  }

  lemma RowsFacts(groups: seq<seq<Region>>, keyed: seq<(real, seq<Region>)>, sorted: seq<(real, seq<Region>)>)
    requires keyed == Map(groups, Keyed) && sorted == Sort(keyed, KeyLe)
    ensures multiset(Flatten(Map(sorted, Snd))) == multiset(Flatten(groups))
    ensures multiset(Map(Map(sorted, Snd), Bag)) == multiset(Map(groups, Bag))
    ensures forall k :: 0 <= k < |sorted| ==> Sorted(Map(sorted, Snd)[k], XLe)
    ensures Sorted(Map(sorted, Snd), MeanYLe)
  {
    RowsPermuted(groups, keyed, sorted);
    RowsShaped(groups, keyed, sorted);
    RealKeyPreorder((p: (real, seq<Region>)) => p.0);
    SortSorted(keyed, KeyLe);
  }

  /** Sorting the keyed rows permutes them; sorting inside a row permutes its boxes. */
  lemma RowsPermuted(groups: seq<seq<Region>>, keyed: seq<(real, seq<Region>)>, sorted: seq<(real, seq<Region>)>)
    requires keyed == Map(groups, Keyed) && multiset(sorted) == multiset(keyed)
    ensures multiset(Flatten(Map(sorted, Snd))) == multiset(Flatten(groups))
    ensures multiset(Map(Map(sorted, Snd), Bag)) == multiset(Map(groups, Bag))
  {
    var rows := Map(sorted, Snd);
    var unsorted := Map(keyed, Snd);
    MapPermutation(sorted, keyed, Snd);
    FlattenPermutation(rows, unsorted);
    FlattenEachPermuted(unsorted, groups);
    MapPermutation(rows, unsorted, Bag);
    assert Map(unsorted, Bag) == Map(groups, Bag);
  }

  /** Every sorted entry is a row sorted by x, keyed by its own mean top. */
  lemma RowsShaped(groups: seq<seq<Region>>, keyed: seq<(real, seq<Region>)>, sorted: seq<(real, seq<Region>)>)
    requires keyed == Map(groups, Keyed) && multiset(sorted) == multiset(keyed)
    ensures forall k :: 0 <= k < |sorted| ==> Sorted(sorted[k].1, XLe) && sorted[k].0 == MeanY(sorted[k].1)
  {
    forall k | 0 <= k < |sorted|
      ensures Sorted(sorted[k].1, XLe) && sorted[k].0 == MeanY(sorted[k].1)
    {
      assert sorted[k] in multiset(keyed);
      var j :| 0 <= j < |keyed| && keyed[j] == sorted[k];
      MeanYPermutation(SortByX(groups[j]), groups[j]);
    }
  }

  // ---------------------------------------------------------------------
  // Company names
  // ---------------------------------------------------------------------

  /** The companies of the collage in reading order; the laboratory appears twice. */
  const Companies: seq<string> := [
    "New Mexico Department of Transportation",
    "Los Alamos National Laboratory",
    "Colorado Springs Utilities",
    "Wilson & Company",
    "RMF Engineering",
    "U.S. Department of Energy",
    "Cross Connection Inc.",
    "RED Rochester LLC",
    "NASA",
    "Frank Lill & Son Inc.",
    "Stantec",
    "Futures Mechanical",
    "MWH Global",
    "SET Inc.",
    "UCLA",
    "Bechtel Corporation",
    "AECOM",
    "DLS Construction",
    "Twenty20 Construction",
    "Los Alamos National Laboratory",
    "Pueblo Electric Inc.",
    "Raytheon Company"
  ]

  /** Two positions share a company, so company names do not identify logos; file names do. */
  lemma CompanyRepeated()
    ensures |Companies| == 22
    ensures Companies[1] == Companies[19]
    ensures LogoFilename(2) != LogoFilename(20)
  {
    NumberedNamesDistinct("logo_", ".png", 2, 20);
  }

  /** Lower case, spaces to hyphens, '&' to "and", dots and commas dropped. */
  function ShortName(company: string): string
  {
    ReplaceAll(ReplaceAll(ReplaceAll(ReplaceAll(Lower(company), " ", "-"), "&", "and"), ".", ""), ",", "")
  }

  /** A short name has no space, ampersand, dot, comma or upper-case ASCII letter. */
  lemma ShortNameClean(company: string)
    ensures forall c :: c in ShortName(company) ==> c != ' ' && c != '&' && c != '.' && c != ',' && !('A' <= c <= 'Z')
  {
    var s0 := Lower(company);
    LowerIdempotent(company);
    assert forall c :: c in s0 ==> c !in {} && !('A' <= c <= 'Z');
    var s1 := ReplaceAll(s0, " ", "-");
    ReplaceStage(s0, ' ', "-", {});
    var s2 := ReplaceAll(s1, "&", "and");
    ReplaceStage(s1, '&', "and", {' '});
    var s3 := ReplaceAll(s2, ".", "");
    ReplaceStage(s2, '.', "", {' ', '&'});
    ReplaceStage(s3, ',', "", {' ', '&', '.'});
  }

  /** One step of ShortName: the replaced character joins the characters already gone. */
  lemma ReplaceStage(s: string, x: char, rep: string, gone: set<char>)
    requires forall c :: c in s ==> c !in gone && !('A' <= c <= 'Z')
    requires forall c :: c in rep ==> c !in gone && c != x && !('A' <= c <= 'Z')
    ensures forall c :: c in ReplaceAll(s, [x], rep) ==> c !in gone + {x} && !('A' <= c <= 'Z')
  {
    ReplaceChars(s, [x], rep);
    ReplaceRemovesChar(s, x, rep);
  }

  datatype AssignedLogo = AssignedLogo(filename: string, company: string, shortName: string, box: Region, alt: string)

  /** The entry for the i-th box in reading order. */
  function Assigned(i: nat, box: Region): AssignedLogo
    requires i < |Companies|
  {
    AssignedLogo(LogoFilename(i + 1), Companies[i], ShortName(Companies[i]), box, Companies[i] + " Logo")
  }

  /**
   * `assign_company_names`: walk the rows in order and give the k-th box the
   * k-th company, stopping after the last company. Entry i is the i-th box
   * of the rows read one after another.
   */
  method AssignCompanyNames(rows: seq<seq<Region>>) returns (r: seq<AssignedLogo>)
    ensures |r| == Min(|Flatten(rows)|, |Companies|)
    ensures forall i :: 0 <= i < |r| ==> r[i] == Assigned(i, Flatten(rows)[i])
  {
    r := [];
    var companyIndex := 0;
    for ri := 0 to |rows|
      invariant companyIndex == |r| == Min(|Flatten(rows[..ri])|, |Companies|)
      invariant forall i :: 0 <= i < |r| ==> r[i] == Assigned(i, Flatten(rows[..ri])[i])
    {
      r, companyIndex := AssignRow(rows[ri], Flatten(rows[..ri]), r, companyIndex);
      assert rows[..ri + 1] == rows[..ri] + [rows[ri]];
      FlattenAppend(rows[..ri], [rows[ri]]);
      assert Flatten([rows[ri]]) == rows[ri] + Flatten([]);
    }
    assert rows[..|rows|] == rows;
  }

  /** r is the assignment of the first |r| boxes. */
  predicate AssignedPrefix(r: seq<AssignedLogo>, boxes: seq<Region>)
  {
    |r| <= |boxes| && |r| <= |Companies| && forall i :: 0 <= i < |r| ==> r[i] == Assigned(i, boxes[i])
  }

  /** Assigning the next box extends the prefix. */
  lemma AssignedSnoc(r: seq<AssignedLogo>, boxes: seq<Region>)
    requires AssignedPrefix(r, boxes) && |r| < |boxes| && |r| < |Companies|
    ensures AssignedPrefix(r + [Assigned(|r|, boxes[|r|])], boxes)
  {
    var r' := r + [Assigned(|r|, boxes[|r|])];
    forall i | 0 <= i < |r'|
      ensures r'[i] == Assigned(i, boxes[i])
    {
      if i < |r| {
        assert r'[i] == r[i];
      } else {
        assert i == |r| && r'[i] == Assigned(|r|, boxes[|r|]);
      }
    }
  }

  /** The inner loop over one row, continuing the numbering of the boxes before it. */
  method AssignRow(row: seq<Region>, ghost done: seq<Region>, r0: seq<AssignedLogo>, index0: nat)
      returns (r: seq<AssignedLogo>, companyIndex: nat)
    requires index0 == |r0| == Min(|done|, |Companies|)
    requires forall i :: 0 <= i < |r0| ==> r0[i] == Assigned(i, done[i])
    ensures companyIndex == |r| == Min(|done + row|, |Companies|)
    ensures forall i :: 0 <= i < |r| ==> r[i] == Assigned(i, (done + row)[i])
  {
    ghost var boxes := done + row;
    assert AssignedPrefix(r0, boxes);
    r, companyIndex := r0, index0;
    for bi := 0 to |row|
      invariant companyIndex == |r| == Min(|done| + bi, |Companies|)
      invariant AssignedPrefix(r, boxes)
    {
      if companyIndex < |Companies| {
        assert boxes[companyIndex] == row[bi];
        AssignedSnoc(r, boxes);
        r := r + [Assigned(companyIndex, row[bi])];
        companyIndex := companyIndex + 1;
      }
    }
  }

  /** The assigned file names are pairwise different. */
  lemma AssignedFilenamesDistinct(r: seq<AssignedLogo>, boxes: seq<Region>)
    requires |r| <= |boxes| && |r| <= |Companies|
    requires forall i :: 0 <= i < |r| ==> r[i] == Assigned(i, boxes[i])
    ensures forall i, j :: 0 <= i < j < |r| ==> r[i].filename != r[j].filename
  {
    forall i, j | 0 <= i < j < |r|
      ensures r[i].filename != r[j].filename
    {
      NumberedNamesDistinct("logo_", ".png", i + 1, j + 1);
    }
  }

  // ---------------------------------------------------------------------
  // Validation
  // ---------------------------------------------------------------------

  datatype Validation = Validation(hasContent: bool, goodSize: bool, goodAspect: bool, dense: bool, edgeContent: bool)

  datatype Validated = Validated(logo: AssignedLogo, validation: Validation, score: int, isValid: bool)

  /** Some 5-pixel border strip of the crop has mean grey level below 240. */
  predicate EdgeContent(crop: Image<int>, width: nat)
    requires IsRect(crop, width, |crop|)
  {
    CountTrue(DarkBorders(crop, width, 5, 240)) > 0
  }

  /** The crop of a box out of the grey-level image, black outside it. */
  function CropOf(luma: Image<int>, b: Box): Image<int>
    requires b.w >= 0 && b.h >= 0
  {
    Crop(luma, b.x, b.y, b.w, b.h, 0)
  }

  /**
   * The five criteria. The share of ink in the crop exceeds 5% (content)
   * or 10% (density), the area lies strictly between 1000 and 40000 and the
   * aspect ratio strictly between 0.5 and 6.
   */
  function Check(luma: Image<int>, b: Box): (v: Validation)
    requires b.w > 0 && b.h > 0
    ensures v.hasContent <==> Count(CropOf(luma, b), IsInk) as real / (b.w * b.h) as real > 0.05
    ensures v.dense <==> Count(CropOf(luma, b), IsInk) as real / (b.w * b.h) as real > 0.1
    ensures v.goodSize <==> 1000 < b.w * b.h < 40000
    ensures v.goodAspect <==> 0.5 < b.w as real / b.h as real < 6.0
    ensures v.dense ==> v.hasContent
    ensures v.edgeContent <==> EdgeContent(CropOf(luma, b), b.w)
  {
    var crop := CropOf(luma, b);
    var n := Count(crop, IsInk);
    var size := b.w * b.h;
    InkShare(n, size);
    AspectBetween(b.w, b.h);
    Validation(20 * n > size, 1000 < size < 40000, b.h < 2 * b.w && b.w < 6 * b.h, 10 * n > size,
               EdgeContent(crop, b.w))
  }

  /** The share tests, cross-multiplied by the positive size. */
  lemma InkShare(n: nat, size: int)
    requires size > 0
    ensures n as real / size as real > 0.05 <==> 20 * n > size
    ensures n as real / size as real > 0.1 <==> 10 * n > size
  {
    QuotientCompare(n, size, 0.05);
    QuotientCompare(n, size, 0.1);
  }

  lemma AspectBetween(w: int, h: int)
    requires h > 0
    ensures (0.5 < w as real / h as real < 6.0) <==> (h < 2 * w && w < 6 * h)
  {
    QuotientCompare(w, h, 0.5);
    QuotientCompare(w, h, 6.0);
  }

  /** 30 for content, 25 each for size and aspect, 10 for density, 10 for clean edges. */
  function Score(v: Validation): (s: int)
    ensures 0 <= s <= 100
    ensures s == 100 <==> v.hasContent && v.goodSize && v.goodAspect && v.dense && !v.edgeContent
    ensures s % 5 == 0
    ensures s >= 70 <==>
              (v.hasContent && ((v.goodSize && v.goodAspect) || ((v.goodSize || v.goodAspect) && v.dense && !v.edgeContent)))
              || (!v.hasContent && v.goodSize && v.goodAspect && v.dense && !v.edgeContent)
  {
    (if v.hasContent then 30 else 0) + (if v.goodSize then 25 else 0) + (if v.goodAspect then 25 else 0) +
    (if v.dense then 10 else 0) + (if !v.edgeContent then 10 else 0)
  }

  /** What each criterion adds to the score, all others held fixed. */
  lemma ScoreWeights(v: Validation)
    ensures Score(v.(hasContent := true)) == Score(v.(hasContent := false)) + 30
    ensures Score(v.(goodSize := true)) == Score(v.(goodSize := false)) + 25
    ensures Score(v.(goodAspect := true)) == Score(v.(goodAspect := false)) + 25
    ensures Score(v.(dense := true)) == Score(v.(dense := false)) + 10
    ensures Score(v.(edgeContent := false)) == Score(v.(edgeContent := true)) + 10
    ensures Score(Validation(false, false, false, false, true)) == 0
  {
  }

  /**
   * Score one logo. It is valid when the score reaches 70; a valid logo
   * has content and a plausible size or aspect ratio.
   */
  function ValidateLogo(luma: Image<int>, logo: AssignedLogo): (r: Validated)
    requires logo.box.box.w > 0 && logo.box.box.h > 0
    ensures r.logo == logo && r.validation == Check(luma, logo.box.box)
    ensures r.score == Score(r.validation) && 0 <= r.score <= 100
    ensures r.isValid <==> r.score >= 70
    ensures r.isValid <==>
              r.validation.hasContent &&
              ((r.validation.goodSize && r.validation.goodAspect) ||
               ((r.validation.goodSize || r.validation.goodAspect) && r.validation.dense && !r.validation.edgeContent))
    ensures r.isValid ==> r.validation.hasContent && (r.validation.goodSize || r.validation.goodAspect)
    ensures !r.validation.hasContent ==> r.score <= 60
  {
    var v := Check(luma, logo.box.box);
    var s := Score(v);
    Validated(logo, v, s, s >= 70)
  }

  /** `validate_extractions`: every logo scored, in order. */
  function ValidateExtractions(luma: Image<int>, logos: seq<AssignedLogo>): (r: seq<Validated>)
    requires forall k :: 0 <= k < |logos| ==> logos[k].box.box.w > 0 && logos[k].box.box.h > 0
    ensures |r| == |logos|
    ensures forall k :: 0 <= k < |r| ==> r[k] == ValidateLogo(luma, logos[k])
  {
    seq(|logos|, k requires 0 <= k < |logos| => ValidateLogo(luma, logos[k]))
  }

  /** `extract_valid_logos`: the valid logos are saved, in order, and counted. */
  function ExtractValidLogos(logos: seq<Validated>): (saved: seq<AssignedLogo>)
    ensures |saved| == CountWhere(logos, (v: Validated) => v.isValid)
    ensures forall k :: 0 <= k < |saved| ==> exists v :: v in logos && v.isValid && v.logo == saved[k]
    ensures forall v :: v in logos && v.isValid ==> v.logo in saved
  {
    CountIsFilterLength(logos, (v: Validated) => v.isValid);
    var kept := Filter(logos, (v: Validated) => v.isValid);
    assert forall k :: 0 <= k < |kept| ==> kept[k] in kept;
    Map(kept, (v: Validated) => v.logo)
  }

  /**
   * `run_detection` up to validation: every validated logo lies inside the
   * image with positive size, the k-th carries the k-th company, and there
   * are as many as there were refined boxes, at most 22.
   */
  method RunDetection(gray: Image<int>, luma: Image<int>, width: nat, contours: seq<Contour>)
      returns (validated: seq<Validated>)
    requires IsRect(gray, width, |gray|)
    requires forall k :: 0 <= k < |contours| ==> contours[k].bbox.x >= 0 && contours[k].bbox.y >= 0
    requires forall k :: 0 <= k < |contours| && 2000.0 < contours[k].area < 50000.0 ==> contours[k].bbox.h > 0
    ensures |validated| == Min(|RefineBoundingBoxes(gray, width, Map(DetectContentRegions(contours), BoxOf))|, |Companies|)
    ensures forall k :: 0 <= k < |validated| ==>
              validated[k].logo.company == Companies[k] && validated[k].logo.filename == LogoFilename(k + 1) &&
              Inside(validated[k].logo.box.box, width, |gray|) && validated[k].logo.box.box.w > 0 && validated[k].logo.box.box.h > 0
    ensures forall k :: 0 <= k < |validated| ==>
              validated[k].logo == Assigned(k, Flatten(ClusterLogosByRows(
                RefineBoundingBoxes(gray, width, Map(DetectContentRegions(contours), BoxOf))))[k]) &&
              validated[k] == ValidateLogo(luma, validated[k].logo)
  {
    var kept := DetectContentRegions(contours);
    var bboxes := Map(kept, BoxOf);
    var boxes := RefineBoundingBoxes(gray, width, bboxes);
    var rows := ClusterLogosByRows(boxes);
    var logos := AssignCompanyNames(rows);
    forall k | 0 <= k < |logos|
      ensures Inside(logos[k].box.box, width, |gray|) && logos[k].box.box.w > 0 && logos[k].box.box.h > 0
    {
      assert Flatten(rows)[k] in multiset(boxes);
    }
    validated := ValidateExtractions(luma, logos);
  }

  function BoxOf(c: Contour): Box { c.bbox }
}

=== FILE: extractor.dfy ===
/**
 * The first extractor: boxes either from contours (area filter, padding
 * clipped to the image) or from a grid found by splitting the projections
 * of the non-white mask at the ends of low gaps; a method switch picks the
 * source and the boxes are saved as numbered files.
 */
module Extractor {
  import opened Base
  import opened Geometry
  import opened Grid
  import opened Seqs
  import opened Text

  /** Padding around every detected box. */
  const Padding: nat := 20

  // ---------------------------------------------------------------------
  // Projection gaps
  // ---------------------------------------------------------------------

  predicate StrictlyIncreasing(s: seq<int>)
  {
    forall i, j :: 0 <= i < j < |s| ==> s[i] < s[j]
  }

  /**
   * r lists f of the elements of xs that keep selects, in order: idx holds,
   * increasing, exactly the positions of the selected elements, and r[k] is
   * f of element idx[k].
   */
  ghost predicate Selects<A, B>(xs: seq<A>, keep: A -> bool, f: A -> B, r: seq<B>, idx: seq<nat>)
  {
    |idx| == |r| && StrictlyIncreasing(idx) &&
    (forall k :: 0 <= k < |idx| ==> idx[k] < |xs| && keep(xs[idx[k]]) && r[k] == f(xs[idx[k]])) &&
    (forall i :: 0 <= i < |xs| && keep(xs[i]) ==> i in idx)
  }

  /** The positions of a tail's selection shifted by one, with 0 in front when the head is selected. */
  function ConsIndices(rest: seq<nat>, head: bool): (idx: seq<nat>)
    ensures |idx| == |rest| + (if head then 1 else 0)
    ensures head ==> idx[0] == 0 && forall k :: 1 <= k < |idx| ==> idx[k] == rest[k - 1] + 1
    ensures !head ==> forall k :: 0 <= k < |idx| ==> idx[k] == rest[k] + 1
  {
    var shifted := seq(|rest|, k requires 0 <= k < |rest| => rest[k] + 1);
    if head then [0] + shifted else shifted
  }

  /** Selecting from a sequence is selecting its head or not, then selecting from its tail. */
  lemma SelectsCons<A, B>(xs: seq<A>, keep: A -> bool, f: A -> B, r: seq<B>, rt: seq<B>, rest: seq<nat>) returns (idx: seq<nat>)
    requires |xs| > 0 && Selects(xs[1..], keep, f, rt, rest)
    requires r == if keep(xs[0]) then [f(xs[0])] + rt else rt
    ensures Selects(xs, keep, f, r, idx)
  {
    idx := ConsIndices(rest, keep(xs[0]));
    ConsIncreasing(rest, keep(xs[0]));
    ConsImages(xs, keep, f, r, rt, rest);
    ConsComplete(xs, keep, f, rt, rest);
  }

  /** Shifting keeps positions increasing, and 0 stays below them. */
  lemma ConsIncreasing(rest: seq<nat>, head: bool)
    requires StrictlyIncreasing(rest)
    ensures StrictlyIncreasing(ConsIndices(rest, head))
  {
    var idx := ConsIndices(rest, head);
    var d := if head then 1 else 0;
    forall i, j | 0 <= i < j < |idx|
      ensures idx[i] < idx[j]
    {
      assert idx[j] == rest[j - d] + 1;
      if i >= d {
        assert idx[i] == rest[i - d] + 1;
      }
    }
  }

  /** Each listed position holds a selected element whose image is the matching entry. */
  lemma ConsImages<A, B>(xs: seq<A>, keep: A -> bool, f: A -> B, r: seq<B>, rt: seq<B>, rest: seq<nat>)
    requires |xs| > 0 && Selects(xs[1..], keep, f, rt, rest)
    requires r == if keep(xs[0]) then [f(xs[0])] + rt else rt
    ensures var idx := ConsIndices(rest, keep(xs[0]));
            forall k :: 0 <= k < |idx| ==> idx[k] < |xs| && keep(xs[idx[k]]) && r[k] == f(xs[idx[k]])
  {
    var idx := ConsIndices(rest, keep(xs[0]));
    var d := if keep(xs[0]) then 1 else 0;
    forall k | 0 <= k < |idx|
      ensures idx[k] < |xs| && keep(xs[idx[k]]) && r[k] == f(xs[idx[k]])
    {
      if k >= d {
        assert idx[k] == rest[k - d] + 1 && r[k] == rt[k - d] && xs[idx[k]] == xs[1..][rest[k - d]];
      }
    }
  }

  /** Every selected position is listed. */
  lemma ConsComplete<A, B>(xs: seq<A>, keep: A -> bool, f: A -> B, rt: seq<B>, rest: seq<nat>)
    requires |xs| > 0 && Selects(xs[1..], keep, f, rt, rest)
    ensures forall i :: 0 <= i < |xs| && keep(xs[i]) ==> i in ConsIndices(rest, keep(xs[0]))
  {
    var idx := ConsIndices(rest, keep(xs[0]));
    var d := if keep(xs[0]) then 1 else 0;
    forall i | 0 <= i < |xs| && keep(xs[i])
      ensures i in idx
    {
      if i > 0 {
        assert xs[i] == xs[1..][i - 1];
        var k :| 0 <= k < |rest| && rest[k] == i - 1;
        assert idx[k + d] == i;
      }
    }
  }

  /** Position i ends a gap: the projection was below minGap just before i and is not at i. */
  predicate IsGapEnd(p: seq<int>, minGap: int, i: int)
  {
    0 < i < |p| && p[i - 1] < minGap && p[i] >= minGap
  }

  /** The gap ends among the positions 1 .. n-1, ascending. */
  function GapEndsBelow(p: seq<int>, minGap: int, n: nat): seq<nat>
    requires n <= |p|
  {
    if n <= 1 then []
    else GapEndsBelow(p, minGap, n - 1) + (if IsGapEnd(p, minGap, n - 1) then [n - 1] else [])
  }

  /** The gap ends below n lie in 1 .. n-1 and each ends a gap. */
  lemma {:induction false} GapEndsSound(p: seq<int>, minGap: int, n: nat)
    requires n <= |p|
    ensures forall k :: 0 <= k < |GapEndsBelow(p, minGap, n)| ==>
              0 < GapEndsBelow(p, minGap, n)[k] < n && IsGapEnd(p, minGap, GapEndsBelow(p, minGap, n)[k])
  {
    if n > 1 {
      GapEndsSound(p, minGap, n - 1);
      var rest := GapEndsBelow(p, minGap, n - 1);
      var tail := if IsGapEnd(p, minGap, n - 1) then [n - 1] else [];
      var r := GapEndsBelow(p, minGap, n);
      assert r == rest + tail;
      forall k | 0 <= k < |r|
        ensures 0 < r[k] < n && IsGapEnd(p, minGap, r[k])
      {
        if k < |rest| {
          assert r[k] == rest[k];
        } else {
          assert r[k] == n - 1;
        }
      }
    }
  }

  /** The gap ends come out ascending. */
  lemma {:induction false} GapEndsIncreasing(p: seq<int>, minGap: int, n: nat)
    requires n <= |p|
    ensures StrictlyIncreasing(GapEndsBelow(p, minGap, n))
  {
    if n > 1 {
      GapEndsIncreasing(p, minGap, n - 1);
      GapEndsSound(p, minGap, n - 1);
      var rest := GapEndsBelow(p, minGap, n - 1);
      var tail := if IsGapEnd(p, minGap, n - 1) then [n - 1] else [];
      var r := GapEndsBelow(p, minGap, n);
      assert r == rest + tail;
      forall i, j | 0 <= i < j < |r|
        ensures r[i] < r[j]
      {
        assert r[i] == rest[i];
        if j < |rest| {
          assert r[j] == rest[j];
        } else {
          assert r[j] == n - 1;
        }
      }
    }
  }

  /** Every gap end below n is listed. */
  lemma {:induction false} GapEndsComplete(p: seq<int>, minGap: int, n: nat)
    requires n <= |p|
    ensures forall i :: 0 < i < n ==> (i in GapEndsBelow(p, minGap, n) <==> IsGapEnd(p, minGap, i))
  {
    if n > 1 {
      GapEndsComplete(p, minGap, n - 1);
      GapEndsSound(p, minGap, n - 1);
      var rest := GapEndsBelow(p, minGap, n - 1);
      var tail := if IsGapEnd(p, minGap, n - 1) then [n - 1] else [];
      assert GapEndsBelow(p, minGap, n) == rest + tail;
      forall i | 0 < i < n
        ensures i in rest + tail <==> IsGapEnd(p, minGap, i)
      {
        if i == n - 1 {
          forall k | 0 <= k < |rest|
            ensures rest[k] != n - 1
          {
          }
        }
      }
    }
  }

  /**
   * The boundaries `find_boundaries` returns, as a definition: 0, every gap
   * end, and the length. It starts at 0, ends at the length and strictly
   * increases.
   */
  function Boundaries(p: seq<int>, minGap: int): (r: seq<nat>)
    requires |p| > 0
    ensures |r| >= 2 && r[0] == 0 && r[|r| - 1] == |p|
    ensures StrictlyIncreasing(r)
    ensures forall i :: 0 < i < |p| ==> (i in r <==> IsGapEnd(p, minGap, i))
    ensures forall k :: 0 < k < |r| - 1 ==> IsGapEnd(p, minGap, r[k])
  {
    var ends := GapEndsBelow(p, minGap, |p|);
    GapEndsSound(p, minGap, |p|);
    GapEndsIncreasing(p, minGap, |p|);
    GapEndsComplete(p, minGap, |p|);
    var r := [0] + ends + [|p|];
    assert forall k :: 0 < k < |r| - 1 ==> r[k] == ends[k - 1];
    r
  }

  /**
   * `find_boundaries`: one pass that remembers whether the previous position
   * was in a gap and records each position where a gap ends.
   */
  method FindBoundaries(projection: seq<int>, minGap: int) returns (boundaries: seq<nat>)
    requires |projection| > 0
    ensures boundaries == Boundaries(projection, minGap)
  {
    boundaries := [0];
    var inGap := projection[0] < minGap;
    for i := 1 to |projection|
      invariant inGap == (projection[i - 1] < minGap)
      invariant boundaries == [0] + GapEndsBelow(projection, minGap, i)
    {
      var currentLow := projection[i] < minGap;
      GapEndsStep(projection, minGap, i, boundaries);
      if inGap && !currentLow {
        boundaries := boundaries + [i];
      }
      inGap := currentLow;
    }
    BoundariesUnfold(projection, minGap);
    boundaries := boundaries + [|projection|];
  }

  lemma BoundariesUnfold(p: seq<int>, minGap: int)
    requires |p| > 0
    ensures Boundaries(p, minGap) == [0] + GapEndsBelow(p, minGap, |p|) + [|p|]
  {
  }

  /** One more position adds its gap end, if it is one, to the boundaries found so far. */
  lemma GapEndsStep(p: seq<int>, minGap: int, i: nat, b: seq<nat>)
    requires 1 <= i < |p|
    requires b == [0] + GapEndsBelow(p, minGap, i)
    ensures [0] + GapEndsBelow(p, minGap, i + 1) == b + (if p[i - 1] < minGap && p[i] >= minGap then [i] else [])
  {
    var ends := GapEndsBelow(p, minGap, i);
    var tail := if p[i - 1] < minGap && p[i] >= minGap then [i] else [];
    assert GapEndsBelow(p, minGap, i + 1) == ends + tail;
    AppendAssoc([0], ends, tail);
  }

  /**
   * Consecutive boundaries tile [0, n): every position lies in exactly one
   * interval [b[k], b[k+1]).
   */
  lemma {:induction false} Tiling(b: seq<int>, n: int, v: int)
    requires |b| >= 2 && b[0] == 0 && b[|b| - 1] == n && StrictlyIncreasing(b)
    requires 0 <= v < n
    ensures exists k :: 0 <= k < |b| - 1 && b[k] <= v < b[k + 1]
    ensures forall k1, k2 :: (0 <= k1 < |b| - 1 && 0 <= k2 < |b| - 1 &&
              b[k1] <= v < b[k1 + 1] && b[k2] <= v < b[k2 + 1]) ==> k1 == k2
  {
    TilingExists(b, v);
    TilingUnique(b, v);
  }

  lemma TilingUnique(b: seq<int>, v: int)
    requires StrictlyIncreasing(b)
    ensures forall k1, k2 :: (0 <= k1 < |b| - 1 && 0 <= k2 < |b| - 1 &&
              b[k1] <= v < b[k1 + 1] && b[k2] <= v < b[k2 + 1]) ==> k1 == k2
  {
    forall k1, k2 | 0 <= k1 < |b| - 1 && 0 <= k2 < |b| - 1 && b[k1] <= v < b[k1 + 1] && b[k2] <= v < b[k2 + 1]
      ensures k1 == k2
    {
      Disjoint(b, k1, k2);
      Disjoint(b, k2, k1);
    }
  }

  /** An earlier interval ends before a later one starts. */
  lemma Disjoint(b: seq<int>, k1: nat, k2: nat)
    requires StrictlyIncreasing(b) && k1 + 1 < |b| && k2 < |b|
    ensures k1 < k2 ==> b[k1 + 1] <= b[k2]
  {
    if k1 + 1 < k2 {
      assert b[k1 + 1] < b[k2];
    }
  }

  lemma {:induction false} TilingExists(b: seq<int>, v: int)
    requires |b| >= 2 && b[0] <= v < b[|b| - 1]
    ensures exists k :: 0 <= k < |b| - 1 && b[k] <= v < b[k + 1]
    decreases |b|
  {
    var last := |b| - 2;
    if b[last] > v {
      var front := b[..|b| - 1];
      TilingExists(front, v);
      var k :| 0 <= k < |front| - 1 && front[k] <= v < front[k + 1];
      assert b[k] <= v < b[k + 1];
    } else {
      assert b[last] <= v < b[last + 1];
    }
  }

  // ---------------------------------------------------------------------
  // Grid detection
  // ---------------------------------------------------------------------

  /** `gray < 250`: the non-white mask. */
  function Mask(gray: Image<int>, width: nat): (m: Image<bool>)
    requires IsRect(gray, width, |gray|)
    ensures IsRect(m, width, |gray|)
    ensures forall i, j :: 0 <= i < |gray| && 0 <= j < width ==> m[i][j] == (gray[i][j] < 250)
  {
    seq(|gray|, i requires 0 <= i < |gray| => seq(width, j requires 0 <= j < width => gray[i][j] < 250))
  }

  predicate IsSet(b: bool) { b }

  /** `np.sum(mask, axis=1)`: the set pixels of each row. */
  function RowProjection(mask: Image<bool>): (p: seq<int>)
    ensures |p| == |mask|
    ensures forall i :: 0 <= i < |mask| ==> p[i] == RowCount(mask[i], IsSet)
  {
    seq(|mask|, i requires 0 <= i < |mask| => RowCount(mask[i], IsSet))
  }

  /** The set pixels of column j. */
  function ColumnCount(mask: Image<bool>, width: nat, j: nat): (n: nat)
    requires IsRect(mask, width, |mask|) && j < width
    ensures n <= |mask|
  {
    if |mask| == 0 then 0 else (if mask[0][j] then 1 else 0) + ColumnCount(mask[1..], width, j)
  }

  /** `np.sum(mask, axis=0)`: the set pixels of each column. */
  function ColProjection(mask: Image<bool>, width: nat): (p: seq<int>)
    requires IsRect(mask, width, |mask|)
    ensures |p| == width
    ensures forall j :: 0 <= j < width ==> p[j] == ColumnCount(mask, width, j)
  {
    seq(width, j requires 0 <= j < width => ColumnCount(mask, width, j))
  }

  /** The 0/1 indicator of a boolean row. */
  function Indicator(row: seq<bool>): (r: seq<int>)
    ensures |r| == |row|
    ensures forall j :: 0 <= j < |row| ==> r[j] == (if row[j] then 1 else 0)
  {
    seq(|row|, j requires 0 <= j < |row| => if row[j] then 1 else 0)
  }

  lemma {:induction false} IndicatorSum(row: seq<bool>)
    ensures RowSum(Indicator(row)) == RowCount(row, IsSet)
  {
    if |row| > 0 {
      assert Indicator(row)[1..] == Indicator(row[1..]);
      IndicatorSum(row[1..]);
    }
  }

  lemma {:induction false} RowSumZeros(s: seq<int>)
    requires forall k :: 0 <= k < |s| ==> s[k] == 0
    ensures RowSum(s) == 0
  {
    if |s| > 0 {
      RowSumZeros(s[1..]);
    }
  }

  lemma {:induction false} RowSumAdd(a: seq<int>, b: seq<int>)
    requires |a| == |b|
    ensures RowSum(seq(|a|, k requires 0 <= k < |a| => a[k] + b[k])) == RowSum(a) + RowSum(b)
  {
    if |a| > 0 {
      var s := seq(|a|, k requires 0 <= k < |a| => a[k] + b[k]);
      assert s[1..] == seq(|a| - 1, k requires 0 <= k < |a| - 1 => a[1..][k] + b[1..][k]);
      RowSumAdd(a[1..], b[1..]);
    }
  }

  /** The row projection adds up to the number of set pixels of the mask. */
  lemma {:induction false} RowProjectionTotal(mask: Image<bool>)
    ensures RowSum(RowProjection(mask)) == Count(mask, IsSet)
  {
    if |mask| > 0 {
      assert RowProjection(mask)[1..] == RowProjection(mask[1..]);
      RowProjectionTotal(mask[1..]);
    }
  }

  /** The column projection adds up to the same number: both projections count every set pixel once. */
  lemma {:induction false} ColProjectionTotal(mask: Image<bool>, width: nat)
    requires IsRect(mask, width, |mask|)
    ensures RowSum(ColProjection(mask, width)) == Count(mask, IsSet)
    ensures RowSum(ColProjection(mask, width)) == RowSum(RowProjection(mask))
  {
    if |mask| == 0 {
      RowSumZeros(ColProjection(mask, width));
    } else {
      var a := Indicator(mask[0]);
      var b := ColProjection(mask[1..], width);
      assert ColProjection(mask, width) == seq(width, k requires 0 <= k < width => a[k] + b[k]);
      RowSumAdd(a, b);
      IndicatorSum(mask[0]);
      ColProjectionTotal(mask[1..], width);
    }
    RowProjectionTotal(mask);
  }

  /** A grid cell: rows top .. bottom-1, columns left .. right-1. */
  datatype Cell = Cell(top: nat, bottom: nat, left: nat, right: nat)

  /** Cell c lies in a width x height image and holds at least one pixel. */
  predicate ProperCell(c: Cell, width: nat, height: nat)
  {
    c.top < c.bottom <= height && c.left < c.right <= width
  }

  /** The cells of one band of rows, split at the gap ends of the band's column projection. */
  function BandCells(mask: Image<bool>, width: nat, top: nat, bottom: nat): (cs: seq<Cell>)
    requires IsRect(mask, width, |mask|) && width > 0
    requires top < bottom <= |mask|
    ensures forall k :: 0 <= k < |cs| ==> ProperCell(cs[k], width, |mask|) && cs[k].top == top && cs[k].bottom == bottom
    ensures |cs| > 0 && cs[0].left == 0 && cs[|cs| - 1].right == width
    ensures forall k :: 0 <= k < |cs| - 1 ==> cs[k].right == cs[k + 1].left
  {
    var band := Window(mask, width, top, bottom, 0, width);
    var cb := Boundaries(ColProjection(band, width), 30);
    seq(|cb| - 1, k requires 0 <= k < |cb| - 1 => Cell(top, bottom, cb[k], cb[k + 1]))
  }

  /** The row boundaries of the whole mask. */
  function RowBoundaries(mask: Image<bool>): (rb: seq<nat>)
    requires |mask| > 0
    ensures |rb| >= 2 && rb[0] == 0 && rb[|rb| - 1] == |mask| && StrictlyIncreasing(rb)
  {
    Boundaries(RowProjection(mask), 30)
  }

  /** Every cell of the grid, band by band, left to right. */
  function GridCells(mask: Image<bool>, width: nat): (cs: seq<Cell>)
    requires IsRect(mask, width, |mask|) && width > 0 && |mask| > 0
    ensures forall k :: 0 <= k < |cs| ==> ProperCell(cs[k], width, |mask|)
  {
    var bands := GridBands(mask, width);
    FlattenProper(bands, width, |mask|);
    Flatten(bands)
  }

  function GridBands(mask: Image<bool>, width: nat): (bands: seq<seq<Cell>>)
    requires IsRect(mask, width, |mask|) && width > 0 && |mask| > 0
    ensures |bands| == |RowBoundaries(mask)| - 1
    ensures forall k :: 0 <= k < |bands| ==>
              bands[k] == BandCells(mask, width, RowBoundaries(mask)[k], RowBoundaries(mask)[k + 1])
  {
    var rb := RowBoundaries(mask);
    seq(|rb| - 1, k requires 0 <= k < |rb| - 1 => BandCells(mask, width, rb[k], rb[k + 1]))
  }

  lemma {:induction false} FlattenProper(bands: seq<seq<Cell>>, width: nat, height: nat)
    requires forall k, j :: 0 <= k < |bands| && 0 <= j < |bands[k]| ==> ProperCell(bands[k][j], width, height)
    ensures forall i :: 0 <= i < |Flatten(bands)| ==> ProperCell(Flatten(bands)[i], width, height)
  {
    if |bands| > 0 {
      FlattenProper(bands[1..], width, height);
      assert forall k :: 1 <= k < |bands| ==> bands[1..][k - 1] == bands[k];
    }
  }

  /** The position of element j of group k in the flattened sequence. */
  lemma {:induction false} FlattenAt<T>(ss: seq<seq<T>>, k: nat, j: nat)
    requires k < |ss| && j < |ss[k]|
    ensures SumLengths(ss[..k]) + j < |Flatten(ss)|
    ensures Flatten(ss)[SumLengths(ss[..k]) + j] == ss[k][j]
  {
    assert ss == ss[..k] + ss[k..];
    FlattenAppend(ss[..k], ss[k..]);
    FlattenLength(ss[..k]);
    assert Flatten(ss[k..]) == ss[k] + Flatten(ss[k + 1..]);
  }

  /** The set pixels of a cell. */
  function CellCount(mask: Image<bool>, width: nat, c: Cell): nat
    requires IsRect(mask, width, |mask|)
  {
    Count(Window(mask, width, c.top, c.bottom, c.left, c.right), IsSet)
  }

  /** A cell padded by 20 on each side and clipped to the image. */
  function CellBox(c: Cell, width: nat, height: nat): (b: Box)
    requires ProperCell(c, width, height)
    ensures Inside(b, width, height) && b.w > 0 && b.h > 0
    ensures b.x <= c.left && c.right <= b.x + b.w && b.y <= c.top && c.bottom <= b.y + b.h
  {
    var (x, w) := PadClip(c.left, c.right - c.left, Padding, width);
    var (y, h) := PadClip(c.top, c.bottom - c.top, Padding, height);
    Box(x, y, w, h)
  }

  /** The padded boxes of the cells with more than 1000 set pixels, in order. */
  function DenseCellBoxes(mask: Image<bool>, width: nat, cells: seq<Cell>): (r: seq<Box>)
    requires IsRect(mask, width, |mask|)
    requires forall k :: 0 <= k < |cells| ==> ProperCell(cells[k], width, |mask|)
    ensures |r| <= |cells|
    ensures forall k :: 0 <= k < |r| ==> Inside(r[k], width, |mask|) && r[k].w > 0 && r[k].h > 0
    ensures forall i :: 0 <= i < |cells| && CellCount(mask, width, cells[i]) > 1000 ==>
              CellBox(cells[i], width, |mask|) in r
  {
    if |cells| == 0 then []
    else
      var rest := DenseCellBoxes(mask, width, cells[1..]);
      assert forall i :: 1 <= i < |cells| ==> cells[i] == cells[1..][i - 1];
      if CellCount(mask, width, cells[0]) > 1000 then [CellBox(cells[0], width, |mask|)] + rest else rest
  }

  /** Box k of DenseCellBoxes is the box of a cell holding more than 1000 set pixels. */
  lemma {:induction false} DenseCellBoxAt(mask: Image<bool>, width: nat, cells: seq<Cell>, k: nat)
    requires IsRect(mask, width, |mask|)
    requires forall k :: 0 <= k < |cells| ==> ProperCell(cells[k], width, |mask|)
    requires k < |DenseCellBoxes(mask, width, cells)|
    ensures exists i :: 0 <= i < |cells| && CellCount(mask, width, cells[i]) > 1000 &&
              DenseCellBoxes(mask, width, cells)[k] == CellBox(cells[i], width, |mask|)
  {
    var tail := cells[1..];
    var rest := DenseCellBoxes(mask, width, tail);
    var dense := CellCount(mask, width, cells[0]) > 1000;
    if dense && k == 0 {
      assert DenseCellBoxes(mask, width, cells)[0] == CellBox(cells[0], width, |mask|);
    } else {
      var m := if dense then k - 1 else k;
      assert DenseCellBoxes(mask, width, cells)[k] == rest[m];
      DenseCellBoxAt(mask, width, tail, m);
      var i :| 0 <= i < |tail| && CellCount(mask, width, tail[i]) > 1000 && rest[m] == CellBox(tail[i], width, |mask|);
      assert tail[i] == cells[i + 1];
    }
  }

  /**
   * `detect_logos_grid`: a box for every grid cell holding more than 1000
   * non-white pixels, inside the image and around its cell. The image must
   * have at least one row and one column, since the projections are indexed
   * at 0.
   */
  function DetectLogosGrid(gray: Image<int>, width: nat): (r: seq<Box>)
    requires IsRect(gray, width, |gray|) && width > 0 && |gray| > 0
    ensures forall k :: 0 <= k < |r| ==> Inside(r[k], width, |gray|) && r[k].w > 0 && r[k].h > 0
    ensures forall i :: (0 <= i < |GridCells(Mask(gray, width), width)| &&
              CellCount(Mask(gray, width), width, GridCells(Mask(gray, width), width)[i]) > 1000) ==>
              CellBox(GridCells(Mask(gray, width), width)[i], width, |gray|) in r
  {
    var mask := Mask(gray, width);
    DenseCellBoxes(mask, width, GridCells(mask, width))
  }

  /** b is the padded box of one of the cells holding more than 1000 set pixels. */
  predicate DenseBoxOf(mask: Image<bool>, width: nat, cells: seq<Cell>, b: Box)
    requires IsRect(mask, width, |mask|)
    requires forall k :: 0 <= k < |cells| ==> ProperCell(cells[k], width, |mask|)
  {
    exists i :: 0 <= i < |cells| && CellCount(mask, width, cells[i]) > 1000 && b == CellBox(cells[i], width, |mask|)
  }

  /** Every box of DenseCellBoxes is the box of a cell holding more than 1000 set pixels. */
  lemma DenseCellBoxesSound(mask: Image<bool>, width: nat, cells: seq<Cell>)
    requires IsRect(mask, width, |mask|)
    requires forall k :: 0 <= k < |cells| ==> ProperCell(cells[k], width, |mask|)
    ensures var r := DenseCellBoxes(mask, width, cells);
            forall k :: 0 <= k < |r| ==> DenseBoxOf(mask, width, cells, r[k])
  {
    var r := DenseCellBoxes(mask, width, cells);
    forall k | 0 <= k < |r|
      ensures DenseBoxOf(mask, width, cells, r[k])
    {
      DenseCellBoxAt(mask, width, cells, k);
    }
  }

  /** Every box of the grid detector is the box of a grid cell holding more than 1000 non-white pixels. */
  lemma DetectLogosGridSound(gray: Image<int>, width: nat)
    requires IsRect(gray, width, |gray|) && width > 0 && |gray| > 0
    ensures var mask := Mask(gray, width);
            var cells := GridCells(mask, width);
            var r := DetectLogosGrid(gray, width);
            forall k :: 0 <= k < |r| ==>
              exists i :: 0 <= i < |cells| && CellCount(mask, width, cells[i]) > 1000 &&
                r[k] == CellBox(cells[i], width, |gray|)
  {
    var mask := Mask(gray, width);
    var cells := GridCells(mask, width);
    DenseCellBoxesSound(mask, width, cells);
    assert DetectLogosGrid(gray, width) == DenseCellBoxes(mask, width, cells);
  }

  /**
   * The dense boxes in full: idx lists, in increasing order, exactly the
   * positions of the cells holding more than 1000 set pixels, and box k is
   * the box of cell idx[k].
   */
  lemma {:induction false} DenseCellBoxesInOrder(mask: Image<bool>, width: nat, cells: seq<Cell>) returns (idx: seq<nat>)
    requires IsRect(mask, width, |mask|)
    requires forall k :: 0 <= k < |cells| ==> ProperCell(cells[k], width, |mask|)
    ensures |idx| == |DenseCellBoxes(mask, width, cells)| && StrictlyIncreasing(idx)
    ensures forall k :: 0 <= k < |idx| ==>
              idx[k] < |cells| && CellCount(mask, width, cells[idx[k]]) > 1000 &&
              DenseCellBoxes(mask, width, cells)[k] == CellBox(cells[idx[k]], width, |mask|)
    ensures forall i :: 0 <= i < |cells| && CellCount(mask, width, cells[i]) > 1000 ==> i in idx
  {
    if |cells| == 0 {
      idx := [];
    } else {
      var keep := (c: Cell) => IsRect(mask, width, |mask|) && CellCount(mask, width, c) > 1000;
      var f := (c: Cell) => if ProperCell(c, width, |mask|) then CellBox(c, width, |mask|) else Box(0, 0, 0, 0);
      var rest := DenseCellBoxesInOrder(mask, width, cells[1..]);
      assert Selects(cells[1..], keep, f, DenseCellBoxes(mask, width, cells[1..]), rest);
      idx := SelectsCons(cells, keep, f, DenseCellBoxes(mask, width, cells), DenseCellBoxes(mask, width, cells[1..]), rest);
    }
  }

  /**
   * The grid detector's boxes are the dense cells' boxes in the grid's cell
   * order, which is the order the extractor names them in.
   */
  lemma DetectLogosGridInOrder(gray: Image<int>, width: nat) returns (idx: seq<nat>)
    requires IsRect(gray, width, |gray|) && width > 0 && |gray| > 0
    ensures var mask := Mask(gray, width);
            var cells := GridCells(mask, width);
            var r := DetectLogosGrid(gray, width);
            |idx| == |r| && StrictlyIncreasing(idx) &&
            (forall k :: 0 <= k < |idx| ==>
               idx[k] < |cells| && CellCount(mask, width, cells[idx[k]]) > 1000 &&
               r[k] == CellBox(cells[idx[k]], width, |gray|)) &&
            (forall i :: 0 <= i < |cells| && CellCount(mask, width, cells[i]) > 1000 ==> i in idx)
  {
    var mask := Mask(gray, width);
    idx := DenseCellBoxesInOrder(mask, width, GridCells(mask, width));
  }

  /** The grid's cells cover the image: every pixel lies in a cell. */
  lemma GridCellsCover(mask: Image<bool>, width: nat, i: nat, j: nat)
    requires IsRect(mask, width, |mask|) && width > 0 && |mask| > 0
    requires i < |mask| && j < width
    ensures exists c :: c in GridCells(mask, width) && c.top <= i < c.bottom && c.left <= j < c.right
  {
    var rb := RowBoundaries(mask);
    var k := BandOfRow(mask, i);
    var m := BandCovers(mask, width, rb[k], rb[k + 1], j);
    CellInGrid(mask, width, k, m);
  }

  /** Row i lies in some band between neighbouring row boundaries. */
  lemma BandOfRow(mask: Image<bool>, i: nat) returns (k: nat)
    requires i < |mask|
    ensures k < |RowBoundaries(mask)| - 1
    ensures RowBoundaries(mask)[k] <= i < RowBoundaries(mask)[k + 1]
  {
    var rb := RowBoundaries(mask);
    TilingExists(rb, i);
    k :| 0 <= k < |rb| - 1 && rb[k] <= i < rb[k + 1];
  }

  /** Cell m of band k is one of the grid's cells. */
  lemma CellInGrid(mask: Image<bool>, width: nat, k: nat, m: nat)
    requires IsRect(mask, width, |mask|) && width > 0 && |mask| > 0
    requires k < |RowBoundaries(mask)| - 1
    requires m < |BandCells(mask, width, RowBoundaries(mask)[k], RowBoundaries(mask)[k + 1])|
    ensures BandCells(mask, width, RowBoundaries(mask)[k], RowBoundaries(mask)[k + 1])[m] in GridCells(mask, width)
  {
    var bands := GridBands(mask, width);
    FlattenAt(bands, k, m);
    assert GridCells(mask, width) == Flatten(bands);
  }

  /** Within a band, some cell holds column j. */
  lemma BandCovers(mask: Image<bool>, width: nat, top: nat, bottom: nat, j: nat) returns (m: nat)
    requires IsRect(mask, width, |mask|) && width > 0
    requires top < bottom <= |mask| && j < width
    ensures m < |BandCells(mask, width, top, bottom)|
    ensures var c := BandCells(mask, width, top, bottom)[m]; c.left <= j < c.right && c.top == top && c.bottom == bottom
  {
    var cs := BandCells(mask, width, top, bottom);
    ChainCovers(cs, 0, width, j);
    m :| 0 <= m < |cs| && cs[m].left <= j < cs[m].right;
  }

  /** A chain of cells, each starting where the previous ends, covers the span from first to last. */
  lemma {:induction false} ChainCovers(cs: seq<Cell>, lo: int, hi: int, j: int)
    requires |cs| > 0 && cs[0].left == lo && cs[|cs| - 1].right == hi
    requires forall k :: 0 <= k < |cs| - 1 ==> cs[k].right == cs[k + 1].left
    requires lo <= j < hi
    ensures exists m :: 0 <= m < |cs| && cs[m].left <= j < cs[m].right
  {
    if j >= cs[0].right {
      ChainCovers(cs[1..], cs[0].right, hi, j);
      var m :| 0 <= m < |cs[1..]| && cs[1..][m].left <= j < cs[1..][m].right;
      assert cs[m + 1] == cs[1..][m];
    }
  }

  // ---------------------------------------------------------------------
  // Contour detection
  // ---------------------------------------------------------------------

  /** `5000 < area < 0.3 * width * height`. */
  predicate LogoSized(c: Contour, width: nat, height: nat)
  {
    5000.0 < c.area < (width * height) as real * 0.3
  }

  /**
   * `detect_logos_contours`: the padded, clipped bounding boxes of the
   * contours of logo size, in order. Each lies inside the image and covers
   * its contour's box when that box lies inside the image.
   */
  function DetectLogosContours(contours: seq<Contour>, width: nat, height: nat): (r: seq<Box>)
    ensures |r| <= |contours|
    ensures forall k :: 0 <= k < |r| ==> Inside(r[k], width, height)
    ensures forall c :: c in contours && LogoSized(c, width, height) ==> PadClipBox(c.bbox, Padding, width, height) in r
  {
    if |contours| == 0 then []
    else
      var rest := DetectLogosContours(contours[1..], width, height);
      var c := contours[0];
      if LogoSized(c, width, height) then [PadClipBox(c.bbox, Padding, width, height)] + rest else rest
  }

  /**
   * Box k of the contour detector is the padded, clipped box of a contour of
   * logo size, and covers that contour's box when it lies inside the image.
   */
  lemma {:induction false} DetectLogosContoursSound(contours: seq<Contour>, width: nat, height: nat, k: nat)
    requires k < |DetectLogosContours(contours, width, height)|
    ensures var b := DetectLogosContours(contours, width, height)[k];
            exists c :: c in contours && LogoSized(c, width, height) && b == PadClipBox(c.bbox, Padding, width, height) &&
              (c.bbox.w >= 0 && c.bbox.h >= 0 && Inside(c.bbox, width, height) ==> Covers(b, c.bbox))
  {
    var b := DetectLogosContours(contours, width, height)[k];
    var tail := contours[1..];
    var rest := DetectLogosContours(tail, width, height);
    var sized := LogoSized(contours[0], width, height);
    var c: Contour;
    if sized && k == 0 {
      c := contours[0];
    } else {
      var m := if sized then k - 1 else k;
      assert b == rest[m];
      DetectLogosContoursSound(tail, width, height, m);
      c :| c in tail && LogoSized(c, width, height) && rest[m] == PadClipBox(c.bbox, Padding, width, height) &&
        (c.bbox.w >= 0 && c.bbox.h >= 0 && Inside(c.bbox, width, height) ==> Covers(rest[m], c.bbox));
    }
    assert c in contours && b == PadClipBox(c.bbox, Padding, width, height);
  }

  /**
   * The contour detector's boxes in full: idx lists, in increasing order,
   * exactly the positions of the contours of logo size, and box k is the
   * padded, clipped box of contour idx[k]. So the boxes, and the names the
   * extractor gives them by position, follow the contour order.
   */
  lemma {:induction false} DetectLogosContoursInOrder(contours: seq<Contour>, width: nat, height: nat) returns (idx: seq<nat>)
    ensures |idx| == |DetectLogosContours(contours, width, height)| && StrictlyIncreasing(idx)
    ensures forall k :: 0 <= k < |idx| ==>
              idx[k] < |contours| && LogoSized(contours[idx[k]], width, height) &&
              DetectLogosContours(contours, width, height)[k] == PadClipBox(contours[idx[k]].bbox, Padding, width, height)
    ensures forall i :: 0 <= i < |contours| && LogoSized(contours[i], width, height) ==> i in idx
  {
    if |contours| == 0 {
      idx := [];
    } else {
      var keep := (c: Contour) => LogoSized(c, width, height);
      var f := (c: Contour) => PadClipBox(c.bbox, Padding, width, height);
      var rest := DetectLogosContoursInOrder(contours[1..], width, height);
      assert Selects(contours[1..], keep, f, DetectLogosContours(contours[1..], width, height), rest);
      idx := SelectsCons(contours, keep, f, DetectLogosContours(contours, width, height), DetectLogosContours(contours[1..], width, height), rest);
    }
  }

  // ---------------------------------------------------------------------
  // Method dispatch and output names
  // ---------------------------------------------------------------------

  /** The hand-measured boxes of the 22 logos of the original collage. */
  const ManualBoxes: seq<Box> := [
    Box(45, 30, 290, 120), Box(370, 30, 320, 120), Box(720, 30, 320, 120),
    Box(45, 180, 240, 80), Box(320, 180, 240, 80), Box(680, 180, 280, 80),
    Box(45, 290, 240, 120), Box(320, 290, 240, 120), Box(580, 290, 100, 100), Box(720, 290, 320, 120),
    Box(45, 440, 320, 120), Box(400, 460, 280, 80), Box(400, 520, 280, 60),
    Box(45, 580, 240, 120), Box(320, 670, 120, 80), Box(480, 580, 240, 120), Box(760, 580, 180, 120),
    Box(45, 750, 180, 120), Box(240, 750, 240, 120), Box(480, 750, 320, 120), Box(820, 750, 180, 120),
    Box(45, 900, 280, 80)
  ]

  /** Any method name other than the three named sources means automatic detection. */
  predicate IsAuto(choice: string)
  {
    choice != "manual" && choice != "contours" && choice != "grid"
  }

  /**
   * The boxes `extract_logos` works on. "manual", "contours" and "grid"
   * each pick one source; any other method is automatic: the grid boxes,
   * followed by the contour boxes when the grid found fewer than 10.
   */
  function SelectBoxes(choice: string, grid: seq<Box>, contours: seq<Box>): (r: seq<Box>)
    ensures choice == "manual" ==> r == ManualBoxes
    ensures choice == "contours" ==> r == contours
    ensures choice == "grid" ==> r == grid
    ensures IsAuto(choice) ==> |grid| <= |r| && r[..|grid|] == grid
    ensures IsAuto(choice) && |grid| >= 10 ==> r == grid
    ensures IsAuto(choice) && |grid| < 10 ==> r[|grid|..] == contours
  {
    if choice == "manual" then ManualBoxes
    else if choice == "contours" then contours
    else if choice == "grid" then grid
    else if |grid| < 10 then grid + contours
    else grid
  }

  /** One saved logo: its file name and box. */
  datatype LogoInfo = LogoInfo(filename: string, box: Box)

  /**
   * The positions 0 .. n-1 whose save did not fail, in increasing order:
   * `extract_logos` catches a failed crop or save, reports it and goes on,
   * so the failed positions leave gaps in the numbering. Which saves fail is
   * the file system's business and comes in as the set `failed`.
   */
  function SavedIndices(n: nat, failed: set<nat>): (idx: seq<nat>)
    ensures SavedIn(idx, n, failed)
    ensures SavedAll(idx, n, failed)
  {
    if n == 0 then []
    else
      var prev := SavedIndices(n - 1, failed);
      var idx := prev + (if n - 1 in failed then [] else [n - 1]);
      SavedStep(prev, n - 1, failed);
      idx
  }

  /** idx lists, in increasing order, positions below n that did not fail. */
  predicate SavedIn(idx: seq<nat>, n: nat, failed: set<nat>)
  {
    (forall k :: 0 <= k < |idx| ==> idx[k] < n && idx[k] !in failed) &&
    (forall k1, k2 :: 0 <= k1 < k2 < |idx| ==> idx[k1] < idx[k2])
  }

  /** idx holds every position below n that did not fail. */
  predicate SavedAll(idx: seq<nat>, n: nat, failed: set<nat>)
  {
    forall i: nat :: i < n && i !in failed ==> i in idx
  }

  lemma SavedStep(prev: seq<nat>, m: nat, failed: set<nat>)
    requires SavedIn(prev, m, failed) && SavedAll(prev, m, failed)
    ensures var idx := prev + (if m in failed then [] else [m]);
            SavedIn(idx, m + 1, failed) && SavedAll(idx, m + 1, failed)
  {
    var idx := prev + (if m in failed then [] else [m]);
    assert forall k :: 0 <= k < |prev| ==> idx[k] == prev[k];
    forall i: nat | i < m + 1 && i !in failed
      ensures i in idx
    {
      if i < m {
        var k :| 0 <= k < |prev| && prev[k] == i;
        assert idx[k] == i;
      } else {
        assert idx[|idx| - 1] == m;
      }
    }
  }

  /** With no failure among the first n positions, every one of them is saved, in order. */
  lemma {:induction false} SavedIndicesAll(n: nat, failed: set<nat>)
    requires forall i: nat :: i < n ==> i !in failed
    ensures |SavedIndices(n, failed)| == n
    ensures forall k :: 0 <= k < n ==> SavedIndices(n, failed)[k] == k
  {
    if n > 0 {
      var prev := SavedIndices(n - 1, failed);
      SavedIndicesAll(n - 1, failed);
      var idx := SavedIndices(n, failed);
      assert idx == prev + [n - 1] by {
        assert n - 1 !in failed;
      }
      forall k | 0 <= k < n
        ensures idx[k] == k
      {
        if k < n - 1 {
          assert idx[k] == prev[k];
        }
      }
    }
  }

  /**
   * `extract_logos`'s saving loop: the box at position i is saved as
   * `logo_{i+1:02d}.png` unless its save fails; the entries keep the boxes'
   * order and no two names are equal.
   */
  function SaveLogos(boxes: seq<Box>, failed: set<nat>): (r: seq<LogoInfo>)
    ensures var idx := SavedIndices(|boxes|, failed);
            |r| == |idx| &&
            forall k :: 0 <= k < |r| ==> r[k].box == boxes[idx[k]] && r[k].filename == LogoFilename(idx[k] + 1)
    ensures forall i, j :: 0 <= i < j < |r| ==> r[i].filename != r[j].filename
  {
    var idx := SavedIndices(|boxes|, failed);
    var r := Entries(boxes, idx);
    SavedNamesDistinct(r, idx);
    r
  }

  /** The entries for the given positions, each named after its position. */
  function Entries(boxes: seq<Box>, idx: seq<nat>): (r: seq<LogoInfo>)
    requires forall k :: 0 <= k < |idx| ==> idx[k] < |boxes|
    ensures |r| == |idx|
    ensures forall k :: 0 <= k < |r| ==> r[k].box == boxes[idx[k]] && r[k].filename == LogoFilename(idx[k] + 1)
  {
    seq(|idx|, k requires 0 <= k < |idx| => LogoInfo(LogoFilename(idx[k] + 1), boxes[idx[k]]))
  }

  /** With no failed save, box i is saved as `logo_{i+1:02d}.png`, one entry per box. */
  lemma SaveLogosAllSaved(boxes: seq<Box>, failed: set<nat>)
    requires forall p: nat :: p < |boxes| ==> p !in failed
    ensures var r := SaveLogos(boxes, failed);
            |r| == |boxes| && forall i :: 0 <= i < |r| ==> r[i] == LogoInfo(LogoFilename(i + 1), boxes[i])
  {
    SavedIndicesAll(|boxes|, failed);
    assert SavedIndices(|boxes|, failed) == Range(|boxes|);
  }

  /** Every box whose save did not fail has its entry, under its own number. */
  lemma SaveLogosComplete(boxes: seq<Box>, failed: set<nat>, p: nat)
    requires p < |boxes| && p !in failed
    ensures exists k :: 0 <= k < |SaveLogos(boxes, failed)| && SaveLogos(boxes, failed)[k] == LogoInfo(LogoFilename(p + 1), boxes[p])
  {
    var idx := SavedIndices(|boxes|, failed);
    var r := SaveLogos(boxes, failed);
    var k :| 0 <= k < |idx| && idx[k] == p;
    assert r[k] == LogoInfo(LogoFilename(p + 1), boxes[p]);
  }

  /** Files numbered by increasing positions have pairwise different names. */
  lemma SavedNamesDistinct(r: seq<LogoInfo>, idx: seq<nat>)
    requires |r| == |idx|
    requires forall k1, k2 :: 0 <= k1 < k2 < |idx| ==> idx[k1] < idx[k2]
    requires forall i :: 0 <= i < |r| ==> r[i].filename == LogoFilename(idx[i] + 1)
    ensures forall i, j :: 0 <= i < j < |r| ==> r[i].filename != r[j].filename
  {
    forall i, j | 0 <= i < j < |r|
      ensures r[i].filename != r[j].filename
    {
      NumberedNamesDistinct("logo_", ".png", idx[i] + 1, idx[j] + 1);
    }
  }

  /** `extract_logos`'s candidate boxes: those of the chosen method, with the contour fallback for "auto". */
  function Candidates(choice: string, gray: Image<int>, width: nat, contours: seq<Contour>): (r: seq<Box>)
    requires IsRect(gray, width, |gray|) && width > 0 && |gray| > 0
    ensures choice == "manual" ==> r == ManualBoxes
    ensures choice == "contours" ==> r == DetectLogosContours(contours, width, |gray|)
    ensures choice == "grid" ==> r == DetectLogosGrid(gray, width)
    ensures IsAuto(choice) && |DetectLogosGrid(gray, width)| >= 10 ==> r == DetectLogosGrid(gray, width)
    ensures IsAuto(choice) && |DetectLogosGrid(gray, width)| < 10 ==>
              r == DetectLogosGrid(gray, width) + DetectLogosContours(contours, width, |gray|)
    ensures choice != "manual" ==> AllInside(r, width, |gray|)
  {
    var grid := if choice == "manual" || choice == "contours" then [] else DetectLogosGrid(gray, width);
    var fromContours := if choice == "manual" || choice == "grid" then [] else DetectLogosContours(contours, width, |gray|);
    SelectInside(choice, grid, fromContours, width, |gray|);
    SelectFallback(choice, grid, fromContours);
    SelectBoxes(choice, grid, fromContours)
  }

  lemma SelectFallback(choice: string, grid: seq<Box>, contours: seq<Box>)
    ensures IsAuto(choice) && |grid| < 10 ==> SelectBoxes(choice, grid, contours) == grid + contours
  {
  }

  /**
   * `extract_logos`: select the candidate boxes by method, then save each
   * one under its number; failed saves are skipped and leave their number
   * unused.
   */
  function ExtractLogos(choice: string, gray: Image<int>, width: nat, contours: seq<Contour>, failed: set<nat>): (r: seq<LogoInfo>)
    requires IsRect(gray, width, |gray|) && width > 0 && |gray| > 0
    ensures var c := Candidates(choice, gray, width, contours);
            var idx := SavedIndices(|c|, failed);
            |r| == |idx| &&
            forall k :: 0 <= k < |r| ==> r[k].box == c[idx[k]] && r[k].filename == LogoFilename(idx[k] + 1)
    ensures choice != "manual" ==> forall i :: 0 <= i < |r| ==> Inside(r[i].box, width, |gray|)
    ensures forall i, j :: 0 <= i < j < |r| ==> r[i].filename != r[j].filename
  {
    SaveLogos(Candidates(choice, gray, width, contours), failed)
  }

  predicate AllInside(boxes: seq<Box>, width: int, height: int)
  {
    forall k :: 0 <= k < |boxes| ==> Inside(boxes[k], width, height)
  }

  lemma SelectInside(choice: string, grid: seq<Box>, contours: seq<Box>, width: int, height: int)
    requires AllInside(grid, width, height) && AllInside(contours, width, height)
    ensures choice != "manual" ==> AllInside(SelectBoxes(choice, grid, contours), width, height)
  {
    if IsAuto(choice) && |grid| < 10 {
      var r := SelectBoxes(choice, grid, contours);
      assert r == grid + contours;
      assert forall k :: |grid| <= k < |r| ==> r[k] == contours[k - |grid|];
    }
  }

  /**
   * The script's main flow asks for the manual boxes first and falls back
   * to automatic detection below 10 logos; with 22 manual boxes the
   * fallback never runs.
   */
  lemma ManualSuffices()
    ensures |SaveLogos(SelectBoxes("manual", [], []), {})| == 22 >= 10
  {
    SaveLogosAllSaved(ManualBoxes, {});
  }
}

=== FILE: geometry.dfy ===
/**
 * Integer geometry shared by the detectors: points, boxes, the contour record
 * that OpenCV hands back, and the two ways the scripts pad a box.
 */
module Geometry {
  import opened Base

  datatype Point = Point(x: int, y: int)

  /** An axis-aligned box (x, y, width, height), as boundingRect and the crop calls use it. */
  datatype Box = Box(x: int, y: int, w: int, h: int)

  /**
   * What findContours, contourArea, boundingRect and moments report for one
   * contour. These are inputs to the model; the library computes them.
   */
  datatype Contour = Contour(area: real, bbox: Box, m00: real, m10: real, m01: real)

  /** A box lies inside a width x height image. */
  predicate Inside(b: Box, width: int, height: int)
  {
    b.x >= 0 && b.y >= 0 && b.x + b.w <= width && b.y + b.h <= height
  }

  /** Box b contains box c. */
  predicate Covers(b: Box, c: Box)
  {
    b.x <= c.x && b.y <= c.y && c.x + c.w <= b.x + b.w && c.y + c.h <= b.y + b.h
  }

  /** Squared Euclidean distance between two points. */
  function Dist2(p: Point, q: Point): nat
  {
    (q.x - p.x) * (q.x - p.x) + (q.y - p.y) * (q.y - p.y)
  }

  /**
   * The centroid of a contour: m10/m00 and m01/m00 truncated by int(), or,
   * when m00 is zero, the centre of the bounding box with floor division.
   */
  function Centroid(c: Contour): (p: Point)
    ensures c.m00 == 0.0 ==> p == Point(c.bbox.x + c.bbox.w / 2, c.bbox.y + c.bbox.h / 2)
    ensures c.m00 > 0.0 && c.m10 >= 0.0 ==>
              p.x >= 0 && p.x as real * c.m00 <= c.m10 < (p.x as real + 1.0) * c.m00
    ensures c.m00 > 0.0 && c.m01 >= 0.0 ==>
              p.y >= 0 && p.y as real * c.m00 <= c.m01 < (p.y as real + 1.0) * c.m00
  {
    if c.m00 != 0.0 then
      var p := Point(TruncReal(c.m10 / c.m00), TruncReal(c.m01 / c.m00));
      if c.m00 > 0.0 then
        QuotientBounds(p.x as real, c.m10, c.m00);
        QuotientBounds(p.y as real, c.m01, c.m00);
        p
      else p
    else Point(c.bbox.x + c.bbox.w / 2, c.bbox.y + c.bbox.h / 2)
  }

  /** Bounds on a quotient carry over to the numerator when the divisor is positive. */
  lemma QuotientBounds(q: real, x: real, m: real)
    requires m > 0.0
    ensures q <= x / m ==> q * m <= x
    ensures x / m < q + 1.0 ==> x < (q + 1.0) * m
  {
    var d := x / m;
    assert d * m == x;
    MulPosMono(q, d, m);
    MulPosMono(d, q + 1.0, m);
  }

  lemma MulPosMono(a: real, b: real, m: real)
    requires m > 0.0
    ensures a <= b ==> a * m <= b * m
    ensures a < b ==> a * m < b * m
  {
  }

  /** Comparing with a quotient n / d for d > 0 is comparing with n after scaling by d. */
  lemma QuotientCompare(n: int, d: int, a: real)
    requires d > 0
    ensures a < n as real / d as real <==> a * d as real < n as real
    ensures n as real / d as real < a <==> n as real < a * d as real
  {
    var q := n as real / d as real;
    assert q * d as real == n as real;
    MulPosMono(a, q, d as real);
    MulPosMono(q, a, d as real);
  }

  /**
   * Padding that moves the corner out by pad, stopping at 0, and grows the
   * size by 2 * pad whether or not the corner moved: no clipping at the far
   * edges.
   */
  function PadLeftTop(b: Box, pad: nat): (r: Box)
    ensures r.x >= 0 && r.y >= 0
    ensures r.w == b.w + 2 * pad && r.h == b.h + 2 * pad
    ensures b.x >= 0 && b.y >= 0 ==> Covers(r, b)
    ensures r.x + r.w >= b.x + b.w + pad && r.y + r.h >= b.y + b.h + pad
    ensures r.x == Max(0, b.x - pad) && r.y == Max(0, b.y - pad)
    ensures 0 <= b.x < pad ==> r.x == 0
    ensures 0 <= b.y < pad ==> r.y == 0
  {
    Box(Max(0, b.x - pad), Max(0, b.y - pad), b.w + 2 * pad, b.h + 2 * pad)
  }

  /**
   * Padding with clipping along one axis, the `max(0, s - pad)` /
   * `min(limit - s', len + 2 * pad)` pair: the start moves out by pad,
   * stopping at 0, and the length grows by 2 * pad, stopping at limit.
   */
  function PadClip(start: int, len: int, pad: nat, limit: int): (r: (int, int))
    ensures r.0 >= 0 && r.0 + r.1 <= limit
    ensures r.0 <= Max(0, start)
    ensures r.0 + r.1 >= Min(limit, start + len + pad)
    ensures 0 <= start < limit && len + 2 * pad > 0 ==> r.1 > 0
    ensures start >= pad && start + len + pad <= limit ==> r == (start - pad, len + 2 * pad)
  {
    var lo := Max(0, start - pad);
    (lo, Min(limit - lo, len + 2 * pad))
  }

  /** PadClip on both axes of a box inside a width x height image. */
  function PadClipBox(b: Box, pad: nat, width: int, height: int): (r: Box)
    ensures Inside(r, width, height)
    ensures 0 <= b.x < width && 0 <= b.y < height && b.w + 2 * pad > 0 && b.h + 2 * pad > 0 ==> r.w > 0 && r.h > 0
    ensures b.w >= 0 && b.h >= 0 && Inside(b, width, height) ==> Covers(r, b)
  {
    var (x, w) := PadClip(b.x, b.w, pad, width);
    var (y, h) := PadClip(b.y, b.h, pad, height);
    Box(x, y, w, h)
  }
}

=== FILE: grid.dfy ===
/**
 * Pixel grids as the scripts see them through numpy and PIL: images are
 * sequences of rows, pixels are grey levels or RGB(A) tuples. This module
 * holds cropping (PIL's, which fills outside the image, and numpy's, which
 * clips), pixel counts and sums, the strip means the validators compare with
 * 240, and the bounding extent of the pixels satisfying a predicate.
 */
module Grid {
  import opened Base
  import opened Geometry

  type Image<T> = seq<seq<T>>

  /** An RGB pixel. */
  datatype Rgb = Rgb(r: int, g: int, b: int)

  /** An RGBA pixel; alpha 0 is fully transparent. */
  datatype Rgba = Rgba(r: int, g: int, b: int, a: int)

  /** The image has h rows of w pixels each. */
  predicate IsRect<T>(img: Image<T>, w: int, h: int)
  {
    |img| == h && forall i :: 0 <= i < |img| ==> |img[i]| == w
  }

  /** Two images with the same rows of the same lengths. */
  predicate SameShape<T, U>(a: Image<T>, b: Image<U>)
  {
    |a| == |b| && forall i :: 0 <= i < |a| ==> |a[i]| == |b[i]|
  }

  /** f applied to every pixel (a numpy element-wise operation). */
  function MapImage<T, U>(img: Image<T>, f: T -> U): (r: Image<U>)
    ensures SameShape(img, r)
    ensures forall i, j :: 0 <= i < |img| && 0 <= j < |img[i]| ==> r[i][j] == f(img[i][j])
  {
    seq(|img|, i requires 0 <= i < |img| => seq(|img[i]|, j requires 0 <= j < |img[i]| => f(img[i][j])))
  }

  /** The pixel at row i, column j, or fill when (i, j) is outside the image. */
  function PixelOr<T>(img: Image<T>, i: int, j: int, fill: T): T
  {
    if 0 <= i < |img| && 0 <= j < |img[i]| then img[i][j] else fill
  }

  /**
   * PIL's `crop((x, y, x + w, y + h))`: a w x h image whose pixels come from
   * the source where it has them and are `fill` (black) elsewhere.
   */
  function Crop<T>(img: Image<T>, x: int, y: int, w: nat, h: nat, fill: T): (r: Image<T>)
    ensures IsRect(r, w, h)
    ensures forall i, j :: 0 <= i < h && 0 <= j < w ==> r[i][j] == PixelOr(img, y + i, x + j, fill)
  {
    seq(h, i requires 0 <= i < h => seq(w, j requires 0 <= j < w => PixelOr(img, y + i, x + j, fill)))
  }

  /**
   * numpy's `img[r0:r1, c0:c1]` for non-negative starts and stops: the
   * stops are clipped to the image and an empty range gives no rows or
   * columns. A negative stop is first brought into range by SliceStop.
   */
  function Window<T>(img: Image<T>, width: nat, r0: nat, r1: int, c0: nat, c1: int): (r: Image<T>)
    requires IsRect(img, width, |img|)
    ensures IsRect(r, Max(0, Min(c1, width) - c0), Max(0, Min(r1, |img|) - r0))
    ensures forall i, j :: 0 <= i < |r| && 0 <= j < Max(0, Min(c1, width) - c0) ==>
              r[i][j] == img[r0 + i][c0 + j]
  {
    var h := Max(0, Min(r1, |img|) - r0);
    var w := Max(0, Min(c1, width) - c0);
    seq(h, i requires 0 <= i < h => seq(w, j requires 0 <= j < w => img[r0 + i][c0 + j]))
  }

  /**
   * The stop numpy uses for a slice of an axis of length n: a negative stop
   * counts from the end (and goes no lower than 0), a non-negative one is
   * clipped to n.
   */
  function SliceStop(stop: int, n: nat): (r: nat)
    ensures r <= n
    ensures stop >= 0 ==> r == Min(stop, n)
    ensures stop < 0 ==> r == Max(0, n + stop)
  {
    if stop < 0 then Max(0, n + stop) else Min(stop, n)
  }

  /** Number of pixels of a row that satisfy p. */
  function RowCount<T>(row: seq<T>, p: T -> bool): (n: nat)
    ensures n <= |row|
  {
    if |row| == 0 then 0 else (if p(row[0]) then 1 else 0) + RowCount(row[1..], p)
  }

  /** Number of pixels of the image that satisfy p (`np.sum(p(img))`). */
  function Count<T>(img: Image<T>, p: T -> bool): nat
  {
    if |img| == 0 then 0 else RowCount(img[0], p) + Count(img[1..], p)
  }

  /** Number of pixels of the image (`img.size`). */
  function Size<T>(img: Image<T>): nat
  {
    if |img| == 0 then 0 else |img[0]| + Size(img[1..])
  }

  /** Sum of the grey levels of a row. */
  function RowSum(row: seq<int>): int
  {
    if |row| == 0 then 0 else row[0] + RowSum(row[1..])
  }

  /** Sum of the grey levels of the image. */
  function Sum(img: Image<int>): int
  {
    if |img| == 0 then 0 else RowSum(img[0]) + Sum(img[1..])
  }

  /** A rectangular image has w*h pixels. */
  lemma {:induction false} SizeRect<T>(img: Image<T>, w: nat, h: nat)
    requires IsRect(img, w, h)
    ensures Size(img) == w * h
    decreases h
  {
    if h > 0 {
      SizeRect(img[1..], w, h - 1);
    }
  }

  /** At most every pixel satisfies p. */
  lemma {:induction false} CountAtMostSize<T>(img: Image<T>, p: T -> bool)
    ensures Count(img, p) <= Size(img)
  {
    if |img| > 0 {
      CountAtMostSize(img[1..], p);
    }
  }

  /** A row counts zero exactly when none of its pixels satisfies p. */
  lemma {:induction false} RowCountZero<T>(row: seq<T>, p: T -> bool)
    ensures RowCount(row, p) == 0 <==> forall j :: 0 <= j < |row| ==> !p(row[j])
  {
    if |row| > 0 {
      RowCountZero(row[1..], p);
      assert forall j :: 1 <= j < |row| ==> row[1..][j - 1] == row[j];
    }
  }

  /** The image counts zero exactly when none of its pixels satisfies p. */
  lemma {:induction false} CountZero<T>(img: Image<T>, p: T -> bool)
    ensures Count(img, p) == 0 <==> forall i, j :: 0 <= i < |img| && 0 <= j < |img[i]| ==> !p(img[i][j])
  {
    if |img| > 0 {
      RowCountZero(img[0], p);
      CountZero(img[1..], p);
      assert forall i :: 1 <= i < |img| ==> img[1..][i - 1] == img[i];
    }
  }

  /** Every grey level is at least lo, so the sum is at least lo per pixel. */
  lemma {:induction false} SumAtLeast(img: Image<int>, lo: int)
    requires forall i, j :: 0 <= i < |img| && 0 <= j < |img[i]| ==> img[i][j] >= lo
    ensures Sum(img) >= lo * Size(img)
  {
    if |img| > 0 {
      RowSumAtLeast(img[0], lo);
      assert forall i, j :: 0 <= i < |img[1..]| && 0 <= j < |img[1..][i]| ==> img[1..][i][j] == img[i + 1][j];
      SumAtLeast(img[1..], lo);
    }
  }

  lemma {:induction false} RowSumAtLeast(row: seq<int>, lo: int)
    requires forall j :: 0 <= j < |row| ==> row[j] >= lo
    ensures RowSum(row) >= lo * |row|
  {
    if |row| > 0 {
      assert forall j :: 0 <= j < |row[1..]| ==> row[1..][j] == row[j + 1];
      RowSumAtLeast(row[1..], lo);
    }
  }

  /**
   * numpy's `np.mean(img) < t`: the mean of an empty array is NaN and every
   * comparison with NaN is false, so an empty image is never below t.
   */
  predicate MeanBelow(img: Image<int>, t: int)
  {
    Size(img) > 0 && Sum(img) < t * Size(img)
  }

  /** An image whose every pixel is at least t never has a mean below t. */
  lemma BrightNotBelow(img: Image<int>, t: int)
    requires forall i, j :: 0 <= i < |img| && 0 <= j < |img[i]| ==> img[i][j] >= t
    ensures !MeanBelow(img, t)
  {
    SumAtLeast(img, t);
  }

  /** Columns c0 up to c1 of every row (numpy's `img[:, c0:c1]` with in-range bounds). */
  function Columns<T>(img: Image<T>, width: nat, c0: nat, c1: nat): (r: Image<T>)
    requires IsRect(img, width, |img|) && c0 <= c1 <= width
    ensures IsRect(r, c1 - c0, |img|)
    ensures forall i, j :: 0 <= i < |img| && 0 <= j < c1 - c0 ==> r[i][j] == img[i][c0 + j]
  {
    seq(|img|, i requires 0 <= i < |img| => img[i][c0..c1])
  }

  /** `img[:k, :]`: the first k rows, or all of them. */
  function TopStrip<T>(img: Image<T>, k: nat): Image<T>
  {
    img[..Min(k, |img|)]
  }

  /** `img[-k:, :]` for k > 0: the last k rows, or all of them. */
  function BottomStrip<T>(img: Image<T>, k: nat): Image<T>
  {
    img[Max(0, |img| - k)..]
  }

  /** `img[:, :k]`: the first k columns, or all of them. */
  function LeftStrip<T>(img: Image<T>, width: nat, k: nat): Image<T>
    requires IsRect(img, width, |img|)
  {
    Columns(img, width, 0, Min(k, width))
  }

  /** `img[:, -k:]` for k > 0: the last k columns, or all of them. */
  function RightStrip<T>(img: Image<T>, width: nat, k: nat): Image<T>
    requires IsRect(img, width, |img|)
  {
    Columns(img, width, Max(0, width - k), width)
  }

  /** The four border strips of depth k whose mean grey level is below t. */
  function DarkBorders(img: Image<int>, width: nat, k: nat, t: int): (flags: seq<bool>)
    requires IsRect(img, width, |img|)
    ensures |flags| == 4
  {
    [MeanBelow(TopStrip(img, k), t), MeanBelow(BottomStrip(img, k), t),
     MeanBelow(LeftStrip(img, width, k), t), MeanBelow(RightStrip(img, width, k), t)]
  }

  /** Number of true flags. */
  function CountTrue(flags: seq<bool>): (n: nat)
    ensures n <= |flags|
  {
    if |flags| == 0 then 0 else (if flags[0] then 1 else 0) + CountTrue(flags[1..])
  }

  /** The least k < n with q(k), if any (`np.where(...)[0][0]`). */
  function First(n: nat, q: nat -> bool): (r: Option<nat>)
    ensures r.None? <==> forall k: nat :: k < n ==> !q(k)
    ensures r.Some? ==> r.value < n && q(r.value) && forall k: nat :: k < r.value ==> !q(k)
  {
    FirstFrom(0, n, q)
  }

  function FirstFrom(i: nat, n: nat, q: nat -> bool): (r: Option<nat>)
    requires i <= n
    requires forall k: nat :: k < i ==> !q(k)
    ensures r.None? <==> forall k: nat :: k < n ==> !q(k)
    ensures r.Some? ==> r.value < n && q(r.value) && forall k: nat :: k < r.value ==> !q(k)
    decreases n - i
  {
    if i == n then None
    else if q(i) then Some(i)
    else FirstFrom(i + 1, n, q)
  }

  /** The greatest k < n with q(k), if any (`np.where(...)[0][-1]`). */
  function Last(n: nat, q: nat -> bool): (r: Option<nat>)
    ensures r.None? <==> forall k: nat :: k < n ==> !q(k)
    ensures r.Some? ==> r.value < n && q(r.value) && forall k: nat :: r.value < k < n ==> !q(k)
  {
    if n == 0 then None
    else if q(n - 1) then Some(n - 1)
    else Last(n - 1, q)
  }

  /** Row i has a pixel satisfying p. */
  predicate RowHas<T>(img: Image<T>, p: T -> bool, i: nat)
  {
    i < |img| && exists j :: 0 <= j < |img[i]| && p(img[i][j])
  }

  /** Column j has a pixel satisfying p. */
  predicate ColHas<T>(img: Image<T>, p: T -> bool, j: nat)
  {
    exists i :: 0 <= i < |img| && j < |img[i]| && p(img[i][j])
  }

  /** Inclusive row and column bounds of a set of pixels. */
  datatype Extent = Extent(top: nat, bottom: nat, left: nat, right: nat)

  /**
   * The tight bounds of the pixels satisfying p: None when there are none;
   * otherwise every such pixel lies within the bounds and each bound is
   * reached by one of them.
   */
  function ContentExtent<T>(img: Image<T>, width: nat, p: T -> bool): (e: Option<Extent>)
    requires IsRect(img, width, |img|)
    ensures e.None? <==> forall i, j :: 0 <= i < |img| && 0 <= j < width ==> !p(img[i][j])
    ensures e.Some? ==> e.value.top <= e.value.bottom < |img| && e.value.left <= e.value.right < width
    ensures e.Some? ==> forall i, j :: 0 <= i < |img| && 0 <= j < width && p(img[i][j]) ==>
              e.value.top <= i <= e.value.bottom && e.value.left <= j <= e.value.right
    ensures e.Some? ==> RowHas(img, p, e.value.top) && RowHas(img, p, e.value.bottom) &&
                        ColHas(img, p, e.value.left) && ColHas(img, p, e.value.right)
  {
    var top := First(|img|, RowsWith(img, p));
    var bottom := Last(|img|, RowsWith(img, p));
    var left := First(width, ColsWith(img, p));
    var right := Last(width, ColsWith(img, p));
    ExtentAgree(img, width, p);
    if top.None? || bottom.None? || left.None? || right.None? then None
    else
      ExtentCovers(img, width, p);
      Some(Extent(top.value, bottom.value, left.value, right.value))
  }

  function RowsWith<T>(img: Image<T>, p: T -> bool): nat -> bool
  {
    (i: nat) => RowHas(img, p, i)
  }

  function ColsWith<T>(img: Image<T>, p: T -> bool): nat -> bool
  {
    (j: nat) => ColHas(img, p, j)
  }

  /** A content pixel marks its row and its column; a marked row or column holds a content pixel. */
  lemma RowColLink<T>(img: Image<T>, width: nat, p: T -> bool)
    requires IsRect(img, width, |img|)
    ensures forall i, j :: 0 <= i < |img| && 0 <= j < width && p(img[i][j]) ==>
              RowsWith(img, p)(i) && ColsWith(img, p)(j)
    ensures forall i: nat :: i < |img| && RowsWith(img, p)(i) ==> exists j :: 0 <= j < width && p(img[i][j])
    ensures forall j: nat :: j < width && ColsWith(img, p)(j) ==> exists i :: 0 <= i < |img| && p(img[i][j])
  {
    forall i: nat | i < |img| && RowsWith(img, p)(i)
      ensures exists j :: 0 <= j < width && p(img[i][j])
    {
      var j :| 0 <= j < |img[i]| && p(img[i][j]);
      assert |img[i]| == width;
    }
  }

  /** The four searches find content together or not at all, exactly when some pixel satisfies p. */
  lemma ExtentAgree<T>(img: Image<T>, width: nat, p: T -> bool)
    requires IsRect(img, width, |img|)
    ensures var top := First(|img|, RowsWith(img, p));
      (top.None? <==> forall i, j :: 0 <= i < |img| && 0 <= j < width ==> !p(img[i][j])) &&
      (top.None? <==> Last(|img|, RowsWith(img, p)).None?) &&
      (top.None? <==> First(width, ColsWith(img, p)).None?) &&
      (top.None? <==> Last(width, ColsWith(img, p)).None?)
  {
    RowColLink(img, width, p);
    var rows := RowsWith(img, p);
    var cols := ColsWith(img, p);
    var top := First(|img|, rows);
    var left := First(width, cols);
    if top.Some? {
      var j :| 0 <= j < width && p(img[top.value][j]);
      assert cols(j);
    }
    if left.Some? {
      var i :| 0 <= i < |img| && p(img[i][left.value]);
      assert rows(i);
    }
  }

  /** When the searches succeed, they bound every content pixel. */
  lemma ExtentCovers<T>(img: Image<T>, width: nat, p: T -> bool)
    requires IsRect(img, width, |img|)
    requires First(|img|, RowsWith(img, p)).Some? && Last(|img|, RowsWith(img, p)).Some?
    requires First(width, ColsWith(img, p)).Some? && Last(width, ColsWith(img, p)).Some?
    ensures forall i, j :: 0 <= i < |img| && 0 <= j < width && p(img[i][j]) ==>
              First(|img|, RowsWith(img, p)).value <= i <= Last(|img|, RowsWith(img, p)).value &&
              First(width, ColsWith(img, p)).value <= j <= Last(width, ColsWith(img, p)).value
  {
    var rows := RowsWith(img, p);
    var cols := ColsWith(img, p);
    var top := First(|img|, rows).value;
    var bottom := Last(|img|, rows).value;
    var left := First(width, cols).value;
    var right := Last(width, cols).value;
    forall i, j | 0 <= i < |img| && 0 <= j < width && p(img[i][j])
      ensures top <= i <= bottom && left <= j <= right
    {
      assert rows(i) && cols(j) by {
        assert RowHas(img, p, i);
        assert ColHas(img, p, j);
      }
    }
  }

  /** (i, j) is one of the pixels of `img[r0:r1, c0:c1]`, in image coordinates. */
  predicate InWindow<T>(img: Image<T>, width: nat, r0: nat, r1: int, c0: nat, c1: int, i: int, j: int)
  {
    r0 <= i < Min(r1, |img|) && c0 <= j < Min(c1, width)
  }

  /** A window holds no pixel satisfying p exactly when its part of the image holds none. */
  lemma WindowAbsent<T>(img: Image<T>, width: nat, r0: nat, r1: int, c0: nat, c1: int, p: T -> bool)
    requires IsRect(img, width, |img|)
    ensures var region := Window(img, width, r0, r1, c0, c1);
            var ww := Max(0, Min(c1, width) - c0);
            (forall i, j :: 0 <= i < |region| && 0 <= j < ww ==> !p(region[i][j])) <==>
            (forall i, j :: InWindow(img, width, r0, r1, c0, c1, i, j) ==> !p(img[i][j]))
  {
    var region := Window(img, width, r0, r1, c0, c1);
    var ww := Max(0, Min(c1, width) - c0);
    if forall i, j :: 0 <= i < |region| && 0 <= j < ww ==> !p(region[i][j]) {
      forall i, j | InWindow(img, width, r0, r1, c0, c1, i, j)
        ensures !p(img[i][j])
      {
        assert region[i - r0][j - c0] == img[i][j];
      }
    }
  }

  /** Bounds on the window's pixels satisfying p, shifted back, bound the image's. */
  lemma WindowExtent<T>(img: Image<T>, width: nat, r0: nat, r1: int, c0: nat, c1: int, p: T -> bool, e: Extent)
    requires IsRect(img, width, |img|)
    requires var region := Window(img, width, r0, r1, c0, c1);
             var ww := Max(0, Min(c1, width) - c0);
             forall i, j :: 0 <= i < |region| && 0 <= j < ww && p(region[i][j]) ==>
               e.top <= i <= e.bottom && e.left <= j <= e.right
    ensures forall i, j :: InWindow(img, width, r0, r1, c0, c1, i, j) && p(img[i][j]) ==>
              r0 + e.top <= i <= r0 + e.bottom && c0 + e.left <= j <= c0 + e.right
  {
    var region := Window(img, width, r0, r1, c0, c1);
    forall i, j | InWindow(img, width, r0, r1, c0, c1, i, j) && p(img[i][j])
      ensures r0 + e.top <= i <= r0 + e.bottom && c0 + e.left <= j <= c0 + e.right
    {
      assert region[i - r0][j - c0] == img[i][j];
    }
  }

  /** The first row and column of the window's extent hold pixels of the image satisfying p. */
  lemma WindowReached<T>(img: Image<T>, width: nat, r0: nat, r1: int, c0: nat, c1: int, p: T -> bool, e: Extent)
    requires IsRect(img, width, |img|)
    requires var region := Window(img, width, r0, r1, c0, c1);
             RowHas(region, p, e.top) && ColHas(region, p, e.left)
    ensures exists i, j :: i == r0 + e.top && InWindow(img, width, r0, r1, c0, c1, i, j) && p(img[i][j])
    ensures exists i, j :: j == c0 + e.left && InWindow(img, width, r0, r1, c0, c1, i, j) && p(img[i][j])
  {
    var region := Window(img, width, r0, r1, c0, c1);
    var ww := Max(0, Min(c1, width) - c0);
    var j :| 0 <= j < |region[e.top]| && p(region[e.top][j]);
    assert region[e.top][j] == img[r0 + e.top][c0 + j];
    assert InWindow(img, width, r0, r1, c0, c1, r0 + e.top, c0 + j);
    var i :| 0 <= i < |region| && e.left < |region[i]| && p(region[i][e.left]);
    assert region[i][e.left] == img[r0 + i][c0 + e.left];
    assert InWindow(img, width, r0, r1, c0, c1, r0 + i, c0 + e.left);
  }

  /** The last row and column of the window's extent hold pixels of the image satisfying p. */
  lemma WindowReachedFar<T>(img: Image<T>, width: nat, r0: nat, r1: int, c0: nat, c1: int, p: T -> bool, e: Extent)
    requires IsRect(img, width, |img|)
    requires var region := Window(img, width, r0, r1, c0, c1);
             RowHas(region, p, e.bottom) && ColHas(region, p, e.right)
    ensures exists i, j :: i == r0 + e.bottom && InWindow(img, width, r0, r1, c0, c1, i, j) && p(img[i][j])
    ensures exists i, j :: j == c0 + e.right && InWindow(img, width, r0, r1, c0, c1, i, j) && p(img[i][j])
  {
    var region := Window(img, width, r0, r1, c0, c1);
    var j :| 0 <= j < |region[e.bottom]| && p(region[e.bottom][j]);
    assert region[e.bottom][j] == img[r0 + e.bottom][c0 + j];
    assert InWindow(img, width, r0, r1, c0, c1, r0 + e.bottom, c0 + j);
    var i :| 0 <= i < |region| && e.right < |region[i]| && p(region[i][e.right]);
    assert region[i][e.right] == img[r0 + i][c0 + e.right];
    assert InWindow(img, width, r0, r1, c0, c1, r0 + i, c0 + e.right);
  }

  /**
   * The tight bounds, in image coordinates, of the pixels of
   * `img[r0:r1, c0:c1]` satisfying p: the extent of the window shifted back
   * by (r0, c0). None when there are none; otherwise every such pixel lies
   * within the bounds, and the top row and left column hold one.
   */
  function ExtentInWindow<T>(img: Image<T>, width: nat, r0: nat, r1: int, c0: nat, c1: int, p: T -> bool): (e: Option<Extent>)
    requires IsRect(img, width, |img|)
    ensures e.None? <==> forall i, j :: InWindow(img, width, r0, r1, c0, c1, i, j) ==> !p(img[i][j])
    ensures e.Some? ==> r0 <= e.value.top <= e.value.bottom < |img| && c0 <= e.value.left <= e.value.right < width
    ensures e.Some? ==> forall i, j :: InWindow(img, width, r0, r1, c0, c1, i, j) && p(img[i][j]) ==>
              e.value.top <= i <= e.value.bottom && e.value.left <= j <= e.value.right
    ensures e.Some? ==> exists i, j :: i == e.value.top && InWindow(img, width, r0, r1, c0, c1, i, j) && p(img[i][j])
    ensures e.Some? ==> exists i, j :: j == e.value.left && InWindow(img, width, r0, r1, c0, c1, i, j) && p(img[i][j])
    ensures e.Some? ==> exists i, j :: i == e.value.bottom && InWindow(img, width, r0, r1, c0, c1, i, j) && p(img[i][j])
    ensures e.Some? ==> exists i, j :: j == e.value.right && InWindow(img, width, r0, r1, c0, c1, i, j) && p(img[i][j])
  {
    var region := Window(img, width, r0, r1, c0, c1);
    var ww := Max(0, Min(c1, width) - c0);
    WindowAbsent(img, width, r0, r1, c0, c1, p);
    match ContentExtent(region, ww, p)
    case None => None
    case Some(e) =>
      WindowExtent(img, width, r0, r1, c0, c1, p, e);
      WindowReached(img, width, r0, r1, c0, c1, p, e);
      WindowReachedFar(img, width, r0, r1, c0, c1, p, e);
      Some(Extent(r0 + e.top, r0 + e.bottom, c0 + e.left, c0 + e.right))
  }

  /**
   * An extent grown by pad on every side and clipped to the image, as a
   * box: inside the image, non-empty, around the extent, its corner pad
   * pixels up and left of the extent's unless clipped at 0.
   */
  function PadExtent(e: Extent, pad: nat, width: int, height: int): (b: Box)
    requires e.top <= e.bottom < height && e.left <= e.right < width && pad > 0
    ensures Inside(b, width, height) && b.w > 0 && b.h > 0
    ensures b.x <= e.left && e.right < b.x + b.w && b.y <= e.top && e.bottom < b.y + b.h
    ensures b.x == Max(0, e.left - pad) && b.y == Max(0, e.top - pad)
    ensures b.x + b.w == Min(width, b.x + e.right - e.left + 2 * pad)
    ensures b.y + b.h == Min(height, b.y + e.bottom - e.top + 2 * pad)
  {
    var (x, w) := PadClip(e.left, e.right - e.left, pad, width);
    var (y, h) := PadClip(e.top, e.bottom - e.top, pad, height);
    Box(x, y, w, h)
  }
}

=== FILE: layout.dfy ===
/**
 * The layout switcher: three ways of arranging the client logos (a
 * scrolling ticker, cards per sector, a spotlight on premium clients) and
 * the splice that puts the chosen section and its CSS into the page.
 *
 * The HTML and CSS templates are text the model takes as given (a Section
 * per layout); what is modelled is which logos each layout shows, in which
 * order, and how the page text is cut and joined.
 */
module Layout {
  import opened Base
  import opened Seqs
  import opened Text
  import opened Mapping

  /**
   * The ticker's items: the logo list, then the same list again so that the
   * scroll loops seamlessly. Every logo is shown exactly twice as often as
   * it is listed.
   */
  function TickerItems(logos: seq<LogoEntry>): (r: seq<LogoEntry>)
    ensures |r| == 2 * |logos|
    ensures forall k :: 0 <= k < |logos| ==> r[k] == logos[k] && r[|logos| + k] == logos[k]
    ensures multiset(r) == multiset(logos) + multiset(logos)
  {
    logos + logos
  }

  /** The sector cards in display order. */
  const SectorOrder: seq<string> := ["federal", "private", "government", "academic"]

  /** At most this many logos per card. */
  const PerCard: nat := 8

  /** `logo.get('sector', 'private')`. */
  function CardSector(e: LogoEntry): string
  {
    SectorOr(e, "private")
  }

  /** The logos of sector s, in mapping order. */
  function Members(logos: seq<LogoEntry>, s: string): (r: seq<LogoEntry>)
    ensures forall e :: e in r <==> e in logos && CardSector(e) == s
  {
    if |logos| == 0 then []
    else
      var rest := Members(logos[1..], s);
      if CardSector(logos[0]) == s then [logos[0]] + rest else rest
  }

  /** Some logo belongs to sector s. */
  predicate Used(logos: seq<LogoEntry>, s: string)
  {
    exists e :: e in logos && CardSector(e) == s
  }

  /** One sector card: its sector and the logos it shows. */
  datatype Card = Card(sector: string, logos: seq<LogoEntry>)

  /** The sectors of the cards, in order. */
  function SectorNames(cards: seq<Card>): (r: seq<string>)
    ensures |r| == |cards|
    ensures forall k :: 0 <= k < |cards| ==> r[k] == cards[k].sector
  {
    if |cards| == 0 then [] else [cards[0].sector] + SectorNames(cards[1..])
  }

  /** The sectors of order that some logo uses, in order. */
  function UsedSectors(logos: seq<LogoEntry>, order: seq<string>): (r: seq<string>)
    ensures forall s :: s in r <==> s in order && Used(logos, s)
  {
    if |order| == 0 then []
    else
      var rest := UsedSectors(logos, order[1..]);
      if Used(logos, order[0]) then [order[0]] + rest else rest
  }

  /**
   * The cards for the sectors of order: one per sector that has logos, in
   * the order given, each showing the first 8 of that sector's logos.
   */
  function CardsFor(logos: seq<LogoEntry>, order: seq<string>): (cards: seq<Card>)
    ensures SectorNames(cards) == UsedSectors(logos, order)
    ensures forall k :: 0 <= k < |cards| ==>
              cards[k].sector in order &&
              cards[k].logos == Members(logos, cards[k].sector)[..Min(PerCard, |Members(logos, cards[k].sector)|)]
  {
    if |order| == 0 then []
    else
      var rest := CardsFor(logos, order[1..]);
      var ms := Members(logos, order[0]);
      if |ms| > 0 then
        assert ms[0] in ms;
        var cards := [Card(order[0], ms[..Min(PerCard, |ms|)])] + rest;
        assert cards[1..] == rest;
        cards
      else
        assert forall e :: e in logos && CardSector(e) == order[0] ==> e in ms;
        rest
  }

  /**
   * `implement_sector_layout`'s cards: federal, private, government,
   * academic, skipping the sectors without logos; a logo of any other sector
   * appears on no card; at most 8 logos per card, every one of the card's
   * sector.
   */
  function SectorCards(logos: seq<LogoEntry>): (cards: seq<Card>)
    ensures SectorNames(cards) == UsedSectors(logos, SectorOrder)
    ensures |cards| <= 4
    ensures forall k :: 0 <= k < |cards| ==> 0 < |cards[k].logos| <= PerCard
    ensures forall k, e :: 0 <= k < |cards| && e in cards[k].logos ==>
              e in logos && CardSector(e) == cards[k].sector && CardSector(e) in SectorOrder
  {
    var cards := CardsFor(logos, SectorOrder);
    CardsShown(logos, cards);
    UsedSectorsLength(logos, SectorOrder);
    cards
  }

  lemma CardsShown(logos: seq<LogoEntry>, cards: seq<Card>)
    requires SectorNames(cards) == UsedSectors(logos, SectorOrder)
    requires forall k :: 0 <= k < |cards| ==>
               cards[k].sector in SectorOrder &&
               cards[k].logos == Members(logos, cards[k].sector)[..Min(PerCard, |Members(logos, cards[k].sector)|)]
    ensures forall k :: 0 <= k < |cards| ==> 0 < |cards[k].logos| <= PerCard
    ensures forall k, e :: 0 <= k < |cards| && e in cards[k].logos ==>
              e in logos && CardSector(e) == cards[k].sector && CardSector(e) in SectorOrder
  {
    forall k | 0 <= k < |cards|
      ensures 0 < |cards[k].logos| <= PerCard
    {
      var s := cards[k].sector;
      assert SectorNames(cards)[k] == s;
      assert s in UsedSectors(logos, SectorOrder);
      var e :| e in logos && CardSector(e) == s;
      assert e in Members(logos, s);
    }
  }

  lemma {:induction false} UsedSectorsLength(logos: seq<LogoEntry>, order: seq<string>)
    ensures |UsedSectors(logos, order)| <= |order|
  {
    if |order| > 0 {
      UsedSectorsLength(logos, order[1..]);
    }
  }

  /** The premium clients, by file name. */
  const PremiumClients: seq<string> := ["logo_09.png", "logo_06.png", "logo_02.png", "logo_22.png"]

  /** At most this many regular logos are shown. */
  const RegularShown: nat := 12

  predicate IsPremium(e: LogoEntry)
  {
    e.filename in PremiumClients
  }

  predicate IsRegular(e: LogoEntry)
  {
    e.filename !in PremiumClients
  }

  /** The spotlight's two groups as shown. */
  datatype Spotlight = Spotlight(premium: seq<LogoEntry>, regular: seq<LogoEntry>)

  /**
   * `implement_spotlight_layout`'s groups: every premium logo and only
   * those, then the first 12 of the others, each group in mapping order.
   */
  function SpotlightGroups(logos: seq<LogoEntry>): (s: Spotlight)
    ensures forall e :: e in s.premium <==> e in logos && IsPremium(e)
    ensures |s.regular| == Min(RegularShown, CountWhere(logos, IsRegular))
    ensures |s.regular| <= |Filter(logos, IsRegular)|
    ensures s.regular == Filter(logos, IsRegular)[..|s.regular|]
    ensures forall e :: e in s.regular ==> e in logos && !IsPremium(e)
  {
    var regular := Filter(logos, IsRegular);
    CountIsFilterLength(logos, IsRegular);
    var shown := regular[..Min(RegularShown, |regular|)];
    assert forall e :: e in shown ==> e in regular;
    Spotlight(Filter(logos, IsPremium), shown)
  }

  /**
   * Premium and regular are an order-preserving partition of the mapping:
   * interleaving them back by the premium test gives the mapping, and
   * together they hold every logo exactly as often as the mapping does.
   */
  lemma SpotlightPartition(logos: seq<LogoEntry>)
    ensures Interleave(Outcomes(logos, IsPremium), SpotlightGroups(logos).premium, Filter(logos, IsRegular)) == logos
    ensures multiset(SpotlightGroups(logos).premium) + multiset(Filter(logos, IsRegular)) == multiset(logos)
  {
    assert SpotlightGroups(logos).premium == Filter(logos, IsPremium);
    FilterPartitionRoundTrip(logos, IsPremium, IsRegular);
    FilterPartitionMultiset(logos, IsPremium, IsRegular);
  }

  /** The template text of one layout. */
  datatype Section = Section(html: string, css: string)

  /** The three layouts' template text. */
  datatype Templates = Templates(ticker: Section, sectors: Section, spotlight: Section)

  /** The layout a choice names; any other choice is invalid. */
  function SectionFor(choice: string, t: Templates): (r: Option<Section>)
    ensures r.None? <==> choice != "ticker" && choice != "sectors" && choice != "spotlight"
  {
    if choice == "ticker" then Some(t.ticker)
    else if choice == "sectors" then Some(t.sectors)
    else if choice == "spotlight" then Some(t.spotlight)
    else None
  }

  const StartMarker: string := "<!-- Client Logos Section -->"
  const EndMarker: string := "<!-- Three Features Section -->"
  const CssStartMarker: string := "/* Client Logos Masonry Section */"
  const CssEndMarker: string := "/* Footer */"

  /**
   * The section splice `html[:start] + new + "\n\n    " + html[end:]`. The
   * text before start and from end on is kept, new comes right after the
   * kept head, and nothing checks that start comes before end.
   */
  function Splice(html: string, start: nat, end: nat, section: string): (r: string)
    requires start <= |html| && end <= |html|
    ensures |r| == start + |section| + 6 + (|html| - end)
    ensures r[..start] == html[..start]
    ensures r[start..start + |section|] == section
    ensures r[start + |section| + 6..] == html[end..]
  {
    var r := html[..start] + section + "\n\n    " + html[end..];
    assert r[..start] == html[..start];
    assert r[start..start + |section|] == section;
    assert r[start + |section| + 6..] == html[end..];
    r
  }

  /**
   * When the end marker comes first, the text between the two markers is
   * kept twice and the page grows by it; in the intended order that text
   * is dropped instead.
   */
  lemma SpliceOrder(html: string, start: nat, end: nat, section: string)
    requires start <= |html| && end <= |html|
    ensures end < start ==> |Splice(html, start, end, section)| == |html| + (start - end) + |section| + 6
    ensures end < start ==> Splice(html, start, end, section)[end..start] == html[end..start]
    ensures end < start ==> Splice(html, start, end, section)[start + |section| + 6..][..start - end] == html[end..start]
    ensures start <= end ==> |Splice(html, start, end, section)| == |html| - (end - start) + |section| + 6
  {
    var r := Splice(html, start, end, section);
    if end < start {
      assert r[end..start] == r[..start][end..start];
      assert html[end..][..start - end] == html[end..start];
    }
  }

  /**
   * The CSS swap: when the CSS start marker occurs and a footer marker
   * follows it, the text from the first start marker up to the first footer
   * marker after it is replaced by the new CSS and a blank line; otherwise
   * the page is kept.
   */
  function ReplaceCss(page: string, css: string): (r: string)
    ensures Find(page, CssStartMarker, 0) == -1 ==> r == page
    ensures Find(page, CssStartMarker, 0) != -1 && Find(page, CssEndMarker, Find(page, CssStartMarker, 0)) == -1 ==> r == page
    ensures Find(page, CssStartMarker, 0) != -1 && Find(page, CssEndMarker, Find(page, CssStartMarker, 0)) != -1 ==>
              exists cs, ce :: 0 <= cs <= ce <= |page| &&
                At(page, CssStartMarker, cs) && At(page, CssEndMarker, ce) &&
                (forall j :: 0 <= j < cs ==> !At(page, CssStartMarker, j)) &&
                (forall j :: cs <= j < ce ==> !At(page, CssEndMarker, j)) &&
                r == page[..cs] + css + "\n\n        " + page[ce..]
  {
    var cs := Find(page, CssStartMarker, 0);
    if cs == -1 then page
    else
      var ce := Find(page, CssEndMarker, cs);
      if ce == -1 then page
      else page[..cs] + css + "\n\n        " + page[ce..]
  }

  /**
   * `update_website_with_layout`: None (return False, index.html not
   * written) for an unknown choice or when either section marker is
   * missing; otherwise the page with the section spliced between the first
   * occurrences of the markers and the CSS swapped.
   */
  function UpdateWebsite(choice: string, html: string, t: Templates): (r: Option<string>)
    ensures SectionFor(choice, t).None? ==> r.None?
    ensures Find(html, StartMarker, 0) == -1 || Find(html, EndMarker, 0) == -1 ==> r.None?
    ensures r.Some? <==> SectionFor(choice, t).Some? && Contains(html, StartMarker) && Contains(html, EndMarker)
    ensures r.Some? ==>
              exists start, end :: 0 <= start <= |html| && 0 <= end <= |html| &&
                At(html, StartMarker, start) && At(html, EndMarker, end) &&
                (forall j :: 0 <= j < start ==> !At(html, StartMarker, j)) &&
                (forall j :: 0 <= j < end ==> !At(html, EndMarker, j)) &&
                r.value == ReplaceCss(Splice(html, start, end, SectionFor(choice, t).value.html), SectionFor(choice, t).value.css)
  {
    match SectionFor(choice, t)
    case None => None
    case Some(sec) =>
      var start := Find(html, StartMarker, 0);
      var end := Find(html, EndMarker, 0);
      if start == -1 || end == -1 then None
      else
        Some(ReplaceCss(Splice(html, start, end, sec.html), sec.css))
  }
}

=== FILE: mapping.dfy ===
/**
 * One entry of the logo mapping the website scripts read: the company, the
 * extracted file's name, its alt text and, when the mapping has one, the
 * company's sector.
 */
module Mapping {
  import opened Base

  datatype LogoEntry = LogoEntry(company: string, filename: string, alt: string, sector: Option<string>)

  /** `logo.get('sector', default)`. */
  function SectorOr(e: LogoEntry, default: string): (s: string)
    ensures e.sector.None? ==> s == default
    ensures e.sector.Some? ==> s == e.sector.value
  {
    match e.sector
    case None => default
    case Some(s) => s
  }
}

=== FILE: refined.dfy ===
/**
 * The refined extractor's boundary analysis: look a little around an
 * approximate logo box, find the non-white content there and return that
 * content's bounding box with a 15-pixel white margin, clipped to the image;
 * with no content, keep the approximate box.
 */
module Refined {
  import opened Base
  import opened Geometry
  import opened Grid

  /** The white margin left around the content. */
  const Margin: nat := 15

  /**
   * A pixel is white when every channel is at least 245. A grey-level image
   * has one channel, an RGB image three, an RGBA image four (numpy's
   * `np.all(region >= 245, axis=2)` includes alpha).
   */
  predicate IsWhite(px: seq<int>)
  {
    |px| == 0 || (px[0] >= 245 && IsWhite(px[1..]))
  }

  predicate IsContent(px: seq<int>) { !IsWhite(px) }

  /** A search window: rows r0 until r1 and columns c0 until c1. */
  datatype Area = Area(r0: nat, r1: int, c0: nat, c1: int)

  /**
   * The box grown by padding on each side in a width x height image, as
   * numpy slices it: the near ends are clipped at 0 and the far ends at the
   * image size; a far end that is still negative counts from the image's
   * far edge, so the window then reaches from the near end to that many
   * pixels before the edge.
   */
  function Search(b: Box, padding: nat, width: nat, height: nat): (s: Area)
    ensures s.r0 == Max(0, b.y - padding) && s.c0 == Max(0, b.x - padding)
    ensures s.r1 <= height && s.c1 <= width
    ensures b.y + b.h + padding >= 0 ==> s.r1 == Min(height, b.y + b.h + padding)
    ensures b.x + b.w + padding >= 0 ==> s.c1 == Min(width, b.x + b.w + padding)
    ensures b.y + b.h + padding < 0 ==> s.r1 == Max(0, height + b.y + b.h + padding)
    ensures b.x + b.w + padding < 0 ==> s.c1 == Max(0, width + b.x + b.w + padding)
  {
    Area(Max(0, b.y - padding), SliceStop(Min(height, b.y + b.h + padding), height),
         Max(0, b.x - padding), SliceStop(Min(width, b.x + b.w + padding), width))
  }

  /**
   * A box lying wholly left of the image still searches from column 0: in a
   * 60 x 100 image, the far end -40 of Box(-100, 0, 50, 50) padded by 10
   * is stop 60, so a non-white top-left pixel moves the box into the image.
   */
  lemma WrappedSearchRefines(img: Image<seq<int>>)
    requires IsRect(img, 100, 60) && |img| == 60
    requires IsContent(img[0][0])
    ensures Search(Box(-100, 0, 50, 50), 10, 100, 60) == Area(0, 60, 0, 60)
    ensures var r := AnalyzeLogoBoundaries(img, 100, Box(-100, 0, 50, 50), 10);
            r != Box(-100, 0, 50, 50) && Inside(r, 100, 60)
  {
    assert ContentAt(img, 100, Search(Box(-100, 0, 50, 50), 10, 100, |img|), 0, 0);
  }

  /** (i, j) is a non-white pixel of the image inside the search window. */
  predicate ContentAt(img: Image<seq<int>>, width: nat, s: Area, i: int, j: int)
    requires IsRect(img, width, |img|)
  {
    InWindow(img, width, s.r0, s.r1, s.c0, s.c1, i, j) && IsContent(img[i][j])
  }

  /**
   * `analyze_logo_boundaries`. Without a non-white pixel in the search
   * window, the input box comes back unchanged. Otherwise the result lies
   * inside the image with positive size, holds every non-white pixel of the
   * window; ColumnsFromContent and RowsFromContent pin its four edges to the content's span.
   */
  function AnalyzeLogoBoundaries(img: Image<seq<int>>, width: nat, b: Box, padding: nat): (r: Box)
    requires IsRect(img, width, |img|)
    ensures (forall i, j :: !ContentAt(img, width, Search(b, padding, width, |img|), i, j)) ==> r == b
    ensures (exists i, j :: ContentAt(img, width, Search(b, padding, width, |img|), i, j)) ==>
              Inside(r, width, |img|) && r.w > 0 && r.h > 0
    ensures forall i, j :: ContentAt(img, width, Search(b, padding, width, |img|), i, j) ==>
              r.x <= j < r.x + r.w && r.y <= i < r.y + r.h
  {
    var s := Search(b, padding, width, |img|);
    var ext := ExtentInWindow(img, width, s.r0, s.r1, s.c0, s.c1, IsContent);
    ExtentIsContent(img, width, s);
    match ext
    case None => b
    case Some(e) => PadExtent(e, Margin, width, |img|)
  }

  /**
   * Columns left and right are the first and last columns of the window
   * holding a non-white pixel.
   */
  ghost predicate ColumnSpan(img: Image<seq<int>>, width: nat, s: Area, left: int, right: int)
    requires IsRect(img, width, |img|)
  {
    (exists i :: ContentAt(img, width, s, i, left)) && (exists i :: ContentAt(img, width, s, i, right)) &&
    forall i, j :: ContentAt(img, width, s, i, j) ==> left <= j <= right
  }

  /** Rows top and bottom are the first and last rows of the window holding a non-white pixel. */
  ghost predicate RowSpan(img: Image<seq<int>>, width: nat, s: Area, top: int, bottom: int)
    requires IsRect(img, width, |img|)
  {
    (exists j :: ContentAt(img, width, s, top, j)) && (exists j :: ContentAt(img, width, s, bottom, j)) &&
    forall i, j :: ContentAt(img, width, s, i, j) ==> top <= i <= bottom
  }

  /**
   * Box r spans the window's content columns with the 15-pixel margin: it
   * starts 15 pixels before the first content column, clipped at 0, and is
   * as wide as the column span plus 30, clipped at the image's right edge.
   */
  ghost predicate ColumnsFit(img: Image<seq<int>>, width: nat, s: Area, r: Box)
    requires IsRect(img, width, |img|)
  {
    exists left, right :: ColumnSpan(img, width, s, left, right) &&
      r.x == Max(0, left - Margin) && r.x + r.w == Min(width, r.x + right - left + 2 * Margin)
  }

  /** The same for rows: 15 pixels above the first content row, as tall as the row span plus 30. */
  ghost predicate RowsFit(img: Image<seq<int>>, width: nat, s: Area, r: Box)
    requires IsRect(img, width, |img|)
  {
    exists top, bottom :: RowSpan(img, width, s, top, bottom) &&
      r.y == Max(0, top - Margin) && r.y + r.h == Min(|img|, r.y + bottom - top + 2 * Margin)
  }

  /** When the window holds content, the refined box fits the content's columns. */
  lemma ColumnsFromContent(img: Image<seq<int>>, width: nat, b: Box, padding: nat)
    requires IsRect(img, width, |img|)
    requires exists i, j :: ContentAt(img, width, Search(b, padding, width, |img|), i, j)
    ensures ColumnsFit(img, width, Search(b, padding, width, |img|), AnalyzeLogoBoundaries(img, width, b, padding))
  {
    var e := PaddedExtent(img, width, b, padding);
    ColumnsFromExtent(img, width, Search(b, padding, width, |img|), AnalyzeLogoBoundaries(img, width, b, padding), e);
  }

  /** When the window holds content, the refined box fits the content's rows. */
  lemma RowsFromContent(img: Image<seq<int>>, width: nat, b: Box, padding: nat)
    requires IsRect(img, width, |img|)
    requires exists i, j :: ContentAt(img, width, Search(b, padding, width, |img|), i, j)
    ensures RowsFit(img, width, Search(b, padding, width, |img|), AnalyzeLogoBoundaries(img, width, b, padding))
  {
    var e := PaddedExtent(img, width, b, padding);
    RowsFromExtent(img, width, Search(b, padding, width, |img|), AnalyzeLogoBoundaries(img, width, b, padding), e);
  }

  /** With content in the window, the result pads the extent whose rows and columns span the content. */
  lemma PaddedExtent(img: Image<seq<int>>, width: nat, b: Box, padding: nat) returns (e: Extent)
    requires IsRect(img, width, |img|)
    requires exists i, j :: ContentAt(img, width, Search(b, padding, width, |img|), i, j)
    ensures e.top <= e.bottom < |img| && e.left <= e.right < width
    ensures AnalyzeLogoBoundaries(img, width, b, padding) == PadExtent(e, Margin, width, |img|)
    ensures ColumnSpan(img, width, Search(b, padding, width, |img|), e.left, e.right)
    ensures RowSpan(img, width, Search(b, padding, width, |img|), e.top, e.bottom)
  {
    var s := Search(b, padding, width, |img|);
    var ext := ExtentInWindow(img, width, s.r0, s.r1, s.c0, s.c1, IsContent);
    ExtentFound(img, width, s);
    e := ext.value;
    AnalyzeIsPad(img, width, b, padding);
    ColumnSpanOfExtent(img, width, s);
    RowSpanOfExtent(img, width, s);
  }

  /** A box padding an extent whose columns span the content fits those columns. */
  lemma ColumnsFromExtent(img: Image<seq<int>>, width: nat, s: Area, r: Box, e: Extent)
    requires IsRect(img, width, |img|)
    requires e.top <= e.bottom < |img| && e.left <= e.right < width
    requires ColumnSpan(img, width, s, e.left, e.right) && r == PadExtent(e, Margin, width, |img|)
    ensures ColumnsFit(img, width, s, r)
  {
    PadEdges(e, width, |img|);
    ColumnsFitWitness(img, width, s, r, e.left, e.right);
  }

  lemma ColumnsFitWitness(img: Image<seq<int>>, width: nat, s: Area, r: Box, left: int, right: int)
    requires IsRect(img, width, |img|) && ColumnSpan(img, width, s, left, right)
    requires r.x == Max(0, left - Margin) && r.x + r.w == Min(width, r.x + right - left + 2 * Margin)
    ensures ColumnsFit(img, width, s, r)
  {
  }

  /** A box padding an extent whose rows span the content fits those rows. */
  lemma RowsFromExtent(img: Image<seq<int>>, width: nat, s: Area, r: Box, e: Extent)
    requires IsRect(img, width, |img|)
    requires e.top <= e.bottom < |img| && e.left <= e.right < width
    requires RowSpan(img, width, s, e.top, e.bottom) && r == PadExtent(e, Margin, width, |img|)
    ensures RowsFit(img, width, s, r)
  {
    PadEdges(e, width, |img|);
    RowsFitWitness(img, width, s, r, e.top, e.bottom);
  }

  lemma RowsFitWitness(img: Image<seq<int>>, width: nat, s: Area, r: Box, top: int, bottom: int)
    requires IsRect(img, width, |img|) && RowSpan(img, width, s, top, bottom)
    requires r.y == Max(0, top - Margin) && r.y + r.h == Min(|img|, r.y + bottom - top + 2 * Margin)
    ensures RowsFit(img, width, s, r)
  {
  }

  /** With content in the window, the result is the padded extent. */
  lemma AnalyzeIsPad(img: Image<seq<int>>, width: nat, b: Box, padding: nat)
    requires IsRect(img, width, |img|)
    ensures var s := Search(b, padding, width, |img|);
            var ext := ExtentInWindow(img, width, s.r0, s.r1, s.c0, s.c1, IsContent);
            ext.Some? ==> AnalyzeLogoBoundaries(img, width, b, padding) == PadExtent(ext.value, Margin, width, |img|)
  {
  }

  lemma PadEdges(e: Extent, width: nat, height: nat)
    requires e.top <= e.bottom < height && e.left <= e.right < width
    ensures var r := PadExtent(e, Margin, width, height);
            r.x == Max(0, e.left - Margin) && r.x + r.w == Min(width, r.x + e.right - e.left + 2 * Margin) &&
            r.y == Max(0, e.top - Margin) && r.y + r.h == Min(height, r.y + e.bottom - e.top + 2 * Margin)
  {
  }

  lemma ExtentFound(img: Image<seq<int>>, width: nat, s: Area)
    requires IsRect(img, width, |img|)
    requires exists i, j :: ContentAt(img, width, s, i, j)
    ensures ExtentInWindow(img, width, s.r0, s.r1, s.c0, s.c1, IsContent).Some?
  {
    ExtentIsContent(img, width, s);
  }

  lemma ColumnSpanOfExtent(img: Image<seq<int>>, width: nat, s: Area)
    requires IsRect(img, width, |img|)
    ensures var ext := ExtentInWindow(img, width, s.r0, s.r1, s.c0, s.c1, IsContent);
            ext.Some? ==> ColumnSpan(img, width, s, ext.value.left, ext.value.right)
  {
    var ext := ExtentInWindow(img, width, s.r0, s.r1, s.c0, s.c1, IsContent);
    if ext.Some? {
      var e := ext.value;
      ExtentIsContent(img, width, s);
      var i1, j1 :| j1 == e.left && InWindow(img, width, s.r0, s.r1, s.c0, s.c1, i1, j1) && IsContent(img[i1][j1]);
      assert ContentAt(img, width, s, i1, e.left);
      var i2, j2 :| j2 == e.right && InWindow(img, width, s.r0, s.r1, s.c0, s.c1, i2, j2) && IsContent(img[i2][j2]);
      assert ContentAt(img, width, s, i2, e.right);
    }
  }

  lemma RowSpanOfExtent(img: Image<seq<int>>, width: nat, s: Area)
    requires IsRect(img, width, |img|)
    ensures var ext := ExtentInWindow(img, width, s.r0, s.r1, s.c0, s.c1, IsContent);
            ext.Some? ==> RowSpan(img, width, s, ext.value.top, ext.value.bottom)
  {
    var ext := ExtentInWindow(img, width, s.r0, s.r1, s.c0, s.c1, IsContent);
    if ext.Some? {
      var e := ext.value;
      ExtentIsContent(img, width, s);
      var i1, j1 :| i1 == e.top && InWindow(img, width, s.r0, s.r1, s.c0, s.c1, i1, j1) && IsContent(img[i1][j1]);
      assert ContentAt(img, width, s, e.top, j1);
      var i2, j2 :| i2 == e.bottom && InWindow(img, width, s.r0, s.r1, s.c0, s.c1, i2, j2) && IsContent(img[i2][j2]);
      assert ContentAt(img, width, s, e.bottom, j2);
    }
  }

  /** The window's extent of non-white pixels, restated with ContentAt: absent without content, bounding it otherwise. */
  lemma ExtentIsContent(img: Image<seq<int>>, width: nat, s: Area)
    requires IsRect(img, width, |img|)
    ensures var ext := ExtentInWindow(img, width, s.r0, s.r1, s.c0, s.c1, IsContent);
            (ext.None? <==> forall i, j :: !ContentAt(img, width, s, i, j)) &&
            (ext.Some? ==> forall i, j :: ContentAt(img, width, s, i, j) ==>
               ext.value.top <= i <= ext.value.bottom && ext.value.left <= j <= ext.value.right)
  {
    var ext := ExtentInWindow(img, width, s.r0, s.r1, s.c0, s.c1, IsContent);
    if ext.Some? {
      var e := ext.value;
      var i1, j1 :| i1 == e.top && InWindow(img, width, s.r0, s.r1, s.c0, s.c1, i1, j1) && IsContent(img[i1][j1]);
      assert ContentAt(img, width, s, i1, j1);
    }
  }

  /** IsWhite says every channel is at least 245. */
  lemma {:induction false} WhiteChannels(px: seq<int>)
    ensures IsWhite(px) <==> forall c :: 0 <= c < |px| ==> px[c] >= 245
  {
    if |px| > 0 {
      WhiteChannels(px[1..]);
      assert forall c :: 1 <= c < |px| ==> px[c] == px[1..][c - 1];
    }
  }

  /** A grey level g as a one-channel pixel is white exactly when g >= 245. */
  lemma GrayWhite(g: int)
    ensures IsWhite([g]) <==> g >= 245
  {
    WhiteChannels([g]);
  }

  /** An RGB pixel is white exactly when all three channels are at least 245. */
  lemma RgbWhite(r: int, g: int, b: int)
    ensures IsWhite([r, g, b]) <==> r >= 245 && g >= 245 && b >= 245
  {
    WhiteChannels([r, g, b]);
    assert [r, g, b][0] == r && [r, g, b][1] == g && [r, g, b][2] == b;
  }
}

=== FILE: seqs.dfy ===
/** Sequence helpers used by several modules: flattening and filtering. */
module Seqs {
  import opened Base

  function Flatten<T>(ss: seq<seq<T>>): (r: seq<T>)
    ensures |ss| == 0 ==> r == []
  {
    if |ss| == 0 then [] else ss[0] + Flatten(ss[1..])
  }

  lemma {:induction false} FlattenAppend<T>(a: seq<seq<T>>, b: seq<seq<T>>)
    ensures Flatten(a + b) == Flatten(a) + Flatten(b)
  {
    if |a| == 0 {
      assert a + b == b;
    } else {
      assert (a + b)[1..] == a[1..] + b;
      FlattenAppend(a[1..], b);
    }
  }

  /** Flattening a permutation of a list of groups permutes the elements. */
  lemma {:induction false} FlattenPermutation<T>(a: seq<seq<T>>, b: seq<seq<T>>)
    requires multiset(a) == multiset(b)
    ensures multiset(Flatten(a)) == multiset(Flatten(b))
    decreases |a|
  {
    if |a| == 0 {
      assert |b| == |multiset(b)| == 0;
      assert Flatten(a) == [] == Flatten(b);
    } else {
      var x := a[0];
      var k := PositionOf(b, x);
      var tail, rest := a[1..], b[..k] + b[k + 1..];
      RemoveAt(b, k);
      assert a == [x] + tail;
      MultisetCancel(multiset(tail), multiset(rest), x);
      FlattenRemove(b, k);
      assert Flatten(a) == x + Flatten(tail);
      FlattenPermutation(tail, rest);
    }
  }

  /** Flattening with group k taken out. */
  lemma FlattenRemove<T>(b: seq<seq<T>>, k: nat)
    requires k < |b|
    ensures multiset(Flatten(b)) == multiset(b[k]) + multiset(Flatten(b[..k] + b[k + 1..]))
  {
    FlattenSplit(b, k);
    FlattenAppend(b[..k], b[k + 1..]);
    var fp, fq := Flatten(b[..k]), Flatten(b[k + 1..]);
    assert multiset(Flatten(b)) == multiset(fp) + (multiset(b[k]) + multiset(fq));
  }

  /** Flattening around group k. */
  lemma FlattenSplit<T>(b: seq<seq<T>>, k: nat)
    requires k < |b|
    ensures Flatten(b) == Flatten(b[..k]) + (b[k] + Flatten(b[k + 1..]))
  {
    var suffix := b[k..];
    assert b == b[..k] + suffix;
    FlattenAppend(b[..k], suffix);
    assert suffix[0] == b[k] && suffix[1..] == b[k + 1..];
    assert Flatten(suffix) == b[k] + Flatten(b[k + 1..]);
  }

  lemma RemoveAt<T>(b: seq<T>, k: nat)
    requires k < |b|
    ensures multiset(b) == multiset{b[k]} + multiset(b[..k] + b[k + 1..])
  {
    assert b == b[..k] + [b[k]] + b[k + 1..];
  }

  lemma MultisetCancel<T>(m1: multiset<T>, m2: multiset<T>, x: T)
    requires multiset{x} + m1 == multiset{x} + m2
    ensures m1 == m2
  {
    assert forall y :: m1[y] == (multiset{x} + m1)[y] - multiset{x}[y];
    assert forall y :: m2[y] == (multiset{x} + m2)[y] - multiset{x}[y];
  }

  /** Total length of a list of groups. */
  function SumLengths<T>(ss: seq<seq<T>>): nat
  {
    if |ss| == 0 then 0 else |ss[0]| + SumLengths(ss[1..])
  }

  lemma {:induction false} FlattenLength<T>(ss: seq<seq<T>>)
    ensures |Flatten(ss)| == SumLengths(ss)
  {
    if |ss| > 0 {
      FlattenLength(ss[1..]);
    }
  }

  lemma AppendAssoc<T>(a: seq<T>, b: seq<T>, c: seq<T>)
    ensures (a + b) + c == a + (b + c)
  {
  }

  /** The elements of s satisfying p, in order. */
  function Filter<T>(s: seq<T>, p: T -> bool): (r: seq<T>)
    ensures |r| <= |s|
    ensures forall x :: x in r ==> x in s && p(x)
    ensures forall x :: x in s && p(x) ==> x in r
  {
    if |s| == 0 then []
    else if p(s[0]) then [s[0]] + Filter(s[1..], p)
    else Filter(s[1..], p)
  }

  /** Filters that agree on every element select the same elements. */
  lemma {:induction false} FilterSame<T>(s: seq<T>, p: T -> bool, q: T -> bool)
    requires forall k :: 0 <= k < |s| ==> p(s[k]) == q(s[k])
    ensures Filter(s, p) == Filter(s, q)
  {
    if |s| > 0 {
      FilterSame(s[1..], p, q);
    }
  }

  /** Filtering the images by p is mapping the elements that q selects, when q is p after f. */
  lemma {:induction false} FilterMap<A, B>(xs: seq<A>, f: A -> B, p: B -> bool, q: A -> bool)
    requires forall k :: 0 <= k < |xs| ==> p(f(xs[k])) == q(xs[k])
    ensures Filter(Map(xs, f), p) == Map(Filter(xs, q), f)
  {
    if |xs| > 0 {
      var rest := Filter(xs[1..], q);
      assert Map(xs, f)[0] == f(xs[0]) && Map(xs, f)[1..] == Map(xs[1..], f);
      FilterMap(xs[1..], f, p, q);
      if q(xs[0]) {
        MapAppend([xs[0]], rest, f);
        assert Map([xs[0]], f) == [f(xs[0])];
      }
    }
  }

  /** Nothing passes the filter when no element satisfies it. */
  lemma {:induction false} FilterNone<T>(s: seq<T>, p: T -> bool)
    requires forall x :: x in s ==> !p(x)
    ensures Filter(s, p) == []
  {
    if |s| > 0 {
      assert s[0] in s;
      FilterNone(s[1..], p);
    }
  }

  lemma {:induction false} FilterAppend<T>(a: seq<T>, b: seq<T>, p: T -> bool)
    ensures Filter(a + b, p) == Filter(a, p) + Filter(b, p)
  {
    if |a| == 0 {
      assert a + b == b;
    } else {
      assert (a + b)[1..] == a[1..] + b;
      FilterAppend(a[1..], b, p);
    }
  }

  /** The number of elements of s satisfying p. */
  function CountWhere<T>(s: seq<T>, p: T -> bool): nat
  {
    if |s| == 0 then 0 else (if p(s[0]) then 1 else 0) + CountWhere(s[1..], p)
  }

  lemma {:induction false} CountWhereAppend<T>(a: seq<T>, b: seq<T>, p: T -> bool)
    ensures CountWhere(a + b, p) == CountWhere(a, p) + CountWhere(b, p)
  {
    if |a| == 0 {
      assert a + b == b;
    } else {
      assert (a + b)[1..] == a[1..] + b;
      CountWhereAppend(a[1..], b, p);
    }
  }

  /** s backwards. */
  function Reverse<T>(s: seq<T>): (r: seq<T>)
    ensures |r| == |s|
    ensures forall i :: 0 <= i < |s| ==> r[i] == s[|s| - 1 - i]
  {
    seq(|s|, i requires 0 <= i < |s| => s[|s| - 1 - i])
  }

  /** Reversing does not change how many elements pass a test. */
  lemma {:induction false} CountWhereReverse<T>(s: seq<T>, p: T -> bool)
    ensures CountWhere(Reverse(s), p) == CountWhere(s, p)
  {
    if |s| > 0 {
      CountWhereReverse(s[1..], p);
      assert Reverse(s) == Reverse(s[1..]) + [s[0]];
      CountWhereAppend(Reverse(s[1..]), [s[0]], p);
      assert CountWhere([s[0]], p) == (if p(s[0]) then 1 else 0) by {
        assert [s[0]][1..] == [];
      }
    }
  }

  lemma {:induction false} CountIsFilterLength<T>(s: seq<T>, p: T -> bool)
    ensures CountWhere(s, p) == |Filter(s, p)|
  {
    if |s| > 0 {
      CountIsFilterLength(s[1..], p);
    }
  }

  /**
   * Interleave(mask, a, b) takes the next element of a where mask is true
   * and the next element of b where it is false: the inverse of splitting a
   * sequence into the elements that pass a test and those that fail it.
   */
  function Interleave<T>(mask: seq<bool>, a: seq<T>, b: seq<T>): seq<T>
  {
    if |mask| == 0 then []
    else if mask[0] then (if |a| == 0 then [] else [a[0]] + Interleave(mask[1..], a[1..], b))
    else (if |b| == 0 then [] else [b[0]] + Interleave(mask[1..], a, b[1..]))
  }

  /** The outcome of a test on every element. */
  function Outcomes<T>(s: seq<T>, p: T -> bool): (mask: seq<bool>)
    ensures |mask| == |s|
    ensures forall i :: 0 <= i < |s| ==> mask[i] == p(s[i])
  {
    if |s| == 0 then [] else [p(s[0])] + Outcomes(s[1..], p)
  }

  /** Splitting by a test and its negation and interleaving back gives the original sequence. */
  lemma {:induction false} FilterPartitionRoundTrip<T>(s: seq<T>, p: T -> bool, q: T -> bool)
    requires forall x :: q(x) <==> !p(x)
    ensures Interleave(Outcomes(s, p), Filter(s, p), Filter(s, q)) == s
  {
    if |s| > 0 {
      FilterPartitionRoundTrip(s[1..], p, q);
    }
  }

  /** The elements passing a test and those failing it together make up the sequence. */
  lemma {:induction false} FilterPartitionMultiset<T>(s: seq<T>, p: T -> bool, q: T -> bool)
    requires forall x :: q(x) <==> !p(x)
    ensures multiset(Filter(s, p)) + multiset(Filter(s, q)) == multiset(s)
  {
    if |s| > 0 {
      FilterPartitionMultiset(s[1..], p, q);
      assert s == [s[0]] + s[1..];
    }
  }

  /** Every element of every group shows up in the flattened sequence. */
  lemma {:induction false} FlattenMember<T>(ss: seq<seq<T>>, k: nat, j: nat)
    requires k < |ss| && j < |ss[k]|
    ensures ss[k][j] in Flatten(ss)
  {
    if k > 0 {
      FlattenMember(ss[1..], k - 1, j);
    }
  }

  /** Position i of Flatten(ss) is element j of ss[k] for some k and j. */
  lemma {:induction false} FlattenLocate<T>(ss: seq<seq<T>>, i: nat) returns (k: nat, j: nat)
    requires i < |Flatten(ss)|
    ensures k < |ss| && j < |ss[k]| && ss[k][j] == Flatten(ss)[i]
  {
    if i < |ss[0]| {
      k, j := 0, i;
    } else {
      var k', j' := FlattenLocate(ss[1..], i - |ss[0]|);
      k, j := k' + 1, j';
    }
  }

  /** Each position 0 .. n-1 on its own. */
  function Singletons(n: nat): (r: seq<seq<nat>>)
    ensures |r| == n
    ensures forall k :: 0 <= k < n ==> r[k] == [k]
  {
    seq(n, k requires 0 <= k < n => [k])
  }

  lemma {:induction false} FlattenSingletons(n: nat)
    ensures Flatten(Singletons(n)) == Range(n)
  {
    if n > 0 {
      var front := Singletons(n - 1);
      var last: seq<seq<nat>> := [[n - 1]];
      FlattenSingletons(n - 1);
      assert Singletons(n) == front + last;
      FlattenAppend(front, last);
      assert Flatten(last) == [n - 1] + Flatten(last[1..]);
    }
  }

  /** s with the element at q removed and the element at p replaced by x. */
  function MergeAt<T>(s: seq<T>, p: nat, q: nat, x: T): (r: seq<T>)
    requires p < q < |s|
    ensures |r| == |s| - 1
    ensures r[p] == x
    ensures forall k :: 0 <= k < q && k != p ==> r[k] == s[k]
    ensures forall k :: q <= k < |r| ==> r[k] == s[k + 1]
  {
    s[..q][p := x] + s[q + 1..]
  }

  lemma FlattenCons<T>(x: seq<T>, ss: seq<seq<T>>)
    ensures Flatten([x] + ss) == x + Flatten(ss)
  {
    assert ([x] + ss)[1..] == ss;
  }

  /** s cut around positions p < q. */
  lemma SplitAround<T>(s: seq<T>, p: nat, q: nat)
    requires p < q < |s|
    ensures s == s[..p] + ([s[p]] + (s[p + 1..q] + ([s[q]] + s[q + 1..])))
  {
    assert s[q..] == [s[q]] + s[q + 1..];
    assert s[p + 1..] == s[p + 1..q] + s[q..];
    assert s[p..] == [s[p]] + s[p + 1..];
    assert s == s[..p] + s[p..];
  }

  lemma MergeAtShape<T>(s: seq<T>, p: nat, q: nat, x: T)
    requires p < q < |s|
    ensures MergeAt(s, p, q, x) == s[..p] + ([x] + (s[p + 1..q] + s[q + 1..]))
  {
    var r := MergeAt(s, p, q, x);
    var t := s[..p] + ([x] + (s[p + 1..q] + s[q + 1..]));
    assert |r| == |t|;
    forall k | 0 <= k < |r|
      ensures r[k] == t[k]
    {
      if k < p {
      } else if k == p {
      } else if k < q {
        assert t[k] == s[p + 1..q][k - p - 1];
      } else {
        assert t[k] == s[q + 1..][k - q];
      }
    }
  }

  /** Appending group q to group p and dropping q keeps the same elements. */
  lemma FlattenMerge<T>(ss: seq<seq<T>>, p: nat, q: nat)
    requires p < q < |ss|
    ensures multiset(Flatten(MergeAt(ss, p, q, ss[p] + ss[q]))) == multiset(Flatten(ss))
  {
    var a, b := ss[p], ss[q];
    var front, mid, back := ss[..p], ss[p + 1..q], ss[q + 1..];
    var tail := [b] + back;
    SplitAround(ss, p, q);
    var m := MergeAt(ss, p, q, a + b);
    MergeAtShape(ss, p, q, a + b);
    var ff, fm, fb := Flatten(front), Flatten(mid), Flatten(back);
    assert Flatten(ss) == ff + (a + (fm + (b + fb))) by {
      FlattenAppend(front, [a] + (mid + tail));
      FlattenCons(a, mid + tail);
      FlattenAppend(mid, tail);
      FlattenCons(b, back);
    }
    assert Flatten(m) == ff + ((a + b) + (fm + fb)) by {
      FlattenAppend(front, [a + b] + (mid + back));
      FlattenCons(a + b, mid + back);
      FlattenAppend(mid, back);
    }
  }

  /** Every index in idx is below n. */
  predicate IndicesIn(idx: seq<nat>, n: nat)
  {
    forall k :: 0 <= k < |idx| ==> idx[k] < n
  }

  /** Every index in every group is below n. */
  predicate AllIndicesIn(gs: seq<seq<nat>>, n: nat)
  {
    forall k :: 0 <= k < |gs| ==> IndicesIn(gs[k], n)
  }

  lemma {:induction false} FlattenIndicesIn(gs: seq<seq<nat>>, n: nat)
    requires AllIndicesIn(gs, n)
    ensures IndicesIn(Flatten(gs), n)
  {
    if |gs| > 0 {
      FlattenIndicesIn(gs[1..], n);
    }
  }

  /** The elements of s at the positions idx, in the order of idx. */
  function Pick<T>(s: seq<T>, idx: seq<nat>): (r: seq<T>)
    requires IndicesIn(idx, |s|)
    ensures |r| == |idx|
    ensures forall k :: 0 <= k < |idx| ==> r[k] == s[idx[k]]
  {
    seq(|idx|, k requires 0 <= k < |idx| => s[idx[k]])
  }

  /** Pick applied to each group. */
  function PickEach<T>(s: seq<T>, gs: seq<seq<nat>>): (r: seq<seq<T>>)
    requires AllIndicesIn(gs, |s|)
    ensures |r| == |gs|
    ensures forall k :: 0 <= k < |gs| ==> r[k] == Pick(s, gs[k])
  {
    seq(|gs|, k requires 0 <= k < |gs| => Pick(s, gs[k]))
  }

  /** The positions 0 .. n-1 in order. */
  function Range(n: nat): (r: seq<nat>)
    ensures |r| == n
    ensures forall k :: 0 <= k < n ==> r[k] == k
  {
    seq(n, k requires 0 <= k < n => k)
  }

  lemma PickRange<T>(s: seq<T>)
    ensures Pick(s, Range(|s|)) == s
  {
  }

  /** Picking by the groups one at a time or by their concatenation gives the same sequence. */
  lemma {:induction false} PickFlatten<T>(s: seq<T>, gs: seq<seq<nat>>)
    requires AllIndicesIn(gs, |s|)
    ensures IndicesIn(Flatten(gs), |s|)
    ensures Flatten(PickEach(s, gs)) == Pick(s, Flatten(gs))
  {
    FlattenIndicesIn(gs, |s|);
    if |gs| > 0 {
      PickFlatten(s, gs[1..]);
      assert PickEach(s, gs)[1..] == PickEach(s, gs[1..]);
      assert Flatten(gs) == gs[0] + Flatten(gs[1..]);
    }
  }

  lemma PickAppend<T>(s: seq<T>, a: seq<nat>, b: seq<nat>)
    requires IndicesIn(a, |s|) && IndicesIn(b, |s|)
    ensures IndicesIn(a + b, |s|)
    ensures Pick(s, a + b) == Pick(s, a) + Pick(s, b)
  {
  }

  /** Picking by b, split at position k. */
  lemma PickRemove<T>(s: seq<T>, b: seq<nat>, k: nat)
    requires IndicesIn(b, |s|) && k < |b|
    ensures IndicesIn(b[..k] + b[k + 1..], |s|)
    ensures multiset(Pick(s, b)) == multiset{s[b[k]]} + multiset(Pick(s, b[..k] + b[k + 1..]))
  {
    var pre, post := b[..k], b[k + 1..];
    assert b == pre + ([b[k]] + post);
    PickAppend(s, pre, [b[k]] + post);
    PickAppend(s, [b[k]], post);
    PickAppend(s, pre, post);
    var pp, pq := Pick(s, pre), Pick(s, post);
    assert Pick(s, [b[k]]) == [s[b[k]]];
    assert Pick(s, b) == pp + ([s[b[k]]] + pq);
    assert multiset(Pick(s, b)) == multiset(pp) + (multiset{s[b[k]]} + multiset(pq));
  }

  lemma PickCons<T>(s: seq<T>, a: seq<nat>)
    requires IndicesIn(a, |s|) && |a| > 0
    ensures IndicesIn(a[1..], |s|)
    ensures multiset(Pick(s, a)) == multiset{s[a[0]]} + multiset(Pick(s, a[1..]))
  {
    assert Pick(s, a) == [s[a[0]]] + Pick(s, a[1..]);
  }

  /** A position at which a member of the sequence occurs. */
  lemma PositionOf<T>(b: seq<T>, x: T) returns (k: nat)
    requires x in multiset(b)
    ensures k < |b| && b[k] == x
  {
    k :| 0 <= k < |b| && b[k] == x;
  }

  /** Picking by a permutation of the positions permutes the result. */
  lemma {:induction false} PickPermutation<T>(s: seq<T>, a: seq<nat>, b: seq<nat>)
    requires IndicesIn(a, |s|) && IndicesIn(b, |s|)
    requires multiset(a) == multiset(b)
    ensures multiset(Pick(s, a)) == multiset(Pick(s, b))
    decreases |a|
  {
    if |a| == 0 {
      assert |b| == |multiset(b)| == 0;
      assert Pick(s, a) == [] == Pick(s, b);
    } else {
      var x := a[0];
      var k := PositionOf(b, x);
      var tail, rest := a[1..], b[..k] + b[k + 1..];
      RemoveAt(b, k);
      assert a == [x] + tail;
      MultisetCancel(multiset(tail), multiset(rest), x);
      PickRemove(s, b, k);
      PickCons(s, a);
      PickPermutation(s, tail, rest);
    }
  }

  /** The least element of a non-empty sequence. */
  function MinOf(s: seq<int>): (r: int)
    requires |s| > 0
    ensures r in s
    ensures forall k :: 0 <= k < |s| ==> r <= s[k]
  {
    if |s| == 1 then s[0]
    else
      var m := MinOf(s[1..]);
      if s[0] <= m then s[0] else m
  }

  /** The greatest element of a non-empty sequence. */
  function MaxOf(s: seq<int>): (r: int)
    requires |s| > 0
    ensures r in s
    ensures forall k :: 0 <= k < |s| ==> s[k] <= r
  {
    if |s| == 1 then s[0]
    else
      var m := MaxOf(s[1..]);
      if s[0] >= m then s[0] else m
  }

  /** f applied to every element. */
  function Map<A, B>(s: seq<A>, f: A -> B): (r: seq<B>)
    ensures |r| == |s|
    ensures forall k :: 0 <= k < |s| ==> r[k] == f(s[k])
  {
    seq(|s|, k requires 0 <= k < |s| => f(s[k]))
  }

  lemma MapAppend<A, B>(a: seq<A>, b: seq<A>, f: A -> B)
    ensures Map(a + b, f) == Map(a, f) + Map(b, f)
  {
  }

  lemma MapCons<A, B>(s: seq<A>, f: A -> B)
    requires |s| > 0
    ensures multiset(Map(s, f)) == multiset{f(s[0])} + multiset(Map(s[1..], f))
  {
    assert Map(s, f) == [f(s[0])] + Map(s[1..], f);
  }

  lemma MapRemove<A, B>(s: seq<A>, f: A -> B, k: nat)
    requires k < |s|
    ensures multiset(Map(s, f)) == multiset{f(s[k])} + multiset(Map(s[..k] + s[k + 1..], f))
  {
    var pre, post := s[..k], s[k + 1..];
    assert s == pre + ([s[k]] + post);
    MapAppend(pre, [s[k]] + post, f);
    MapAppend([s[k]], post, f);
    MapAppend(pre, post, f);
    var mp, mq := Map(pre, f), Map(post, f);
    assert Map([s[k]], f) == [f(s[k])];
    assert Map(s, f) == mp + ([f(s[k])] + mq);
    assert multiset(Map(s, f)) == multiset(mp) + (multiset{f(s[k])} + multiset(mq));
  }

  /** Mapping a permutation gives a permutation. */
  lemma {:induction false} MapPermutation<A, B>(a: seq<A>, b: seq<A>, f: A -> B)
    requires multiset(a) == multiset(b)
    ensures multiset(Map(a, f)) == multiset(Map(b, f))
    decreases |a|
  {
    if |a| == 0 {
      assert |b| == |multiset(b)| == 0;
      assert Map(a, f) == [] == Map(b, f);
    } else {
      var x := a[0];
      var k := PositionOf(b, x);
      var tail, rest := a[1..], b[..k] + b[k + 1..];
      RemoveAt(b, k);
      assert a == [x] + tail;
      MultisetCancel(multiset(tail), multiset(rest), x);
      MapRemove(b, f, k);
      MapCons(a, f);
      MapPermutation(tail, rest, f);
    }
  }

  /** The values of the present options, in order. */
  function Somes<T>(s: seq<Option<T>>): (r: seq<T>)
    ensures |r| <= |s|
    ensures forall k :: 0 <= k < |r| ==> Some(r[k]) in s
    ensures forall k :: 0 <= k < |s| && s[k].Some? ==> s[k].value in r
  {
    if |s| == 0 then []
    else
      var rest := Somes(s[1..]);
      assert forall k :: 1 <= k < |s| ==> s[k] == s[1..][k - 1];
      match s[0]
      case Some(x) => [x] + rest
      case None => rest
  }

  /** Permuting inside each group permutes the flattened sequence. */
  lemma {:induction false} FlattenEachPermuted<T>(a: seq<seq<T>>, b: seq<seq<T>>)
    requires |a| == |b|
    requires forall k :: 0 <= k < |a| ==> multiset(a[k]) == multiset(b[k])
    ensures multiset(Flatten(a)) == multiset(Flatten(b))
  {
    if |a| > 0 {
      FlattenEachPermuted(a[1..], b[1..]);
    }
  }
}

=== FILE: sorting.dfy ===
/**
 * Python's `sorted(..., key=...)` and `list.sort(key=...)`: a stable sort by
 * a total preorder. The model is an insertion sort; its contract is the
 * independent description of a stable sort (a sorted permutation that keeps
 * the input order of elements with equal keys).
 */
module Sorting {
  import opened Seqs

  /** le is total and transitive: the order induced by comparing sort keys. */
  ghost predicate TotalPreorder<T(!new)>(le: (T, T) -> bool)
  {
    (forall a, b :: le(a, b) || le(b, a)) &&
    (forall a, b, c :: le(a, b) && le(b, c) ==> le(a, c))
  }

  predicate Sorted<T>(s: seq<T>, le: (T, T) -> bool)
  {
    forall i, j :: 0 <= i < j < |s| ==> le(s[i], s[j])
  }

  /** The elements of s whose key equals the key of y, in order. */
  function Ties<T>(s: seq<T>, y: T, le: (T, T) -> bool): seq<T>
  {
    Filter(s, e => le(e, y) && le(y, e))
  }

  /** The tie class of y is the filter by any test that picks the same elements. */
  lemma TiesFilter<T>(s: seq<T>, y: T, le: (T, T) -> bool, q: T -> bool)
    requires forall k :: 0 <= k < |s| ==> (le(s[k], y) && le(y, s[k])) == q(s[k])
    ensures Ties(s, y, le) == Filter(s, q)
  {
    FilterSame(s, e => le(e, y) && le(y, e), q);
  }

  /** Insert x before the first element it does not follow. */
  function Insert<T>(x: T, s: seq<T>, le: (T, T) -> bool): (r: seq<T>)
    ensures multiset(r) == multiset(s) + multiset{x}
    ensures |r| == |s| + 1
  {
    if |s| == 0 then [x]
    else if le(x, s[0]) then [x] + s
    else
      var t := Insert(x, s[1..], le);
      assert s == [s[0]] + s[1..];
      [s[0]] + t
  }

  function Sort<T>(s: seq<T>, le: (T, T) -> bool): (r: seq<T>)
    ensures multiset(r) == multiset(s)
    ensures |r| == |s|
  {
    if |s| == 0 then []
    else
      assert s == [s[0]] + s[1..];
      Insert(s[0], Sort(s[1..], le), le)
  }

  /** Sorting two elements the order puts the wrong way round swaps them. */
  lemma SortSwapsPair<T>(a: T, b: T, le: (T, T) -> bool)
    requires !le(a, b)
    ensures Sort([a, b], le) == [b, a]
  {
    assert [a, b][1..] == [b];
    assert [b][1..] == [];
    assert Sort([b], le) == [b];
    assert Insert(a, [], le) == [a];
  }

  lemma {:induction false} InsertSorted<T(!new)>(x: T, s: seq<T>, le: (T, T) -> bool)
    requires TotalPreorder(le)
    requires Sorted(s, le)
    ensures Sorted(Insert(x, s, le), le)
    decreases |s|
  {
    if |s| > 0 && !le(x, s[0]) {
      var t := Insert(x, s[1..], le);
      InsertSorted(x, s[1..], le);
      assert le(s[0], x);
      forall e | e in multiset(t)
        ensures le(s[0], e)
      {
        if e != x {
          assert e in multiset(s[1..]);
        }
      }
      forall i, j | 0 <= i < j < |[s[0]] + t|
        ensures le(([s[0]] + t)[i], ([s[0]] + t)[j])
      {
        if i == 0 {
          assert t[j - 1] in multiset(t);
        }
      }
    }
  }

  /** Inserting x adds x to its own tie class and leaves every other class alone. */
  lemma {:induction false} InsertTies<T(!new)>(x: T, s: seq<T>, y: T, le: (T, T) -> bool)
    requires TotalPreorder(le)
    ensures Ties(Insert(x, s, le), y, le) ==
            (if le(x, y) && le(y, x) then [x] + Ties(s, y, le) else Ties(s, y, le))
    decreases |s|
  {
    if |s| == 0 {
    } else if le(x, s[0]) {
      assert [x] + s == [x] + ([s[0]] + s[1..]);
    } else {
      InsertTies(x, s[1..], y, le);
      assert Insert(x, s, le) == [s[0]] + Insert(x, s[1..], le);
      if le(x, y) && le(y, x) {
        // s[0] lies strictly before x, so it cannot tie with y
        assert !(le(s[0], y) && le(y, s[0]));
      }
    }
  }

  /** Sort yields a sorted permutation of its input. */
  lemma {:induction false} SortSorted<T(!new)>(s: seq<T>, le: (T, T) -> bool)
    requires TotalPreorder(le)
    ensures Sorted(Sort(s, le), le)
  {
    if |s| > 0 {
      SortSorted(s[1..], le);
      InsertSorted(s[0], Sort(s[1..], le), le);
    }
  }

  /** Sort is stable: the elements of each tie class keep their input order. */
  lemma {:induction false} SortStable<T(!new)>(s: seq<T>, y: T, le: (T, T) -> bool)
    requires TotalPreorder(le)
    ensures Ties(Sort(s, le), y, le) == Ties(s, y, le)
  {
    if |s| > 0 {
      SortStable(s[1..], y, le);
      InsertTies(s[0], Sort(s[1..], le), y, le);
      assert s == [s[0]] + s[1..];
      FilterAppend([s[0]], s[1..], e => le(e, y) && le(y, e));
    }
  }

  /** Lexicographic order on integer pairs, the order of Python's tuple keys. */
  predicate LexLe(a: (int, int), b: (int, int))
  {
    a.0 < b.0 || (a.0 == b.0 && a.1 <= b.1)
  }

  /** Comparing elements by a lexicographic pair key is a total preorder. */
  lemma LexKeyPreorder<T(!new)>(key: T -> (int, int))
    ensures TotalPreorder((a: T, b: T) => LexLe(key(a), key(b)))
  {
  }

  /** Comparing elements by an exact rational key is a total preorder. */
  lemma RealKeyPreorder<T(!new)>(key: T -> real)
    ensures TotalPreorder((a: T, b: T) => key(a) <= key(b))
  {
  }

  /** Comparing elements by an integer key is a total preorder. */
  lemma IntKeyPreorder<T(!new)>(key: T -> int)
    ensures TotalPreorder((a: T, b: T) => key(a) <= key(b))
  {
  }

  /** rel holds between the elements at any two distinct positions. */
  ghost predicate Pairwise<T>(s: seq<T>, rel: (T, T) -> bool)
  {
    forall i, j :: 0 <= i < |s| && 0 <= j < |s| && i != j ==> rel(s[i], s[j])
  }

  lemma ConsPairwise<T>(y: T, t: seq<T>, rel: (T, T) -> bool)
    requires Pairwise(t, rel)
    requires forall k :: 0 <= k < |t| ==> rel(y, t[k]) && rel(t[k], y)
    ensures Pairwise([y] + t, rel)
  {
    var r := [y] + t;
    forall i, j | 0 <= i < |r| && 0 <= j < |r| && i != j
      ensures rel(r[i], r[j])
    {
      if i > 0 {
        assert r[i] == t[i - 1];
      }
      if j > 0 {
        assert r[j] == t[j - 1];
      }
    }
  }

  lemma PairwiseTail<T>(s: seq<T>, rel: (T, T) -> bool)
    requires |s| > 0 && Pairwise(s, rel)
    ensures Pairwise(s[1..], rel)
    ensures forall k :: 0 <= k < |s| - 1 ==> rel(s[0], s[1..][k]) && rel(s[1..][k], s[0])
  {
    var tail := s[1..];
    forall i, j | 0 <= i < |tail| && 0 <= j < |tail| && i != j
      ensures rel(tail[i], tail[j])
    {
      assert tail[i] == s[i + 1] && tail[j] == s[j + 1];
    }
    forall k | 0 <= k < |tail|
      ensures rel(s[0], tail[k]) && rel(tail[k], s[0])
    {
      assert tail[k] == s[k + 1];
    }
  }

  /** An element related both ways to every element of t is related to every element of a permutation of t. */
  lemma RelatedToPermutation<T>(y: T, t: seq<T>, u: seq<T>, rel: (T, T) -> bool)
    requires multiset(u) <= multiset(t)
    requires forall k :: 0 <= k < |t| ==> rel(y, t[k]) && rel(t[k], y)
    ensures forall k :: 0 <= k < |u| ==> rel(y, u[k]) && rel(u[k], y)
  {
    forall k | 0 <= k < |u|
      ensures rel(y, u[k]) && rel(u[k], y)
    {
      assert u[k] in multiset(t);
      var i :| 0 <= i < |t| && t[i] == u[k];
    }
  }

  lemma {:induction false} InsertPairwise<T>(x: T, s: seq<T>, le: (T, T) -> bool, rel: (T, T) -> bool)
    requires Pairwise(s, rel)
    requires forall k :: 0 <= k < |s| ==> rel(x, s[k]) && rel(s[k], x)
    ensures Pairwise(Insert(x, s, le), rel)
    decreases |s|
  {
    if |s| == 0 {
      ConsPairwise(x, [], rel);
    } else if le(x, s[0]) {
      ConsPairwise(x, s, rel);
    } else {
      var tail := s[1..];
      PairwiseTail(s, rel);
      assert forall k :: 0 <= k < |tail| ==> rel(x, tail[k]) && rel(tail[k], x);
      InsertPairwise(x, tail, le, rel);
      var t := Insert(x, tail, le);
      assert forall k :: 0 <= k < |[x] + tail| ==> rel(s[0], ([x] + tail)[k]) && rel(([x] + tail)[k], s[0]);
      assert multiset(t) == multiset([x] + tail);
      RelatedToPermutation(s[0], [x] + tail, t, rel);
      ConsPairwise(s[0], t, rel);
    }
  }

  /** A relation between elements at distinct positions survives sorting. */
  lemma {:induction false} SortPairwise<T>(s: seq<T>, le: (T, T) -> bool, rel: (T, T) -> bool)
    requires Pairwise(s, rel)
    ensures Pairwise(Sort(s, le), rel)
  {
    if |s| > 0 {
      var tail := s[1..];
      PairwiseTail(s, rel);
      SortPairwise(tail, le, rel);
      RelatedToPermutation(s[0], tail, Sort(tail, le), rel);
      InsertPairwise(s[0], Sort(tail, le), le, rel);
    }
  }
}

=== FILE: text.dfy ===
/**
 * The Python string operations the scripts rely on: `in`, `str.find`,
 * `str.replace`, `str.endswith`, ASCII `str.lower`, and the `{n:02d}`
 * number format.
 */
module Text {

  /** pat occurs in s at index i. */
  predicate At(s: string, pat: string, i: int)
  {
    0 <= i && i + |pat| <= |s| && s[i..i + |pat|] == pat
  }

  /** Python's `pat in s`. */
  predicate Contains(s: string, pat: string)
  {
    exists i :: 0 <= i <= |s| && At(s, pat, i)
  }

  function EndsWith(s: string, suffix: string): (b: bool)
    ensures b <==> At(s, suffix, |s| - |suffix|)
  {
    |suffix| <= |s| && s[|s| - |suffix|..] == suffix
  }

  /** A suffix of t is a suffix of anything ending in t. */
  lemma EndsWithPrepend(x: string, t: string, suffix: string)
    requires EndsWith(t, suffix)
    ensures EndsWith(x + t, suffix)
  {
    assert (x + t)[|x + t| - |suffix|..] == t[|t| - |suffix|..];
  }

  /** Python's `s.find(pat, start)`: the lowest index >= start where pat occurs, or -1. */
  function Find(s: string, pat: string, start: nat): (r: int)
    ensures r == -1 <==> forall j :: start <= j ==> !At(s, pat, j)
    ensures r != -1 ==> start <= r && At(s, pat, r)
    ensures r != -1 ==> forall j :: start <= j < r ==> !At(s, pat, j)
    decreases |s| - start
  {
    if start + |pat| > |s| then -1
    else if s[start..start + |pat|] == pat then
      assert At(s, pat, start);
      start
    else Find(s, pat, start + 1)
  }

  /**
   * Python's `s.replace(pat, rep)`: every leftmost, non-overlapping
   * occurrence of pat replaced by rep.
   */
  function ReplaceAll(s: string, pat: string, rep: string): string
    requires |pat| > 0
  {
    if |s| < |pat| then s
    else if s[..|pat|] == pat then rep + ReplaceAll(s[|pat|..], pat, rep)
    else [s[0]] + ReplaceAll(s[1..], pat, rep)
  }

  /** The pieces between the leftmost, non-overlapping occurrences of sep. */
  function Split(s: string, sep: string): (ps: seq<string>)
    requires |sep| > 0
    ensures |ps| > 0
  {
    if |s| < |sep| then [s]
    else if s[..|sep|] == sep then [""] + Split(s[|sep|..], sep)
    else
      var rest := Split(s[1..], sep);
      [[s[0]] + rest[0]] + rest[1..]
  }

  /** The pieces of ps separated by sep. */
  function Join(ps: seq<string>, sep: string): string
    requires |ps| > 0
  {
    if |ps| == 1 then ps[0] else ps[0] + sep + Join(ps[1..], sep)
  }

  lemma {:induction false} JoinPrepend(c: char, ps: seq<string>, sep: string)
    requires |ps| > 0
    ensures Join([[c] + ps[0]] + ps[1..], sep) == [c] + Join(ps, sep)
  {
    var qs := [[c] + ps[0]] + ps[1..];
    if |ps| > 1 {
      assert qs[1..] == ps[1..];
    }
  }

  /** Splitting and joining back with the same separator gives the input. */
  lemma {:induction false} SplitJoin(s: string, sep: string)
    requires |sep| > 0
    ensures Join(Split(s, sep), sep) == s
    decreases |s|
  {
    if |s| < |sep| {
    } else if s[..|sep|] == sep {
      var tail := s[|sep|..];
      SplitJoin(tail, sep);
      JoinEmptyFirst(Split(tail, sep), sep);
      assert s == sep + tail;
    } else {
      SplitJoin(s[1..], sep);
      JoinPrepend(s[0], Split(s[1..], sep), sep);
      assert s == [s[0]] + s[1..];
    }
  }

  lemma JoinEmptyFirst(rest: seq<string>, sep: string)
    requires |rest| > 0
    ensures Join([""] + rest, sep) == sep + Join(rest, sep)
  {
    assert ([""] + rest)[1..] == rest;
  }

  /**
   * Replacing is splitting at the pat text and joining with the rep: the
   * text between occurrences is carried over unchanged and in order.
   */
  lemma {:induction false} ReplaceIsSplitJoin(s: string, pat: string, rep: string)
    requires |pat| > 0
    ensures ReplaceAll(s, pat, rep) == Join(Split(s, pat), rep)
    decreases |s|
  {
    if |s| < |pat| {
    } else if s[..|pat|] == pat {
      ReplaceIsSplitJoin(s[|pat|..], pat, rep);
      JoinEmptyFirst(Split(s[|pat|..], pat), rep);
    } else {
      ReplaceIsSplitJoin(s[1..], pat, rep);
      JoinPrepend(s[0], Split(s[1..], pat), rep);
    }
  }

  /** With no occurrence of pat, replacing changes nothing. */
  lemma {:induction false} ReplaceAbsent(s: string, pat: string, rep: string)
    requires |pat| > 0 && !Contains(s, pat)
    ensures ReplaceAll(s, pat, rep) == s
    decreases |s|
  {
    if |s| >= |pat| {
      assert !At(s, pat, 0);
      forall i | At(s[1..], pat, i)
        ensures false
      {
        assert s[1..][i..i + |pat|] == s[i + 1..i + 1 + |pat|];
        assert At(s, pat, i + 1);
      }
      ReplaceAbsent(s[1..], pat, rep);
    }
  }

  /** Every character of the result comes from s or from rep. */
  lemma {:induction false} ReplaceChars(s: string, pat: string, rep: string)
    requires |pat| > 0
    ensures forall c :: c in ReplaceAll(s, pat, rep) ==> c in s || c in rep
    decreases |s|
  {
    if |s| >= |pat| {
      if s[..|pat|] == pat {
        ReplaceChars(s[|pat|..], pat, rep);
      } else {
        ReplaceChars(s[1..], pat, rep);
      }
    }
  }

  /** Replacing a single character by text without it removes every copy of it. */
  lemma {:induction false} ReplaceRemovesChar(s: string, c: char, rep: string)
    requires c !in rep
    ensures c !in ReplaceAll(s, [c], rep)
    decreases |s|
  {
    if |s| >= 1 {
      if s[..1] == [c] {
        ReplaceRemovesChar(s[1..], c, rep);
      } else {
        assert s[0] != c;
        ReplaceRemovesChar(s[1..], c, rep);
      }
    }
  }

  /**
   * Conditions under which writing rep into a text can never produce an
   * occurrence of p that overlaps the written copy: neither contains the
   * other, no suffix of p starts rep, and no prefix of p ends rep.
   */
  ghost predicate Compatible(p: string, rep: string)
  {
    !Contains(p, rep) && !Contains(rep, p) &&
    (forall l :: 0 < l < |p| && l <= |rep| ==> p[|p| - l..] != rep[..l]) &&
    (forall l :: 0 < l < |p| && l <= |rep| ==> p[..l] != rep[|rep| - l..])
  }

  /** An occurrence in a suffix of s is an occurrence in s. */
  lemma AtInSuffix(s: string, k: nat, p: string, i: int)
    requires k <= |s| && At(s[k..], p, i)
    ensures At(s, p, k + i)
  {
    assert s[k..][i..i + |p|] == s[k + i..k + i + |p|];
  }

  /** An occurrence in a + b that starts after a is an occurrence in b. */
  lemma AtAfterPrefix(a: string, b: string, p: string, i: int)
    requires i >= |a|
    ensures At(a + b, p, i) ==> At(b, p, i - |a|)
  {
    if At(a + b, p, i) {
      assert (a + b)[i..i + |p|] == b[i - |a|..i - |a| + |p|];
    }
  }

  lemma NotInSuffix(s: string, k: nat, p: string)
    requires k <= |s| && !Contains(s, p)
    ensures !Contains(s[k..], p)
  {
    forall i | 0 <= i <= |s[k..]| && At(s[k..], p, i)
      ensures false
    {
      AtInSuffix(s, k, p, i);
    }
  }

  /** An occurrence in a + b that ends inside a is an occurrence in a. */
  lemma AtInPrefix(a: string, b: string, p: string, i: int)
    requires 0 <= i && i + |p| <= |a|
    ensures At(a + b, p, i) ==> At(a, p, i)
  {
    assert (a + b)[i..i + |p|] == a[i..i + |p|];
  }

  /** An occurrence in rep + r1 that straddles the end of rep starts with the tail of rep. */
  lemma FrontOverlap(rep: string, r1: string, p: string, i: int)
    requires 0 <= i < |rep| < i + |p|
    ensures At(rep + r1, p, i) ==> p[..|rep| - i] == rep[i..]
  {
    if At(rep + r1, p, i) {
      assert p[..|rep| - i] == (rep + r1)[i..|rep|];
    }
  }

  lemma SuffixMeetsFront(rep: string, r1: string, p: string, k: nat)
    requires k <= |p| && At(rep + r1, p[k..], 0)
    ensures |p| - k <= |rep| ==> p[|p| - (|p| - k)..] == rep[..|p| - k]
    ensures |p| - k > |rep| ==> At(p, rep, k)
  {
    var u := p[k..];
    if |u| <= |rep| {
      assert u == (rep + r1)[..|u|] == rep[..|u|];
    } else {
      assert p[k..k + |rep|] == u[..|rep|] == (rep + r1)[..|rep|] == rep;
    }
  }

  /** Writing rep in front of a text without p creates no p, for compatible p and rep. */
  lemma PrefixCreatesNone(rep: string, r1: string, p: string)
    requires |p| > 0 && Compatible(p, rep) && !Contains(r1, p)
    ensures !Contains(rep + r1, p)
  {
    var r := rep + r1;
    forall i | 0 <= i <= |r|
      ensures !At(r, p, i)
    {
      if i >= |rep| {
        AtAfterPrefix(rep, r1, p, i);
      } else if i + |p| <= |rep| {
        AtInPrefix(rep, r1, p, i);
      } else {
        FrontOverlap(rep, r1, p, i);
        assert rep[i..] == rep[|rep| - (|rep| - i)..];
      }
    }
  }

  /** If the result starts with a proper suffix of p, so did the input. */
  lemma {:induction false} ReplaceKeepsSuffixPrefix(t: string, pat: string, rep: string, p: string, k: nat)
    requires |pat| > 0 && Compatible(p, rep)
    requires 1 <= k < |p|
    requires At(ReplaceAll(t, pat, rep), p[k..], 0)
    ensures At(t, p[k..], 0)
    decreases |t|
  {
    var u := p[k..];
    var r := ReplaceAll(t, pat, rep);
    if |t| < |pat| {
    } else if t[..|pat|] == pat {
      // impossible: r starts with rep, so u and rep would overlap at the front
      SuffixMeetsFront(rep, ReplaceAll(t[|pat|..], pat, rep), p, k);
    } else {
      var r1 := ReplaceAll(t[1..], pat, rep);
      assert r == [t[0]] + r1;
      if |u| > 1 {
        assert p[k + 1..] == u[1..];
        assert r1[..|u| - 1] == r[1..|u|];
        ReplaceKeepsSuffixPrefix(t[1..], pat, rep, p, k + 1);
        assert t[..|u|] == [t[0]] + t[1..][..|u| - 1];
      }
    }
  }

  /** A character in front of a text without p creates no p unless it starts one. */
  lemma ConsCreatesNone(c: char, r1: string, p: string)
    requires !Contains(r1, p) && !At([c] + r1, p, 0)
    ensures !Contains([c] + r1, p)
  {
    forall i | 0 <= i <= |[c] + r1|
      ensures !At([c] + r1, p, i)
    {
      if i >= 1 {
        AtAfterPrefix([c], r1, p, i);
      }
    }
  }

  /**
   * Replacing pat by rep leaves no occurrence of p when p and rep are
   * compatible and either p is pat itself or the input has no p to begin with.
   */
  lemma {:induction false} ReplaceAvoids(s: string, pat: string, rep: string, p: string)
    requires |pat| > 0 && |p| > 0 && Compatible(p, rep)
    requires p == pat || !Contains(s, p)
    ensures !Contains(ReplaceAll(s, pat, rep), p)
    decreases |s|
  {
    if |s| < |pat| {
    } else if s[..|pat|] == pat {
      var s1 := s[|pat|..];
      if p != pat {
        NotInSuffix(s, |pat|, p);
      }
      ReplaceAvoids(s1, pat, rep, p);
      PrefixCreatesNone(rep, ReplaceAll(s1, pat, rep), p);
    } else {
      var s1 := s[1..];
      if p != pat {
        NotInSuffix(s, 1, p);
      }
      ReplaceAvoids(s1, pat, rep, p);
      var r1 := ReplaceAll(s1, pat, rep);
      if At([s[0]] + r1, p, 0) {
        if |p| > 1 {
          assert r1[..|p| - 1] == ([s[0]] + r1)[1..|p|];
          ReplaceKeepsSuffixPrefix(s1, pat, rep, p, 1);
        }
        assert At(s, p, 0);
      }
      ConsCreatesNone(s[0], r1, p);
    }
  }

  function IsDigit(c: char): bool { '0' <= c <= '9' }

  /** The decimal digits of n, without leading zeros. */
  function Decimal(n: nat): (r: string)
    ensures |r| > 0
    ensures forall i :: 0 <= i < |r| ==> IsDigit(r[i])
    ensures n < 10 <==> |r| == 1
    ensures 10 <= n < 100 ==> |r| == 2
  {
    if n < 10 then [('0' as int + n) as char]
    else Decimal(n / 10) + [('0' as int + n % 10) as char]
  }

  /** Python's `f"{n:02d}"`: the decimal digits, zero-padded to width 2. */
  function Pad2(n: nat): (r: string)
    ensures forall i :: 0 <= i < |r| ==> IsDigit(r[i])
    ensures n < 100 ==> |r| == 2
    ensures n >= 10 ==> r == Decimal(n)
  {
    if n < 10 then "0" + Decimal(n) else Decimal(n)
  }

  /** Reading a string of decimal digits back as a number. */
  function ParseDecimal(s: string): nat
  {
    if |s| == 0 then 0
    else 10 * ParseDecimal(s[..|s| - 1]) + (if IsDigit(s[|s| - 1]) then s[|s| - 1] as int - '0' as int else 0)
  }

  lemma {:induction false} DecimalRoundTrip(n: nat)
    ensures ParseDecimal(Decimal(n)) == n
  {
    if n >= 10 {
      DecimalRoundTrip(n / 10);
      var r := Decimal(n);
      assert r[..|r| - 1] == Decimal(n / 10);
    }
  }

  /** The zero-padded form still reads back as n, so distinct numbers get distinct names. */
  lemma Pad2RoundTrip(n: nat)
    ensures ParseDecimal(Pad2(n)) == n
  {
    DecimalRoundTrip(n);
    if n < 10 {
      var r := Pad2(n);
      assert r[..|r| - 1] == "0";
      assert ParseDecimal("0") == 0 by {
        assert "0"[..0] == "";
      }
    }
  }

  /** Names built from the same prefix and suffix around different numbers differ. */
  lemma NumberedNamesDistinct(prefix: string, suffix: string, i: nat, j: nat)
    requires i != j
    ensures prefix + Pad2(i) + suffix != prefix + Pad2(j) + suffix
  {
    Pad2RoundTrip(i);
    Pad2RoundTrip(j);
    var a, b := prefix + Pad2(i) + suffix, prefix + Pad2(j) + suffix;
    if |a| == |b| {
      assert a[|prefix|..|a| - |suffix|] == Pad2(i);
      assert b[|prefix|..|b| - |suffix|] == Pad2(j);
    }
  }

  function LowerChar(c: char): char
  {
    if 'A' <= c <= 'Z' then (c as int - 'A' as int + 'a' as int) as char else c
  }

  /** Python's `str.lower()` on ASCII letters. */
  function Lower(s: string): (r: string)
    ensures |r| == |s|
    ensures forall i :: 0 <= i < |s| ==> r[i] == LowerChar(s[i])
  {
    seq(|s|, i requires 0 <= i < |s| => LowerChar(s[i]))
  }

  lemma LowerIdempotent(s: string)
    ensures Lower(Lower(s)) == Lower(s)
    ensures forall i :: 0 <= i < |s| ==> !('A' <= Lower(s)[i] <= 'Z')
  {
  }

  /** `f"logo_{n:02d}.png"`, the name the extractors give the n-th logo file. */
  function LogoFilename(n: nat): string
  {
    "logo_" + Pad2(n) + ".png"
  }
}

=== FILE: validator.dfy ===
/**
 * The boundary validator shared by the advanced and the spaced extractors
 * (the spaced file carries a near-copy of the same three functions): a
 * colour-scheme test on the crop's RGB pixels, a count of the crop's dark
 * border strips, and the selection each extractor makes from the reports.
 *
 * K-means clustering (of the colours, then of their hues) and OpenCV's
 * RGB-to-HSV conversion are foreign calls: their outputs come in as a
 * Palette. Only the rules the scripts apply to those outputs are modelled.
 */
module Validator {
  import opened Base
  import opened Geometry
  import opened Grid
  import opened Seqs

  /** A pixel is colour content when its channel sum is below 720 (240 per channel). */
  predicate IsColorContent(p: Rgb)
  {
    p.r + p.g + p.b < 720
  }

  /** The colour-content pixels of a region, in scan order. */
  function ContentPixels(pixels: seq<Rgb>): (r: seq<Rgb>)
    ensures |r| == CountWhere(pixels, IsColorContent)
    ensures forall p :: p in r <==> p in pixels && IsColorContent(p)
  {
    CountIsFilterLength(pixels, IsColorContent);
    Filter(pixels, IsColorContent)
  }

  /**
   * `analyze_color_scheme`: the number of k-means clusters it asks for,
   * min(nColors, number of content pixels), or 0 when it returns ([], [])
   * instead, which happens exactly when fewer than two clusters would result.
   */
  function ClusterCount(pixels: seq<Rgb>, nColors: nat): (k: nat)
    ensures k == 0 <==> |ContentPixels(pixels)| < 2 || nColors < 2
    ensures k > 0 ==> 2 <= k && k <= nColors && k <= |ContentPixels(pixels)|
    ensures k > 0 ==> k == nColors || k == |ContentPixels(pixels)|
  {
    var n := |ContentPixels(pixels)|;
    if n == 0 then 0
    else
      var k := Min(nColors, n);
      if k < 2 then 0 else k
  }

  /** With the palette size the detector asks for (8), the scheme is empty exactly when there are fewer than two content pixels. */
  lemma SchemeEmpty(pixels: seq<Rgb>)
    ensures ClusterCount(pixels, 8) == 0 <==> CountWhere(pixels, IsColorContent) < 2
  {
  }

  /**
   * What the foreign calls return for one region: the colour centres k-means
   * finds, and the centres (in OpenCV's 0..180 hue scale) of the second
   * k-means run over those colours' hues.
   */
  datatype Palette = Palette(colors: seq<Rgb>, hueCentres: seq<real>)

  /** The greatest hue centre. */
  function MaxHue(hs: seq<real>): (m: real)
    requires |hs| > 0
    ensures m in hs
    ensures forall k :: 0 <= k < |hs| ==> hs[k] <= m
  {
    if |hs| == 1 then hs[0]
    else
      var m := MaxHue(hs[1..]);
      if hs[0] >= m then hs[0] else m
  }

  /** The least hue centre. */
  function MinHue(hs: seq<real>): (m: real)
    requires |hs| > 0
    ensures m in hs
    ensures forall k :: 0 <= k < |hs| ==> m <= hs[k]
  {
    if |hs| == 1 then hs[0]
    else
      var m := MinHue(hs[1..]);
      if hs[0] <= m then hs[0] else m
  }

  /** All hue centres lie on OpenCV's hue scale. */
  predicate OnHueScale(hs: seq<real>)
  {
    forall k :: 0 <= k < |hs| ==> 0.0 <= hs[k] <= 180.0
  }

  /** The spread of the hue centres, max - min: non-negative, and at most 180 on the hue scale. */
  function Spread(hs: seq<real>): (d: real)
    requires |hs| > 0
    ensures d >= 0.0
    ensures OnHueScale(hs) ==> d <= 180.0
    ensures exists a, b :: 0 <= a < |hs| && 0 <= b < |hs| && d == hs[a] - hs[b]
  {
    var hi, lo := MaxHue(hs), MinHue(hs);
    var a :| 0 <= a < |hs| && hs[a] == hi;
    var b :| 0 <= b < |hs| && hs[b] == lo;
    hi - lo
  }

  /**
   * The wrap-around rule: a spread above 90 becomes min(d, 180 - d), and the
   * region is flagged when the result exceeds 60. On the hue scale this is
   * exactly a spread strictly between 60 and 120.
   */
  function HueWrapFlag(d: real): (flag: bool)
    ensures 0.0 <= d <= 180.0 ==> (flag <==> 60.0 < d < 120.0)
  {
    var wrapped := if d > 90.0 then (if d <= 180.0 - d then d else 180.0 - d) else d;
    wrapped > 60.0
  }

  /** Hues 0 and 170 are only 10 apart around the circle, so they are not flagged. */
  lemma NearRedNotFlagged()
    ensures !HueWrapFlag(Spread([0.0, 170.0]))
  {
    var hs := [0.0, 170.0];
    assert MaxHue(hs) == 170.0 by { assert MaxHue(hs[1..]) == 170.0; }
    assert MinHue(hs) == 0.0 by { assert MinHue(hs[1..]) == 170.0; }
  }

  /**
   * `detect_color_inconsistencies` (called with 8 colours): never with fewer
   * than two colours; otherwise flagged exactly when there are two hue
   * centres or more and the spread rule fires.
   */
  function ColorInconsistent(pixels: seq<Rgb>, palette: Palette): (flag: bool)
    ensures flag ==> CountWhere(pixels, IsColorContent) >= 2 && |palette.colors| >= 2
    ensures OnHueScale(palette.hueCentres) ==>
              (flag <==> CountWhere(pixels, IsColorContent) >= 2 && |palette.colors| >= 2 &&
                         |palette.hueCentres| >= 2 && 60.0 < Spread(palette.hueCentres) < 120.0)
  {
    var colors := if ClusterCount(pixels, 8) == 0 then [] else palette.colors;
    if |colors| < 2 then false
    else if |palette.hueCentres| >= 2 then HueWrapFlag(Spread(palette.hueCentres))
    else false
  }

  /** Depth of the border strips, in pixels. */
  const BorderDepth: nat := 10

  /** Number of the four 10-pixel border strips whose mean grey level is below 240. */
  function BorderContentCount(crop: Image<int>, width: nat): (n: nat)
    requires IsRect(crop, width, |crop|)
    ensures n <= 4
    ensures n == CountTrue(DarkBorders(crop, width, BorderDepth, 240))
  {
    CountTrue(DarkBorders(crop, width, BorderDepth, 240))
  }

  /** One validation report. */
  datatype Report = Report(company: string, coordinates: Box, colorInconsistencies: bool,
                           borderContentCount: nat, needsAdjustment: bool)

  /** The RGB pixels of the crop, row after row; PIL fills outside the image with black. */
  function RgbCrop(rgb: Image<Rgb>, b: Box): seq<Rgb>
    requires b.w >= 0 && b.h >= 0
  {
    Flatten(Crop(rgb, b.x, b.y, b.w, b.h, Rgb(0, 0, 0)))
  }

  /** The grey-level crop. */
  function LumaCrop(luma: Image<int>, b: Box): (c: Image<int>)
    requires b.w >= 0 && b.h >= 0
    ensures IsRect(c, b.w, b.h)
  {
    Crop(luma, b.x, b.y, b.w, b.h, 0)
  }

  /**
   * `validate_logo_boundaries`: the coordinates and name are echoed, the
   * border count lies in 0..4, and the region needs adjustment exactly when
   * its colours are inconsistent or more than two borders are dark, so one
   * or two touching edges alone never trigger it.
   */
  function ValidateLogoBoundaries(rgb: Image<Rgb>, luma: Image<int>, b: Box, company: string, palette: Palette): (v: Report)
    requires b.w >= 0 && b.h >= 0
    ensures v.company == company && v.coordinates == b
    ensures v.borderContentCount <= 4
    ensures v.colorInconsistencies == ColorInconsistent(RgbCrop(rgb, b), palette)
    ensures v.borderContentCount == CountTrue(DarkBorders(LumaCrop(luma, b), b.w, BorderDepth, 240))
    ensures v.needsAdjustment <==> v.colorInconsistencies || v.borderContentCount >= 3
  {
    var crop := LumaCrop(luma, b);
    var flag := ColorInconsistent(RgbCrop(rgb, b), palette);
    var count := BorderContentCount(crop, b.w);
    Report(company, b, flag, count, flag || count > 2)
  }

  /** Every strip of an image whose grey levels are all at least 240 is bright. */
  lemma BrightBorders(crop: Image<int>, width: nat)
    requires IsRect(crop, width, |crop|)
    requires forall i, j :: 0 <= i < |crop| && 0 <= j < width ==> crop[i][j] >= 240
    ensures BorderContentCount(crop, width) == 0
  {
    var k := BorderDepth;
    BrightNotBelow(TopStrip(crop, k), 240);
    BrightNotBelow(BottomStrip(crop, k), 240);
    BrightNotBelow(LeftStrip(crop, width, k), 240);
    BrightNotBelow(RightStrip(crop, width, k), 240);
    NoFlags(DarkBorders(crop, width, k, 240));
  }

  lemma {:induction false} NoFlags(flags: seq<bool>)
    requires forall k :: 0 <= k < |flags| ==> !flags[k]
    ensures CountTrue(flags) == 0
  {
    if |flags| > 0 {
      NoFlags(flags[1..]);
    }
  }

  /**
   * A crop with at most one colour-content pixel and no grey level below 240
   * passes: the colour test cannot fire and no border is dark.
   */
  lemma PlainRegionPasses(rgb: Image<Rgb>, luma: Image<int>, b: Box, company: string, palette: Palette)
    requires b.w >= 0 && b.h >= 0
    requires CountWhere(RgbCrop(rgb, b), IsColorContent) < 2
    requires forall i, j :: 0 <= i < b.h && 0 <= j < b.w ==> LumaCrop(luma, b)[i][j] >= 240
    ensures !ValidateLogoBoundaries(rgb, luma, b, company, palette).needsAdjustment
  {
    BrightBorders(LumaCrop(luma, b), b.w);
  }

  /** One named box of a coordinate table. */
  datatype Placement = Placement(name: string, box: Box)

  /** The file a placement is saved under. */
  function OutputName(name: string): string
  {
    "logo-" + name + ".png"
  }

  predicate NeedsAdjustment(v: Report) { v.needsAdjustment }

  predicate Passes(v: Report) { !v.needsAdjustment }

  /**
   * The advanced extractor saves only the placements whose report does not
   * need adjustment, in table order; valid and needing adjustment add up to
   * the total.
   */
  function SaveValid(coords: seq<Placement>, reports: seq<Report>): (saved: seq<string>)
    requires |reports| == |coords|
    ensures |saved| + CountWhere(reports, NeedsAdjustment) == |coords|
    ensures |saved| == CountWhere(reports, Passes)
    ensures forall k :: 0 <= k < |coords| && !reports[k].needsAdjustment ==> OutputName(coords[k].name) in saved
    ensures forall s :: s in saved ==>
              exists k :: 0 <= k < |coords| && !reports[k].needsAdjustment && s == OutputName(coords[k].name)
  {
    if |coords| == 0 then []
    else
      var rest := SaveValid(coords[1..], reports[1..]);
      assert forall k :: 1 <= k < |coords| ==> coords[k] == coords[1..][k - 1] && reports[k] == reports[1..][k - 1];
      if reports[0].needsAdjustment then rest else [OutputName(coords[0].name)] + rest
  }

  /** Input order is kept: saving a + b saves what a saves, then what b saves. */
  lemma {:induction false} SaveValidAppend(c1: seq<Placement>, c2: seq<Placement>, r1: seq<Report>, r2: seq<Report>)
    requires |r1| == |c1| && |r2| == |c2|
    ensures SaveValid(c1 + c2, r1 + r2) == SaveValid(c1, r1) + SaveValid(c2, r2)
  {
    if |c1| > 0 {
      assert (c1 + c2)[1..] == c1[1..] + c2;
      assert (r1 + r2)[1..] == r1[1..] + r2;
      SaveValidAppend(c1[1..], c2, r1[1..], r2);
    } else {
      assert c1 + c2 == c2 && r1 + r2 == r2;
    }
  }

  /** The spaced extractor's summary: what it saved, and how many passed. */
  datatype Summary = Summary(saved: seq<string>, validCount: nat)

  /**
   * The spaced extractor saves every placement regardless of its report;
   * valid plus needing adjustment equals the number extracted.
   */
  function SaveAll(coords: seq<Placement>, reports: seq<Report>): (s: Summary)
    requires |reports| == |coords|
    ensures |s.saved| == |coords|
    ensures forall k :: 0 <= k < |coords| ==> s.saved[k] == OutputName(coords[k].name)
    ensures s.validCount + CountWhere(reports, NeedsAdjustment) == |s.saved|
  {
    PassOrNeeds(reports);
    Summary(seq(|coords|, k requires 0 <= k < |coords| => OutputName(coords[k].name)), CountWhere(reports, Passes))
  }

  /** Every report either passes or needs adjustment. */
  lemma {:induction false} PassOrNeeds(reports: seq<Report>)
    ensures CountWhere(reports, Passes) + CountWhere(reports, NeedsAdjustment) == |reports|
  {
    if |reports| > 0 {
      PassOrNeeds(reports[1..]);
    }
  }

  /** Whatever the advanced extractor saves, the spaced one saves too, and the spaced one passes as many. */
  lemma AdvancedWithinSpaced(coords: seq<Placement>, reports: seq<Report>)
    requires |reports| == |coords|
    ensures forall s :: s in SaveValid(coords, reports) ==> s in SaveAll(coords, reports).saved
    ensures |SaveValid(coords, reports)| == SaveAll(coords, reports).validCount
  {
    var all := SaveAll(coords, reports).saved;
    forall s | s in SaveValid(coords, reports)
      ensures s in all
    {
      var k :| 0 <= k < |coords| && !reports[k].needsAdjustment && s == OutputName(coords[k].name);
      assert all[k] == s;
    }
  }

  /** The reports for a coordinate table, one per placement, with the palettes the foreign calls give. */
  function ValidateAll(rgb: Image<Rgb>, luma: Image<int>, coords: seq<Placement>, palettes: seq<Palette>): (rs: seq<Report>)
    requires |palettes| == |coords|
    requires forall k :: 0 <= k < |coords| ==> coords[k].box.w >= 0 && coords[k].box.h >= 0
    ensures |rs| == |coords|
    ensures forall k :: 0 <= k < |coords| ==> rs[k].company == coords[k].name && rs[k].coordinates == coords[k].box
    ensures forall k :: 0 <= k < |coords| ==> rs[k] == ValidateLogoBoundaries(rgb, luma, coords[k].box, coords[k].name, palettes[k])
  {
    seq(|coords|, k requires 0 <= k < |coords| => ValidateLogoBoundaries(rgb, luma, coords[k].box, coords[k].name, palettes[k]))
  }
}

=== FILE: website_update.dfy ===
/**
 * Pointing the website's index.html at the renamed logo files: every
 * descriptive path `logos/logo-<company>.png` from a fixed table is replaced
 * by the numbered path `logos/logo_NN.png`, and the logo inventory is grouped
 * by sector.
 */
module WebsiteUpdate {
  import opened Base
  import opened Seqs
  import opened Text
  import opened Mapping

  /**
   * One row of the renaming table: the old file is `logo-<stem>.png`, the
   * new one `logo_<NN>.png` with NN the two-digit number.
   */
  datatype Rename = Rename(stem: string, number: nat)

  /** The old path as it appears in the page: `logos/logo-<stem>.png`. */
  function OldPath(e: Rename): string
  {
    "logos/logo-" + e.stem + ".png"
  }

  /** The new path: `logos/logo_<NN>.png`. */
  function NewPath(e: Rename): string
  {
    "logos/logo_" + Pad2(e.number) + ".png"
  }

  /** The old file stems of the renaming table, first half, in the order the loop visits them. */
  const StemsFirst: seq<string> := [
    "nasa", "us-doe", "los-alamos-national-lab", "stantec", "bechtel", "nm-dot",
    "aecom", "raytheon", "mwh-global", "wilson-company", "rmf-engineering"
  ]

  /** The second half of the stems. */
  const StemsSecond: seq<string> := [
    "ucla", "colorado-springs-utilities", "cross-connection-inc", "red-rochester",
    "frank-lill-son", "futures-mechanical", "set-inc", "dls-construction",
    "twenty20-construction", "los-alamos-research", "pueblo-electric"
  ]

  const Stems: seq<string> := StemsFirst + StemsSecond

  /** The logo number each stem is renamed to, position by position. */
  const Numbers: seq<nat> := [9, 6, 2, 11, 16, 1, 17, 22, 13, 4, 5, 15, 3, 7, 8, 10, 12, 14, 18, 19, 20, 21]

  /** The renaming table. */
  const Table: seq<Rename> :=
    seq(|Stems|, i requires 0 <= i < |Stems| => Rename(Stems[i], if i < |Numbers| then Numbers[i] else 0))

  /** No stem in the table uses an underscore, the character that marks the new names. */
  predicate StemOk(e: Rename)
  {
    '_' !in e.stem
  }

  lemma StemsFirstOk()
    ensures forall i :: 0 <= i < |StemsFirst| ==> '_' !in StemsFirst[i]
  {
  }

  lemma StemsSecondOk()
    ensures forall i :: 0 <= i < |StemsSecond| ==> '_' !in StemsSecond[i]
  {
  }

  lemma TableStemsOk()
    ensures forall e :: e in Table ==> StemOk(e)
    ensures |Table| == 22
  {
    StemsFirstOk();
    StemsSecondOk();
    assert |Stems| == 22;
    forall e | e in Table
      ensures StemOk(e)
    {
      var i :| 0 <= i < |Table| && Table[i] == e;
      if i < |StemsFirst| {
        assert Stems[i] == StemsFirst[i];
      } else {
        assert Stems[i] == StemsSecond[i - |StemsFirst|];
      }
    }
  }

  lemma OldPathShape(e: Rename)
    requires StemOk(e)
    ensures var o := OldPath(e);
      |o| >= 15 && o[0] == 'l' && o[4] == 's' && o[10] == '-' &&
      o[|o| - 1] == 'g' && o[|o| - 2] == 'n' && '_' !in o
  {
    var o := OldPath(e);
    forall j | 0 <= j < |o|
      ensures o[j] != '_'
    {
      if 11 <= j < 11 + |e.stem| {
        assert o[j] == e.stem[j - 11];
      }
    }
  }

  lemma NewPathShape(e: Rename)
    ensures var n := NewPath(e);
      |n| >= 15 && n[..10] == "logos/logo" && n[10] == '_' && '-' !in n &&
      (forall j :: 0 <= j < |n| && n[j] == 'l' ==> j == 0 || j == 6)
  {
    var n := NewPath(e);
    var d := Pad2(e.number);
    assert |d| >= 1;
    forall j | 0 <= j < |n|
      ensures n[j] != '-' && (n[j] == 'l' ==> j == 0 || j == 6)
    {
      if 11 <= j < 11 + |d| {
        assert n[j] == d[j - 11];
        assert IsDigit(d[j - 11]);
      }
    }
  }

  /**
   * Writing any new path can never produce any old path: the new names carry
   * an underscore where the old ones carry a hyphen, and no end of one lines
   * up with the start of the other.
   */
  lemma OldNewCompatible(a: Rename, b: Rename)
    requires StemOk(a)
    ensures Compatible(OldPath(a), NewPath(b))
  {
    OldPathShape(a);
    NewPathShape(b);
    NoOverlapInside(OldPath(a), NewPath(b));
    NoOverlapInside(NewPath(b), OldPath(a));
    OldEndNotNewStart(OldPath(a), NewPath(b));
    NewEndNotOldStart(OldPath(a), NewPath(b));
  }

  /** A string whose character at index 10 appears nowhere in s does not occur in s. */
  lemma NoOverlapInside(s: string, p: string)
    requires |p| > 10 && p[10] !in s
    ensures !Contains(s, p)
  {
    forall i | 0 <= i && i + |p| <= |s|
      ensures !At(s, p, i)
    {
      assert s[i..i + |p|][10] == s[i + 10];
    }
  }

  /** No proper suffix of an old path starts a new path. */
  lemma OldEndNotNewStart(o: string, n: string)
    requires |o| >= 15 && '_' !in o && o[|o| - 1] == 'g' && o[|o| - 2] == 'n'
    requires |n| >= 15 && n[..10] == "logos/logo" && n[10] == '_'
    ensures forall l :: 0 < l < |o| && l <= |n| ==> o[|o| - l..] != n[..l]
  {
    forall l | 0 < l < |o| && l <= |n|
      ensures o[|o| - l..] != n[..l]
    {
      if l >= 11 {
        assert o[|o| - l..][10] != n[..l][10];
      } else if n[l - 1] != 'g' {
        assert o[|o| - l..][l - 1] != n[..l][l - 1];
      } else {
        assert n[..10][l - 1] == 'g';
        assert o[|o| - l..][l - 2] != n[..l][l - 2] by {
          assert n[..10][l - 2] == 'o';
        }
      }
    }
  }

  /** No proper suffix of a new path starts an old path. */
  lemma NewEndNotOldStart(o: string, n: string)
    requires |o| >= 15 && o[0] == 'l' && o[4] == 's' && o[10] == '-'
    requires |n| >= 15 && n[..10] == "logos/logo" && n[10] == '_'
    requires forall j :: 0 <= j < |n| && n[j] == 'l' ==> j == 0 || j == 6
    ensures forall l :: 0 < l < |o| && l <= |n| ==> o[..l] != n[|n| - l..]
  {
    forall l | 0 < l < |o| && l <= |n|
      ensures o[..l] != n[|n| - l..]
    {
      if n[|n| - l] != 'l' {
        assert o[..l][0] != n[|n| - l..][0];
      } else if |n| - l == 0 {
        assert o[..l][10] != n[|n| - l..][10];
      } else {
        assert o[..l][4] != n[|n| - l..][4];
      }
    }
  }

  /**
   * Replacing row k's old path, in a text already free of the old paths of
   * rows before k, leaves a text free of the old paths of rows up to k.
   */
  lemma ReplaceKeepsClean(table: seq<Rename>, current: string, k: nat)
    requires k < |table|
    requires forall e :: e in table ==> StemOk(e)
    requires forall i :: 0 <= i < k ==> !Contains(current, OldPath(table[i]))
    ensures forall i :: 0 <= i <= k ==>
              !Contains(ReplaceAll(current, OldPath(table[k]), NewPath(table[k])), OldPath(table[i]))
  {
    var e := table[k];
    forall i | 0 <= i <= k
      ensures !Contains(ReplaceAll(current, OldPath(e), NewPath(e)), OldPath(table[i]))
    {
      assert table[i] in table;
      OldNewCompatible(table[i], e);
      ReplaceAvoids(current, OldPath(e), NewPath(e), OldPath(table[i]));
    }
  }

  /** The page after the first k rows of the table, each replacing its old path whether or not it occurs. */
  function RenamedUpTo(html: string, table: seq<Rename>, k: nat): string
    requires k <= |table|
  {
    if k == 0 then html
    else ReplaceAll(RenamedUpTo(html, table, k - 1), OldPath(table[k - 1]), NewPath(table[k - 1]))
  }

  /** How many of the first k rows find their old path in the page as it stands at their turn. */
  function AppliedUpTo(html: string, table: seq<Rename>, k: nat): nat
    requires k <= |table|
  {
    if k == 0 then 0
    else AppliedUpTo(html, table, k - 1) + (if Contains(RenamedUpTo(html, table, k - 1), OldPath(table[k - 1])) then 1 else 0)
  }

  /** The row's old path occurs in the page. */
  function OccursIn(html: string): Rename -> bool
  {
    e => Contains(html, OldPath(e))
  }

  /** Renaming never brings in an old path that the original page lacked. */
  lemma {:induction false} OnlyOriginalPaths(html: string, table: seq<Rename>, k: nat, e: Rename)
    requires k <= |table|
    requires forall x :: x in table ==> StemOk(x)
    requires StemOk(e)
    ensures Contains(RenamedUpTo(html, table, k), OldPath(e)) ==> Contains(html, OldPath(e))
  {
    if k > 0 && !Contains(html, OldPath(e)) {
      OnlyOriginalPaths(html, table, k - 1, e);
      OldNewCompatible(e, table[k - 1]);
      ReplaceAvoids(RenamedUpTo(html, table, k - 1), OldPath(table[k - 1]), NewPath(table[k - 1]), OldPath(e));
    }
  }

  /** What the update reports: the rewritten page, how many table rows applied, and whether it was written. */
  datatype Update = Update(html: string, replacements: nat, written: bool)

  /**
   * The replace loop over a renaming table whose stems carry no underscore:
   * each row whose old path occurs in the current text has all its
   * occurrences replaced, and counts once. With no row applied the page is
   * not written.
   */
  method ApplyRenames(html: string, table: seq<Rename>) returns (u: Update)
    requires forall e :: e in table ==> StemOk(e)
    ensures u.replacements <= |table|
    ensures u.written <==> u.replacements > 0
    ensures u.replacements == 0 <==> forall e :: e in table ==> !Contains(html, OldPath(e))
    ensures u.replacements == 0 ==> u.html == html
    ensures forall e :: e in table ==> !Contains(u.html, OldPath(e))
    ensures u.html == RenamedUpTo(html, table, |table|)
    ensures u.replacements == AppliedUpTo(html, table, |table|)
    ensures u.replacements <= CountWhere(table, OccursIn(html))
  {
    var current := html;
    var count := 0;
    var k := 0;
    while k < |table|
      invariant 0 <= k <= |table|
      invariant current == RenamedUpTo(html, table, k)
      invariant count == AppliedUpTo(html, table, k)
    {
      var e := table[k];
      assert RenamedUpTo(html, table, k + 1) == ReplaceAll(current, OldPath(e), NewPath(e));
      assert AppliedUpTo(html, table, k + 1) == count + (if Contains(current, OldPath(e)) then 1 else 0);
      if Contains(current, OldPath(e)) {
        current := ReplaceAll(current, OldPath(e), NewPath(e));
        count := count + 1;
      } else {
        ReplaceAbsent(current, OldPath(e), NewPath(e));
      }
      k := k + 1;
    }
    FoldFacts(html, table);
    u := Update(current, count, count > 0);
  }

  /** The fold over the whole table, restated per row of the table. */
  lemma FoldFacts(html: string, table: seq<Rename>)
    requires forall e :: e in table ==> StemOk(e)
    ensures var n := AppliedUpTo(html, table, |table|);
            n <= |table| && n <= CountWhere(table, OccursIn(html)) &&
            (n == 0 <==> forall e :: e in table ==> !Contains(html, OldPath(e))) &&
            (n == 0 ==> RenamedUpTo(html, table, |table|) == html)
    ensures forall e :: e in table ==> !Contains(RenamedUpTo(html, table, |table|), OldPath(e))
  {
    RenamedClean(html, table, |table|);
    AppliedNone(html, table, |table|);
    AppliedAtMostPresent(html, table, |table|);
    assert table[..|table|] == table;
    forall e | e in table
      ensures !Contains(RenamedUpTo(html, table, |table|), OldPath(e))
      ensures AppliedUpTo(html, table, |table|) == 0 ==> !Contains(html, OldPath(e))
    {
      var i :| 0 <= i < |table| && table[i] == e;
    }
  }

  /** After k rows, none of their old paths is left in the page. */
  lemma {:induction false} RenamedClean(html: string, table: seq<Rename>, k: nat)
    requires k <= |table|
    requires forall e :: e in table ==> StemOk(e)
    ensures forall i :: 0 <= i < k ==> !Contains(RenamedUpTo(html, table, k), OldPath(table[i]))
  {
    if k > 0 {
      RenamedClean(html, table, k - 1);
      ReplaceKeepsClean(table, RenamedUpTo(html, table, k - 1), k - 1);
    }
  }

  /**
   * No row applies exactly when none of the first k old paths occurs in
   * the original page, and then the page is unchanged; at most k rows apply.
   */
  lemma {:induction false} AppliedNone(html: string, table: seq<Rename>, k: nat)
    requires k <= |table|
    requires forall e :: e in table ==> StemOk(e)
    ensures AppliedUpTo(html, table, k) <= k
    ensures AppliedUpTo(html, table, k) == 0 <==> forall i :: 0 <= i < k ==> !Contains(html, OldPath(table[i]))
    ensures AppliedUpTo(html, table, k) == 0 ==> RenamedUpTo(html, table, k) == html
  {
    if k > 0 {
      AppliedNone(html, table, k - 1);
      var prev := RenamedUpTo(html, table, k - 1);
      var e := table[k - 1];
      if AppliedUpTo(html, table, k - 1) == 0 {
        if !Contains(html, OldPath(e)) {
          ReplaceAbsent(prev, OldPath(e), NewPath(e));
        }
      }
    }
  }

  /** Only rows whose old path occurs in the original page can apply. */
  lemma {:induction false} AppliedAtMostPresent(html: string, table: seq<Rename>, k: nat)
    requires k <= |table|
    requires forall e :: e in table ==> StemOk(e)
    ensures AppliedUpTo(html, table, k) <= CountWhere(table[..k], OccursIn(html))
  {
    if k > 0 {
      AppliedAtMostPresent(html, table, k - 1);
      var e := table[k - 1];
      assert table[..k] == table[..k - 1] + [e];
      CountWhereAppend(table[..k - 1], [e], OccursIn(html));
      assert CountWhere([e], OccursIn(html)) == if Contains(html, OldPath(e)) then 1 else 0 by {
        assert [e][1..] == [];
      }
      OnlyOriginalPaths(html, table, k - 1, e);
    }
  }

  /** The page update with the fixed renaming table. */
  method UpdateIndexHtml(html: string) returns (u: Update)
    ensures u.replacements <= 22
    ensures u.written <==> u.replacements > 0
    ensures u.replacements == 0 <==> forall e :: e in Table ==> !Contains(html, OldPath(e))
    ensures u.replacements == 0 ==> u.html == html
    ensures forall e :: e in Table ==> !Contains(u.html, OldPath(e))
    ensures u.html == RenamedUpTo(html, Table, 22)
    ensures u.replacements == AppliedUpTo(html, Table, 22)
    ensures u.replacements <= CountWhere(Table, OccursIn(html))
  {
    TableStemsOk();
    u := ApplyRenames(html, Table);
  }

  /** `logo.get('sector', 'unknown')`. */
  function InventorySector(e: LogoEntry): string
  {
    SectorOr(e, "unknown")
  }

  /** The distinct values of ks, in order of first appearance. */
  function FirstAppearance(ks: seq<string>): (r: seq<string>)
    ensures forall x :: x in r <==> x in ks
    ensures forall i, j :: 0 <= i < j < |r| ==> r[i] != r[j]
  {
    if |ks| == 0 then []
    else
      var r0 := FirstAppearance(ks[..|ks| - 1]);
      if ks[|ks| - 1] in r0 then r0 else r0 + [ks[|ks| - 1]]
  }

  /** The sectors of the logos, defaulted. */
  function Sectors(logos: seq<LogoEntry>): (r: seq<string>)
    ensures |r| == |logos|
    ensures forall i :: 0 <= i < |logos| ==> r[i] == InventorySector(logos[i])
  {
    seq(|logos|, i requires 0 <= i < |logos| => InventorySector(logos[i]))
  }

  /** Membership in the group of sector s. */
  function InSector(s: string): LogoEntry -> bool
  {
    x => InventorySector(x) == s
  }

  /** groups is the grouping of xs: one group per sector in first-appearance order, each in input order. */
  ghost predicate GroupedAs(groups: seq<(string, seq<LogoEntry>)>, xs: seq<LogoEntry>)
  {
    var keys := FirstAppearance(Sectors(xs));
    |groups| == |keys| &&
    forall g :: 0 <= g < |groups| ==> groups[g].0 == keys[g] && groups[g].1 == Filter(xs, InSector(groups[g].0))
  }

  lemma SectorsSnoc(xs: seq<LogoEntry>, e: LogoEntry)
    ensures Sectors(xs + [e]) == Sectors(xs) + [InventorySector(e)]
  {
  }

  lemma FilterSnoc(xs: seq<LogoEntry>, e: LogoEntry, p: LogoEntry -> bool)
    ensures Filter(xs + [e], p) == Filter(xs, p) + (if p(e) then [e] else [])
  {
    FilterAppend(xs, [e], p);
    assert Filter([e], p) == (if p(e) then [e] else []) by {
      assert [e][1..] == [];
    }
  }

  /** Appending a logo whose sector already has a group extends that group only. */
  lemma GroupExisting(groups: seq<(string, seq<LogoEntry>)>, xs: seq<LogoEntry>, e: LogoEntry, g: nat)
    requires GroupedAs(groups, xs)
    requires g < |groups| && groups[g].0 == InventorySector(e)
    ensures GroupedAs(groups[g := (groups[g].0, groups[g].1 + [e])], xs + [e])
  {
    var s := InventorySector(e);
    var keys := FirstAppearance(Sectors(xs));
    SectorsSnoc(xs, e);
    assert (Sectors(xs) + [s])[..|Sectors(xs)|] == Sectors(xs);
    assert s in keys;
    assert FirstAppearance(Sectors(xs + [e])) == keys;
    var ng := groups[g := (groups[g].0, groups[g].1 + [e])];
    forall h | 0 <= h < |ng|
      ensures ng[h].0 == keys[h]
      ensures ng[h].1 == Filter(xs + [e], InSector(ng[h].0))
    {
      FilterSnoc(xs, e, InSector(groups[h].0));
      if h != g {
        assert keys[h] != keys[g];
      }
    }
  }

  /** Appending a logo of a sector not seen yet opens a new group at the end. */
  lemma GroupFresh(groups: seq<(string, seq<LogoEntry>)>, xs: seq<LogoEntry>, e: LogoEntry)
    requires GroupedAs(groups, xs)
    requires forall g :: 0 <= g < |groups| ==> groups[g].0 != InventorySector(e)
    ensures GroupedAs(groups + [(InventorySector(e), [e])], xs + [e])
  {
    var s := InventorySector(e);
    var keys := FirstAppearance(Sectors(xs));
    SectorsSnoc(xs, e);
    assert (Sectors(xs) + [s])[..|Sectors(xs)|] == Sectors(xs);
    assert forall g :: 0 <= g < |keys| ==> keys[g] != s by {
      assert forall g :: 0 <= g < |keys| ==> groups[g].0 == keys[g];
    }
    assert forall x :: x in xs ==> InventorySector(x) in Sectors(xs) by {
      forall x | x in xs
        ensures InventorySector(x) in Sectors(xs)
      {
        var m :| 0 <= m < |xs| && xs[m] == x;
        assert Sectors(xs)[m] == InventorySector(x);
      }
    }
    assert s !in Sectors(xs);
    FilterNone(xs, InSector(s));
    assert FirstAppearance(Sectors(xs + [e])) == keys + [s];
    var ng := groups + [(s, [e])];
    forall h | 0 <= h < |ng|
      ensures ng[h].0 == (keys + [s])[h]
      ensures ng[h].1 == Filter(xs + [e], InSector(ng[h].0))
    {
      FilterSnoc(xs, e, InSector(ng[h].0));
      if h < |groups| {
        assert ng[h] == groups[h] && groups[h].0 == keys[h] && keys[h] != s;
      } else {
        assert ng[h] == (s, [e]);
      }
    }
  }

  /**
   * The inventory's grouping: one group per sector, in order of the sector's
   * first appearance, holding that sector's logos in input order. So every
   * logo lands in exactly one group, its own sector's.
   */
  method GroupBySector(logos: seq<LogoEntry>) returns (groups: seq<(string, seq<LogoEntry>)>)
    ensures |groups| == |FirstAppearance(Sectors(logos))|
    ensures forall g :: 0 <= g < |groups| ==> groups[g].0 == FirstAppearance(Sectors(logos))[g]
    ensures forall g :: 0 <= g < |groups| ==>
              groups[g].1 == Filter(logos, e => InventorySector(e) == groups[g].0)
  {
    groups := [];
    var i := 0;
    while i < |logos|
      invariant 0 <= i <= |logos|
      invariant GroupedAs(groups, logos[..i])
    {
      var e := logos[i];
      var s := InventorySector(e);
      assert logos[..i + 1] == logos[..i] + [e];
      var g := 0;
      while g < |groups| && groups[g].0 != s
        invariant 0 <= g <= |groups|
        invariant forall h :: 0 <= h < g ==> groups[h].0 != s
      {
        g := g + 1;
      }
      if g < |groups| {
        GroupExisting(groups, logos[..i], e, g);
        groups := groups[g := (s, groups[g].1 + [e])];
      } else {
        GroupFresh(groups, logos[..i], e);
        groups := groups + [(s, [e])];
      }
      i := i + 1;
    }
    assert logos[..i] == logos;
  }
}
